=== FILE: README.md ===
# Community enterprise point of sale and ledger, modelled in Dafny

This project models the computing core of a small community-enterprise shop.
Members buy shares at 1,000 baht a share, the enterprise buys produce from
members into a production table, and a point-of-sale page sells from that
stock. The model has two halves:

- **The Express server.** It covers `POST /sales` (settling an order line by
  line), `PATCH /products/:id/stock`, `POST /purchase-history`,
  `GET /accounting` (profit, dividend per share and the numbered ledger) and
  `POST /accounting/auto-calculate` (the daily summary row).
- **The React pages.** It covers the Sales page cart and its confirm button,
  the Accounting page's figures, filter and table order, the Products page's
  filter, totals and stock badges, the Members page's filter, phone sanitiser
  and share-value payloads, and the Reports page's summary figures.

How the model represents things:

- Database tables are sequences in table order, and SQL aggregates are folds.
- Every database call that can fail takes a fault flag as input, so each error
  path is modelled.
- Money is `real`. `CAST(x AS DECIMAL)` rounds half away from zero to an
  integer (`Ledger.Decimal0`).
- A JavaScript `NaN` is `None`.
- `parseInt(x) || 0` is `OrZero`.

Modules and what they model:

| module | file | models |
|---|---|---|
| `Common` | `common.dfy` | Option/Reply, filtering, subsequences, sums |
| `Text` | `text.dfy` | ASCII case folding, `includes`, `startsWith`, `slice`, digit strings, lexicographic order |
| `Sorting` | `sorting.dfy` | a stable insertion sort under any total preorder |
| `Inventory` | `inventory.dfy` | the production table, name lookup, the stock floor, the stock PATCH |
| `Settlement` | `settlement.dfy` | `POST /sales` and `POST /purchase-history` |
| `Ledger` | `ledger.dfy` | `GET /accounting` |
| `AutoCalc` | `autocalc.dfy` | `POST /accounting/auto-calculate` |
| `Cart` | `cart.dfy` | the Sales page cart and `handleConfirmOrder` |
| `CheckoutFlow` | `checkout_flow.dfy` | one confirmation end to end against the server, closing with the auto-calculate post |
| `AccountingPage`, `ProductsPage`, `MembersPage`, `ReportsPage` | one file each | the page computations |

## Model

| member | source | states |
|---|---|---|
| Inventory.ClampedStock | server.cjs:733-735 | the new stock `max(0, current - sold)` is never negative and never below `current - sold`. It is 0 exactly when the sale uses up the stock, and it is at most the current stock when both are non-negative |
| Inventory.ClampTwice | server.cjs:735 | flooring twice, by `q1` and then by `q2`, is the same as flooring once by `q1 + q2` |
| Inventory.LowestByName | server.cjs:719 | the lookup finds nothing only when no product has that exact name. Otherwise it returns a product of that name whose id is the lowest among them |
| Inventory.FirstByNameIsLowest | server.cjs:902 | the `LIMIT 1` lookup without an order finds the same product as the ordered lookup whenever the table is stored in ascending id order |
| Inventory.WriteStock | server.cjs:740-741 | the update rewrites the quantity of exactly the rows with that id. Every other row is unchanged and the table keeps its length |
| Inventory.LowestByNameStable | server.cjs:719 | a stock write does not change which product a name resolves to |
| Inventory.FoundAfterWrite | server.cjs:902-912 | after the sale's stock write, the purchase-history lookup of the same name finds the written row with its new stock |
| Inventory.WriteStockKeepsNonNegative | server.cjs:735-741 | writing a floored stock keeps every stock in the table non-negative |
| Inventory.PatchStock | server.cjs:815-858 | a failed select gives 500 and an unknown id gives 404. A failed update gives 500 with the table unchanged. `soldQuantity` is used as sent. One that `-` reads as NaN (absent, or text such as 'abc') gives a NaN new stock, written as text that later reads as stock 0, and `isOutOfStock` false. A number gives a new stock of at least 0 and at least `current - sold`, equal to it unless 0, and `isOutOfStock` holds exactly when the new stock is 0. Only that id's rows are rewritten, with the stock as it reads back as an integer |
| Inventory.PatchedStock | server.cjs:835 | `Math.max(0, current - sold)`: NaN exactly when the sold quantity is NaN, otherwise not negative, not below `current - sold`, and 0 exactly when `current <= sold` |
| Inventory.PatchedStockWhole | server.cjs:835 | for a whole sold quantity the new stock is the clamped integer stock the sales handler computes |
| Inventory.StoredQuantity | server.cjs:841 | the stock text written back reads as NaN exactly when the new stock is NaN, and otherwise as the whole part of a non-negative stock |
| Inventory.WriteQuantity | server.cjs:840-841 | the update sets the quantity of exactly the rows with that id. Every other row is unchanged and the table keeps its length |
| Inventory.PatchStockWholeQuantity | server.cjs:833-854 | with no faults and a whole sold quantity, a known product's stock becomes `max(0, current - sold)` and `isOutOfStock` holds exactly when that is 0 |
| Inventory.PatchStockWithoutQuantity | server.cjs:817-854 | with no `soldQuantity` a known product is still answered with success and `isOutOfStock` false, while its stock is overwritten with NaN and reads as 0 |
| Settlement.HistoryRowFor | server.cjs:690-708 | each logged row's total is quantity times unit price. The customer id falls back to 1, the category to 'ไม่ระบุ', the order number to the generated one, and the staff is 'ระบบ POS' |
| Settlement.SettleLine | server.cjs:687-770 | a failed insert rejects the line and changes nothing. Otherwise the line's row is appended, its sale id is the new row count, and stocks stay non-negative |
| Settlement.SettleLineCases | server.cjs:718-767 | a failed lookup, a missing product or a failed write each give their own warning and leave the stock untouched. Otherwise the lowest-id product of that name, and only that row, gets `max(0, stock - quantity)`, and `isOutOfStock` is whether that is 0 |
| Settlement.InsertedRowsWithoutFaults | server.cjs:687-709 | when no insert fails, the sale appends exactly one row per order line, in line order |
| Settlement.SettleLines | server.cjs:687-771 | there is one outcome per line. A line is rejected exactly when its insert fails, and each result carries its line's product name. The history grows by exactly the inserted rows, and no stock goes negative |
| Settlement.SettleLinesTouchesOnlyMatches | server.cjs:719-741 | a product that no line resolves to keeps its row unchanged |
| Settlement.OutOfStockNames | server.cjs:778-786 | the list holds the names of exactly the lines flagged out of stock, one per flagged line and in line order. Every flagged line's name is in it, and every name in it is a flagged line's |
| Settlement.PostSales | server.cjs:668-795 | a body without a products array is a 400 with no write. Any failed insert gives a 500, although the other lines' rows and stock writes remain. Otherwise the reply counts the lines, reports one stock update per line in order, lists the out-of-stock names, and echoes the order number. When none was sent it carries a fresh clock reading, which need not match the one in the logged rows |
| Settlement.OneRowPerLine | server.cjs:696-706 | a sale with no failing call logs exactly one row per line, after the existing history, each totalling quantity times price |
| Settlement.PostPurchaseHistory | server.cjs:886-939 | a failed insert is a 500 with nothing changed. Otherwise the row is appended and the reply goes out without waiting for the stock write. The first product of that name gets `max(0, stock - quantity)` unless the lookup or the write fails |
| Ledger.Decimal0 | server.cjs:161 | the decimal cast lands within half a unit of its argument, rounding halves away from zero |
| Ledger.Decimal0OfInteger | server.cjs:161 | the decimal cast leaves whole amounts unchanged |
| Ledger.Revenue | server.cjs:158-161 | with no negative sale total the revenue is not negative |
| Ledger.CostBasis | server.cjs:158-161 | with no negative rounded price or stock the cost basis is not negative |
| Ledger.ProfitOfLoggedSales | server.cjs:158-161 | logging more sales raises the profit by exactly their totals, whatever the production table holds |
| Ledger.TotalShares | server.cjs:172-176 | the share total over members holding shares is never negative |
| Ledger.DividendPerShare | server.cjs:186 | with shares outstanding, the dividend per share times the shares is 30% of the profit, and its sign is the profit's sign. With none outstanding it is 0 |
| Ledger.MemberRows | server.cjs:191-202 | the rows are, in member order, one income row per member whose rounded share value is positive. Each names the member, has the rounded share value as its positive amount, is share capital dated today and carries the share count |
| Ledger.SaleRows | server.cjs:205-215 | there is one income row per purchase-history row, with that row's total and date, named 'ลูกค้า ID: ' plus the customer id |
| Ledger.ProductionRows | server.cjs:218-229 | the rows are, in table order, one expense row per production row with positive rounded price and positive quantity. Each names the member and has price times quantity as its positive amount, dated today |
| Ledger.UnionRows | server.cjs:246-250 | the union has exactly one row per member with shares, per history row and per paid production row, and none of them is a dividend |
| Ledger.LedgerLeIsTotalPreorder | server.cjs:252 | ordering by date descending and then by name ascending is total and transitive |
| Ledger.LedgerRows | server.cjs:246-253 | the ledger is the three sources rearranged, in date-descending then name-ascending order, with no dividend row |
| Ledger.Number | server.cjs:262-266 | the entries keep the ledger order and are numbered consecutively from 1 |
| Ledger.EntryFor | server.cjs:262-276 | each entry puts its amount in the income column or the expense column by its type and zero in the other. Only dividend rows fill the dividend, and `is_loss` holds only for a dividend row under a loss |
| Ledger.GetAccounting | server.cjs:153-291 | the reply holds one entry per source row, numbered 1 to n in ledger order, with no dividend entry. Entry i is ledger row i, in the model's order for tied rows, with its amount in the income or expense column by type. `is_profit` is whether the profit is non-negative. The dividend shown is non-negative, and times the share total it is 30% of the profit's magnitude |
| Ledger.EntriesAreUnionRows | server.cjs:246-276 | the entries carry exactly the rows of the three sources, each as often as it occurs there |
| Ledger.ShownDividend | server.cjs:281 | the dividend in the reply is the magnitude of the computed one |
| Ledger.LedgerReconciles | server.cjs:191-276 | the ledger's income column totals the members' rounded share capital plus all sales, and its expense column totals the paid production cost |
| Ledger.PaidCostIsCostBasis | server.cjs:218-229 | with no negative price or stock, the ledger's expenses equal the cost basis used for the profit |
| Ledger.SharesMatchCapital | server.cjs:172-202 | the share count times 1,000 is the share capital the ledger lists |
| Ledger.SharesScale | server.cjs:172-202 | the share count over members holding shares, times 1,000, is their share capital |
| AutoCalc.FundsTotal | server.cjs:964 | the funds total is 0 when every member's rounded funds are 0, and not negative when none is negative |
| AutoCalc.SharesDivisorAsWritten | server.cjs:1001 | the divisor falls back to 1 only for an empty member table and is otherwise the funds total, 0 included |
| AutoCalc.SharesDivisor | server.cjs:1001 | the divisor is never 0 and agrees with the funds total whenever that is not 0 |
| AutoCalc.SharesDivisorAgrees | server.cjs:1001 | the two divisors differ only where the funds total is 0, where the corrected one is 1 |
| AutoCalc.AutoDividendPerShare | server.cjs:1002 | there is no finite dividend exactly when the profit is positive and the divisor is 0. A loss pays 0, and otherwise the dividend times the divisor is 30% of the profit |
| AutoCalc.ClearToday | server.cjs:1008-1019 | the delete keeps exactly the records that are not income dated today, in order. If it fails, every record stays |
| AutoCalc.AutoCalculateWith | server.cjs:942-1057 | a failed aggregate query is a 500 with no change, and an empty history is "no data". A failed insert or a non-finite dividend is a 500 after the delete has run. On success the summary satisfies profit = revenue − cost, pays 30% of a positive profit and nothing on a loss, and is appended under the next id |
| AutoCalc.AutoCalculateAsWritten | server.cjs:942-1057 | the handler as written agrees with the corrected one whenever the divisor is not 0 |
| AutoCalc.AutoCalculate | server.cjs:1001-1003 | with the corrected divisor and no failing call, every non-empty history gives a summary whose total dividend is 30% of a positive profit and 0 otherwise |
| AutoCalc.AutoCalculateSucceeds | server.cjs:1007-1052 | a run with no failing call over a non-empty history writes a summary that pays 30% of a positive profit and nothing otherwise. Every income record dated today that remains afterwards is the new summary |
| AutoCalc.ZeroSharesLosesTodaysSummary | server.cjs:1001-1035 | for any members whose funds total 0, any non-empty history with positive profit, any store and any day, the handler as written with no faults replies 500 after deleting today's income rows, so no record dated today survives and nothing is written |
| AutoCalc.ZeroSharesExample | server.cjs:1001-1035 | one member with funds 0, one sale of 100 and one income record dated today: the handler as written replies 500 and the store ends empty |
| Cart.SetQuantity | src/pages/Sales.tsx:154-160 | exactly the lines with that id get the new count, and the others are unchanged |
| Cart.Increment | src/pages/Sales.tsx:120-124 | only the lines with that id go up by one, and the cart keeps its length |
| Cart.RemoveFromCart | src/pages/Sales.tsx:163-165 | it keeps exactly the lines with another id, in their order |
| Cart.AddToCart | src/pages/Sales.tsx:99-128 | a product whose stock reads as 0 or less leaves the cart as it was. A new product is appended with count 1. A line at a readable stock limit is unchanged, and otherwise only that line goes up by one. A stock that reads as NaN sets no limit |
| Cart.UpdateCartQuantity | src/pages/Sales.tsx:136-161 | an unknown product is ignored and a count of 0 or less removes the line. A count above a readable stock is refused, and otherwise only that line's count is set. A NaN stock refuses nothing |
| Cart.AddToCartKeepsInv | src/pages/Sales.tsx:99-128 | adding keeps one line per product id, with each count at least 1 and at most the product's stock wherever that reads as a number |
| Cart.IncrementKeepsInv | src/pages/Sales.tsx:111-124 | adding one to a line below its product's readable stock, or to a line whose stock is NaN, keeps the invariant |
| Cart.RemoveFromCartKeepsInv | src/pages/Sales.tsx:163-165 | removing keeps the cart invariant |
| Cart.UpdateCartQuantityKeepsInv | src/pages/Sales.tsx:136-161 | updating keeps the cart invariant |
| Cart.SetQuantityKeepsInv | src/pages/Sales.tsx:145-160 | setting a line to a positive count not above its product's readable stock keeps the invariant |
| Cart.RunKeepsInv | src/pages/Sales.tsx:99-165 | from any cart that meets the invariant, a session of cart actions keeps it |
| Cart.RunFromEmptyKeepsInv | src/pages/Sales.tsx:99-165 | from an empty cart, any session of adds, updates and removals over a fixed product list keeps one line per id, each with a count of at least 1 and at most its stock wherever that reads as a number |
| Cart.NaNStockGrowsWithoutLimit | src/pages/Sales.tsx:99-128 | a product whose stock text reads as NaN, such as "10 kg", can be added any number of times: n clicks raise its count by exactly n |
| Cart.TotalAmount | src/pages/Sales.tsx:174-176 | with no negative price or count the amount due is not negative |
| Cart.TotalItems | src/pages/Sales.tsx:178-180 | with no negative count the item count is not negative, and with every count at least 1 it is at least the number of lines |
| Cart.TotalItemsAtLeastLines | src/pages/Sales.tsx:178-180 | under the invariant the item count is at least the number of lines |
| Cart.AddToCartTotals | src/pages/Sales.tsx:174-180 | an add that changes the cart raises the item count by exactly 1 and the amount by exactly the product's price |
| Cart.StaffName | src/pages/Sales.tsx:244 | the logged-in user's name is used when present and non-empty, and 'ไม่ระบุ' otherwise |
| Cart.ConfirmOrder | src/pages/Sales.tsx:182-245 | nothing is sent without a customer or with an empty cart. Otherwise the sale has one line per cart line, in order, with the cart count as its quantity, plus one history post per cart line totalling price times count |
| Cart.HistoryPostsTotal | src/pages/Sales.tsx:233-245 | the history posts of a confirmation total the cart's amount |
| CheckoutFlow.PostHistories | src/pages/Sales.tsx:233-260 | each history post is reported as failed exactly when its insert fails, the loop goes on after a failure, and stocks stay non-negative |
| CheckoutFlow.PostHistoriesWithoutFaults | src/pages/Sales.tsx:233-260 | when every post succeeds, the history gains exactly the posted rows, in order |
| CheckoutFlow.Checkout | src/pages/Sales.tsx:182-260 | nothing reaches the server without a customer or with an empty cart. A rejected sale stops before any history post. A completed one has one reply per cart line |
| CheckoutFlow.ConfirmAndSummarize | src/pages/Sales.tsx:182-273 | the confirmation's outcome and tables are the checkout's. Only a completed checkout runs the auto-calculate, over the tables the checkout left, and only its financial table is kept |
| CheckoutFlow.ConfirmationWritesSummary | src/pages/Sales.tsx:262-273 | with no failing call and a share divisor that is not 0, every confirmation writes the day's summary under the next id, and it is then the only income record dated today |
| CheckoutFlow.ZeroFundsConfirmationLosesSummary | src/pages/Sales.tsx:262-273 | with members whose funds total 0 and a positive profit after the sale, a completed confirmation deletes today's income records and writes no summary |
| CheckoutFlow.CheckoutLogsEachLineTwice | src/pages/Sales.tsx:221-260 | with no failing call a confirmation logs every cart line twice |
| CheckoutFlow.CheckoutOfSubmission | src/pages/Sales.tsx:221-260 | a confirmation with a customer and a non-empty cart completes, and its database is the sale followed by the history posts |
| CheckoutFlow.SaleThenPost | server.cjs:902-930 | the sale of one line and then its history post both resolve to the same product, so its stock is floored at `s - 2q` and the history grows by 2 |
| CheckoutFlow.StockFlooredTwice | server.cjs:914-918 | flooring a stock by `q` in two writes leaves what one write flooring by `2q` leaves |
| CheckoutFlow.HistoryPostAfterSale | server.cjs:886-930 | after the sale has written the stock, the history post finds the same product again and floors the written stock a second time |
| CheckoutFlow.CheckoutDeductsTwice | src/pages/Sales.tsx:221-260 | one confirmed line of `q` units of a stocked product leaves its stock at `max(0, s - 2q)`, leaves every other product unchanged and writes two history rows |
| AccountingPage.TotalOfKind | src/pages/Accounting.tsx:109-115 | a per-type total is 0 when no transaction has that type, and not negative when that type's amounts are not |
| AccountingPage.TotalOfKindAppend | src/pages/Accounting.tsx:109-115 | the per-type total of two tables together is the sum of their totals |
| AccountingPage.TotalOfKindIsMaskedSum | src/pages/Accounting.tsx:109-115 | a per-type total is the whole-table sum of the amounts of that type |
| AccountingPage.TotalSharesSkipsMissing | src/pages/Accounting.tsx:118 | members without a share count add nothing |
| AccountingPage.DividendIgnoresOtherKinds | src/pages/Accounting.tsx:122 | adding expense or dividend transactions does not change the dividend per share |
| AccountingPage.DividendCell | src/pages/Accounting.tsx:695 | a member's cell is their share count times the dividend per share, and NaN exactly when the share count is absent. |
| AccountingPage.DividendsPayOutIncomeAndStock | src/pages/Accounting.tsx:688-698 | with shares outstanding, the dividend cells of the members that have a share count add up to income plus stock. Every member without one shows NaN |
| AccountingPage.TotalStocks | src/pages/Accounting.tsx:125-129 | the whole-share count is the largest whole number of thousands within the stock total |
| AccountingPage.FilteredTransactions | src/pages/Accounting.tsx:157-168 | it keeps, in order, exactly the transactions passing search, category, type, year prefix and month. With search, category, type and month open, as the page starts, it keeps exactly the selected year's transactions |
| AccountingPage.OnlyYearSelectedKeepsYear | src/pages/Accounting.tsx:157-168 | with an empty search and category, type and month at "all", the table is the transactions dated in the selected year, in order |
| AccountingPage.OpenSelectionKeepsAll | src/pages/Accounting.tsx:157-168 | with an empty search, every selector at "all" and an empty year, the filter keeps every transaction. The page's year selector never offers the empty year, so this bounds what the filter can show |
| AccountingPage.TotalExpense | src/pages/Accounting.tsx:170-177 | the year's completed expenses are 0 when there is none, and not negative when their amounts are not |
| AccountingPage.NetBalanceIsOnePass | src/pages/Accounting.tsx:170-179 | the net balance is one pass over the table: each income adds its amount, each completed expense of the year takes its amount away, and every other transaction counts 0 |
| AccountingPage.YearNarrowsExpense | src/pages/Accounting.tsx:170-179 | with non-negative amounts, a selected year's completed expenses never exceed those of all years |
| AccountingPage.ParseInteger | src/pages/Accounting.tsx:771-772 | a string reads as a number exactly when it is digits, optionally after one minus sign, and then reads as its value |
| AccountingPage.ReferenceNumberOfString | src/pages/Accounting.tsx:771-772 | a reference written from an integer sorts as that integer |
| AccountingPage.ReferenceLeIsTotalPreorder | src/pages/Accounting.tsx:767-774 | ordering by reference number is total and transitive, so the sort is well defined |
| AccountingPage.DisplayOrder | src/pages/Accounting.tsx:767-774 | the table shows a rearrangement of the filtered rows, ascending by reference number |
| ProductsPage.FilteredProducts | src/pages/Products.tsx:177-184 | it keeps, in order, exactly the rows whose name, category, member or staff contains the term, ignoring case, with a missing name or category read as '' |
| ProductsPage.EmptySearchShowsAll | src/pages/Products.tsx:177-184 | an empty search shows every row |
| ProductsPage.RowTotal | src/pages/Products.tsx:432-434 | a row's total is a number exactly when its quantity and price both read as numbers, and is then their product, the row value the totals sum |
| ProductsPage.TotalValue | src/pages/Products.tsx:186-189 | the total value is a number exactly when every quantity and price reads as one, and is then the sum of the row values |
| ProductsPage.TotalQuantity | src/pages/Products.tsx:191-194 | the total quantity is a number exactly when every quantity reads as one, and is then their sum |
| ProductsPage.TotalValueSplitsBySearch | src/pages/Products.tsx:177-189 | the headline value is the value of the shown rows plus that of the hidden ones |
| ProductsPage.Status | src/pages/Products.tsx:446-469 | a row is out of stock exactly at quantity 0, low exactly for other quantities up to 5, and ready otherwise, NaN included |
| ProductsPage.OutOfStockAddsNothing | src/pages/Products.tsx:432-435 | an out-of-stock row with a readable price has row total 0 |
| MembersPage.FilteredMembers | src/pages/Members.tsx:50-53 | it keeps, in order, exactly the members whose name or address contains the term, ignoring case |
| MembersPage.EmptySearchHidesOnlyNameless | src/pages/Members.tsx:50-53 | an empty search hides exactly the members with neither name nor address |
| MembersPage.SanitizePhone | src/pages/Members.tsx:200 | the phone holds only digits, at most 10, and is a prefix of the input's digits. It is all of them when there are 10 or fewer, and the first 10 when there are more |
| MembersPage.SanitizePhoneIdempotent | src/pages/Members.tsx:200 | sanitising twice is the same as sanitising once |
| MembersPage.AddSharesPayload | src/pages/Members.tsx:57-64 | the add form sends the share count as funds and 1,000 times it as share value, or 0 when the count is missing |
| MembersPage.EditShares | src/pages/Members.tsx:368-372 | editing the share field changes only the funds text and the share value, and the share value becomes 1,000 times the new count |
| MembersPage.EditSharesPayload | src/pages/Members.tsx:96-103 | the save sends 1,000 times the funds as share value, which equals the held value whenever that was consistent |
| MembersPage.EditThenSaveConsistent | src/pages/Members.tsx:96-103 | after any sequence of share edits the record is consistent, and the save sends the value the form shows |
| ReportsPage.Normalize | src/pages/Reports.tsx:88-89 | an array body is used as it is and an object's `data` array is used. Anything else gives no rows |
| ReportsPage.TotalIncome | src/pages/Reports.tsx:228-231 | the income total is the sum over the rows whose income reads as a number, and is not negative when those are not |
| ReportsPage.TotalExpense | src/pages/Reports.tsx:233-236 | the expense total is the sum over the rows whose expense reads as a number, and is not negative when those are not |
| ReportsPage.NetProfitIsRowByRow | src/pages/Reports.tsx:228-238 | the net profit is the sum over the rows of each row's income less its expense |
| ReportsPage.ReportTotals | src/pages/Reports.tsx:228-238 | over an unwrapped `/accounting` body, the page's income and expense totals are the body's column totals |
| ReportsPage.TotalProductionMatchesProductsPage | src/pages/Reports.tsx:240-244 | where every field is readable, the production value shown equals the Products page's total value |
| ReportsPage.TotalProduction | src/pages/Reports.tsx:240-244 | only rows whose quantity and price both read as numbers contribute, and with no negative reading the total is not negative |
| ReportsPage.TotalShares | src/pages/Reports.tsx:257-260 | the share count is the sum over the members whose funds read as a number |
| ReportsPage.ShareValueShown | src/pages/Reports.tsx:412 | the share value shown is 1,000 times the funds total, and is non-negative for non-negative funds |
| ReportsPage.ShareValueShownIsMembersColumn | src/pages/Reports.tsx:408-412 | when both pages read the same funds and every member record holds 1,000 times its funds as share value, the share value shown is the total of the Members page's share-value column |
| ReportsPage.ReportsOverAccounting | src/pages/Reports.tsx:228-238 | over the ledger, the page's income is share capital plus sales and its expense is the paid production cost. With no negative price or stock, its net profit is the server's profit plus the share capital |
| Sorting.SortBy | src/pages/Accounting.tsx:767-774 | the sort returns a rearrangement of its input, ordered by the comparator |
| Sorting.SortSum | server.cjs:246-253 | sorting does not change any column total |
| Text.IncludesIff | src/pages/Accounting.tsx:159-162 | `includes` holds exactly when the term occurs at some position |
| Text.LexLeTotal | server.cjs:252 | any two names are comparable by `ORDER BY person_name` |
| Text.LexLeAntisymmetric | server.cjs:252 | two names that each sort no later than the other are equal |
| Text.LexLeTransitive | server.cjs:252 | the name order is transitive |
| Text.NatToStringRoundTrip | server.cjs:207 | a number written in decimal reads back as itself |

## Left out

- The Express routing and the MySQL connection are not modelled. Each query is an input table plus a fault flag, and SQL text, logging and HTTP headers are left out.
- `GET /accounting`'s query failures are not modelled. The two aggregate queries and the union query can each fail with a 500 (server.cjs:164-169, server.cjs:255-259).
- The `dividendSql` query in `GET /accounting` is left out because it is built but never run. The `description` texts of ledger rows are left out because they are only display strings.
- Concurrency is left out. Lines of `POST /sales` settle one after another in input order. The read-then-write stock race and the interleaving of `Promise.all` are not modelled.
- `POST /purchase-history` sends its reply before its stock write completes. The model applies the write at once.
- The sale id and the history id are modelled as the new row count, which assumes an auto-increment key with no gaps.
- Settlement.HistoryRowFor: every line of one sale takes its generated order number from a single clock reading. The handler reads `Date.now()` again for each line (server.cjs:700), so lines of one sale may carry different generated numbers.
- CheckoutFlow.ConfirmAndSummarize: a network failure of the auto-calculate request is modelled only through `AutoCalc`'s fault flags. The page ignores the reply either way.
- The clock is left out. `Date.now()` order numbers, `CURDATE()` and today's ISO date are inputs (`Settlement.Clock`), and dates are ISO strings compared character by character.
- MySQL collation is approximated. `ORDER BY person_name` compares code points, and `WHERE product_name = ?` is exact equality.
- Case folding covers ASCII only. `toLowerCase` is modelled on ASCII letters, which covers the Latin search terms, while Thai has no case.
- Floating point is left out. Money is exact `real`, NaN is `None`, and `toLocaleString` formatting is not modelled.
- `Number` and `parseFloat` are not modelled as text readers. The pages' numeric fields are taken as already read (`Some(value)`, or `None` for NaN). `MembersPage` takes `Number` as a parameter.
- AccountingPage.ParseInteger: reads only an optional minus sign followed by decimal digits. Whitespace, fractions, exponents and hex that `Number` would also accept are left out.
- Stock and cart counts are integers, as `parseInt` makes them on the server. The one exception is `PATCH /products/:id/stock`, which takes `soldQuantity` unparsed (see `Inventory.PatchStock` below).
- Inventory.PatchStock: a fractional new stock is modelled as the whole number `parseInt` reads back from the stored text. A page reading the column with `Number` or `parseFloat` would see the fraction, and exponent forms of `toString` are not modelled.
- Ledger.LedgerRows: rows that tie on date and name keep their `UNION ALL` order. MySQL leaves the order of such rows unspecified, and with it their `finance_id` (server.cjs:252, server.cjs:263), so the model fixes one of the orders the database may return.
- The Accounting page's figures are modelled over a given transaction list. The page fetches it from `/transactions` (src/pages/Accounting.tsx:92, src/pages/Accounting.tsx:133), a route neither server defines, so in the running system the list stays empty.
- AccountingPage.DividendsPayOutIncomeAndStock: the page reads `member.shares`, but `/members` returns `SELECT *` of the member table (server.cjs:31-36), whose columns as written (server.cjs:40-41) include no `shares`. In the running system every dividend cell is therefore NaN and only the case with a share count says anything.
- Cart.TotalAmount: the price is taken as a number. `Number(product.price || 0)` of non-numeric text is NaN (src/pages/Sales.tsx:70), which makes the amount NaN. This is not modelled.
- SQL NULL funds are left out. `AutoCalc` takes every member's funds as a number, so a member table whose funds are all NULL, which `|| 1` would also catch, is not modelled.
- `GET /accounting` divides the share value by 1,000 at MySQL's DECIMAL scale. The model divides exactly.
- MembersPage.EditSharesPayload: the share value is held as a number rather than as the text `toString()` produces.
- ReportsPage.Normalize: a `null` body, which makes the page throw, is treated like any other non-array (no rows).
- The shadowed duplicate handlers (server.cjs:1076-1103) are not modelled because Express never reaches them. server.js is an older duplicate server and is not part of this model either.
- The pass-through CRUD endpoints, the other pages (Checkout, Customers, Directors, ProductCategories, Login, the unrouted Products.new) and all rendering, dialogs and toasts are not part of this model.

## Findings

| source | as written | input that shows it | evidently intended | confidence | as-written member | corrected member |
|---|---|---|---|---|---|---|
| server.cjs:1001-1003 | `totalShares = sharesResults[0].total_shares \|\| 1`. The SUM of a DECIMAL reaches JavaScript as the text "0", which is truthy, so a share total of 0 is kept. A positive profit is then divided by 0. The insert with the non-finite dividend fails after the DELETE of today's income rows has already run | one member with funds 0, one sale of 100, no production cost, and an income record dated today | a zero share total falls back to 1 like an empty table, so the summary is written | not executed | AutoCalc.SharesDivisorAsWritten, AutoCalc.AutoCalculateAsWritten, AutoCalc.ZeroSharesLosesTodaysSummary, AutoCalc.ZeroSharesExample | AutoCalc.SharesDivisor, AutoCalc.AutoCalculate, AutoCalc.AutoCalculateSucceeds |

The finding assumes the `funds_amount` and `total_price` columns are DECIMAL, so that mysql2 returns their sums as text. The `!total_revenue` guard (server.cjs:993) then trips only on an empty history, which is how `AutoCalc` models it.

=== FILE: accounting_page.dfy ===
/**
 The figures and the table of the Accounting page (src/pages/Accounting.tsx):
 the per-type totals, a third dividend formula over the members' share counts,
 the five-way filter, the year's completed expenses, and the table order by
 reference number.
 */
module AccountingPage {
  import opened Common
  import opened Text
  import opened Sorting

  /** A transaction as the page receives it; optional fields are None when absent. */
  datatype Transaction = Transaction(
    id: string,
    date: string,
    description: string,
    category: string,
    subcategory: Option<string>,
    kind: string,
    amount: real,
    reference: Option<string>,
    status: Option<string>)

  /** A member as the page receives it; `shares` may be absent. */
  datatype PageMember = PageMember(id: int, name: string, shares: Option<real>)

  function Amount(t: Transaction): real { t.amount }

  /** The sum of the amounts of the transactions of one type. */
  function TotalOfKind(ts: seq<Transaction>, kind: string): (r: real)
    ensures (forall i :: 0 <= i < |ts| ==> ts[i].kind != kind) ==> r == 0.0
    ensures (forall i :: 0 <= i < |ts| && ts[i].kind == kind ==> ts[i].amount >= 0.0) ==> r >= 0.0
  {
    FilteredSumBounds(ts, (t: Transaction) => t.kind == kind, Amount);
    Sum(Filter(ts, (t: Transaction) => t.kind == kind), Amount)
  }

  /** `totalIncome`. */
  function TotalIncome(ts: seq<Transaction>): real {
    TotalOfKind(ts, "income")
  }

  /** `totalStock` (and `totalStockAmount`, which is the same sum). */
  function TotalStock(ts: seq<Transaction>): real {
    TotalOfKind(ts, "stock")
  }

  /** A type total is the whole-table sum of a term that is zero on the other types. */
  lemma TotalOfKindIsMaskedSum(ts: seq<Transaction>, kind: string)
    ensures TotalOfKind(ts, kind) == Sum(ts, (t: Transaction) => if t.kind == kind then t.amount else 0.0)
  {
    SumFilter(ts, (t: Transaction) => t.kind == kind, Amount, (t: Transaction) => if t.kind == kind then t.amount else 0.0);
  }

  /** `members.reduce((sum, m) => sum + (m.shares ?? 0), 0)`. */
  function TotalShares(members: seq<PageMember>): real {
    Sum(members, (m: PageMember) => RealOrZero(m.shares))
  }

  /** `totalSharesValue`: one share is 1,000 baht. */
  function TotalSharesValue(members: seq<PageMember>): (r: real)
    ensures r / 1000.0 == TotalShares(members)
  {
    TotalShares(members) * 1000.0
  }

  /** Members without a share count contribute nothing, so the total counts only members that have one. */
  lemma {:induction false} TotalSharesSkipsMissing(members: seq<PageMember>)
    ensures TotalShares(members) == Sum(Filter(members, (m: PageMember) => m.shares.Some?), (m: PageMember) => RealOrZero(m.shares))
    decreases |members|
  {
    if |members| > 0 {
      TotalSharesSkipsMissing(members[1..]);
      var keep := (m: PageMember) => m.shares.Some?;
      if keep(members[0]) {
        assert ([members[0]] + Filter(members[1..], keep))[1..] == Filter(members[1..], keep);
      }
    }
  }

  /**
   `totalShares > 0 ? (totalIncome + totalStock) / totalShares : 0`: the whole
   of income plus stock per share, unlike the server's 30% of profit.
   */
  function DividendPerShare(ts: seq<Transaction>, members: seq<PageMember>): (r: real)
    ensures TotalShares(members) > 0.0 ==> r * TotalShares(members) == TotalIncome(ts) + TotalStock(ts)
    ensures TotalShares(members) <= 0.0 ==> r == 0.0
  {
    var shares := TotalShares(members);
    if shares > 0.0 then (TotalIncome(ts) + TotalStock(ts)) / shares else 0.0
  }

  /** A type total of a table grown by more rows is the old total plus the new rows' total. */
  lemma TotalOfKindAppend(ts: seq<Transaction>, extra: seq<Transaction>, kind: string)
    ensures TotalOfKind(ts + extra, kind) == TotalOfKind(ts, kind) + TotalOfKind(extra, kind)
  {
    var masked := (t: Transaction) => if t.kind == kind then t.amount else 0.0;
    TotalOfKindIsMaskedSum(ts + extra, kind);
    TotalOfKindIsMaskedSum(ts, kind);
    TotalOfKindIsMaskedSum(extra, kind);
    SumAppend(ts, extra, masked);
  }

  /** Expense and dividend transactions do not move the dividend per share. */
  lemma DividendIgnoresOtherKinds(ts: seq<Transaction>, extra: seq<Transaction>, members: seq<PageMember>)
    requires forall i :: 0 <= i < |extra| ==> extra[i].kind != "income" && extra[i].kind != "stock"
    ensures DividendPerShare(ts + extra, members) == DividendPerShare(ts, members)
  {
    TotalOfKindAppend(ts, extra, "income");
    TotalOfKindAppend(ts, extra, "stock");
  }

  /**
   One cell of the dividend view, `member.shares * dividendPerShare`: a member
   without a share count multiplies `undefined` and shows NaN (None).
   */
  function DividendCell(m: PageMember, perShare: real): (r: Option<real>)
    ensures r.None? <==> m.shares.None?
    ensures r.Some? ==> r.value == m.shares.value * perShare
  {
    if m.shares.Some? then Some(m.shares.value * perShare) else None
  }

  /**
   Whenever some member holds shares, the dividend view's cells that are
   numbers, those of the members with a share count, add up to the whole of
   income plus stock. Every other cell is NaN and is left out of the sum.
   */
  lemma DividendsPayOutIncomeAndStock(ts: seq<Transaction>, members: seq<PageMember>)
    requires TotalShares(members) > 0.0
    ensures forall m :: m in members && m.shares.None? ==> DividendCell(m, DividendPerShare(ts, members)).None?
    ensures var d := DividendPerShare(ts, members);
      Sum(Filter(members, (m: PageMember) => m.shares.Some?), (m: PageMember) => RealOrZero(DividendCell(m, d)))
      == TotalIncome(ts) + TotalStock(ts)
  {
    TotalSharesSkipsMissing(members);
    CellsPayOut(Filter(members, (m: PageMember) => m.shares.Some?), DividendPerShare(ts, members),
      TotalShares(members), TotalIncome(ts) + TotalStock(ts));
  }

  /** When the holders' shares make up the whole and the per-share amount times the whole is `x`, the holders' cells add up to `x`. */
  lemma CellsPayOut(holders: seq<PageMember>, d: real, whole: real, x: real)
    requires Sum(holders, (m: PageMember) => RealOrZero(m.shares)) == whole
    requires d * whole == x
    ensures Sum(holders, (m: PageMember) => RealOrZero(DividendCell(m, d))) == x
  {
    CellsScale(holders, d);
  }

  /** The numeric cells of the dividend view total the per-share amount times the shares held. */
  lemma CellsScale(holders: seq<PageMember>, d: real)
    ensures Sum(holders, (m: PageMember) => RealOrZero(DividendCell(m, d))) == d * Sum(holders, (m: PageMember) => RealOrZero(m.shares))
  {
    SumScale(holders, d, (m: PageMember) => RealOrZero(m.shares), (m: PageMember) => RealOrZero(DividendCell(m, d)));
  }

  /** `Math.floor(totalStockAmount / 1000)`: whole shares bought by the stock total. */
  function TotalStocks(ts: seq<Transaction>): (r: int)
    ensures r as real * 1000.0 <= TotalStock(ts) < (r + 1) as real * 1000.0
  {
    (TotalStock(ts) / 1000.0).Floor
  }

  /** The page's filter controls. */
  datatype Selection = Selection(
    search: string,
    category: string,
    kind: string,
    year: string,
    month: string)

  /** Optional chaining: an absent field never matches. */
  predicate OptionalIncludes(field: Option<string>, term: string) {
    field.Some? && Includes(Lower(field.value), Lower(term))
  }

  predicate MatchesSearch(t: Transaction, term: string) {
    || Includes(Lower(t.description), Lower(term))
    || Includes(Lower(t.category), Lower(term))
    || OptionalIncludes(t.subcategory, term)
    || OptionalIncludes(t.reference, term)
  }

  predicate MatchesCategory(t: Transaction, category: string) {
    category == "all" || t.category == category
  }

  predicate MatchesKind(t: Transaction, kind: string) {
    kind == "all" || t.kind == kind
  }

  predicate MatchesYear(t: Transaction, year: string) {
    StartsWith(t.date, year)
  }

  /** `transaction.date.slice(5, 7)`: the month of an ISO date. */
  predicate MatchesMonth(t: Transaction, month: string) {
    month == "all" || Slice(t.date, 5, 7) == month
  }

  predicate Matches(t: Transaction, sel: Selection) {
    && MatchesSearch(t, sel.search)
    && MatchesCategory(t, sel.category)
    && MatchesKind(t, sel.kind)
    && MatchesYear(t, sel.year)
    && MatchesMonth(t, sel.month)
  }

  /**
   `filteredTransactions`: the transactions that pass all five controls, in
   their original order. With search, category, type and month open it keeps
   exactly the selected year's transactions; with the year empty as well
   nothing is dropped.
   */
  function FilteredTransactions(ts: seq<Transaction>, sel: Selection): (r: seq<Transaction>)
    ensures IsSubsequence(r, ts)
    ensures forall t :: t in r <==> t in ts && Matches(t, sel)
    ensures sel == Selection("", "all", "all", "", "all") ==> r == ts
    ensures sel.search == "" && sel.category == "all" && sel.kind == "all" && sel.month == "all" ==>
      r == Filter(ts, (t: Transaction) => MatchesYear(t, sel.year))
  {
    var keep := (t: Transaction) => Matches(t, sel);
    forall t ensures t in Filter(ts, keep) <==> t in ts && keep(t) {
      FilterMembership(ts, keep, t);
    }
    FilterIsSubsequence(ts, keep);
    OpenSelectionKeepsAll(ts, sel, keep);
    OnlyYearSelectedKeepsYear(ts, sel, keep);
    Filter(ts, keep)
  }

  /**
   The page's own default selection (`'all'` everywhere, no search term) with
   any year: the table then holds exactly the transactions dated in that year,
   in order.
   */
  lemma OnlyYearSelectedKeepsYear(ts: seq<Transaction>, sel: Selection, keep: Transaction -> bool)
    requires forall t :: keep(t) == Matches(t, sel)
    ensures sel.search == "" && sel.category == "all" && sel.kind == "all" && sel.month == "all" ==>
      Filter(ts, keep) == Filter(ts, (t: Transaction) => MatchesYear(t, sel.year))
  {
    if sel.search == "" && sel.category == "all" && sel.kind == "all" && sel.month == "all" {
      forall i | 0 <= i < |ts| ensures keep(ts[i]) == MatchesYear(ts[i], sel.year) {
        IncludesEmpty(Lower(ts[i].description));
      }
      FilterCongruent(ts, keep, (t: Transaction) => MatchesYear(t, sel.year));
    }
  }

  /** The fully open selection, with the year empty as well: nothing is dropped. */
  lemma OpenSelectionKeepsAll(ts: seq<Transaction>, sel: Selection, keep: Transaction -> bool)
    requires forall t :: keep(t) == Matches(t, sel)
    ensures sel == Selection("", "all", "all", "", "all") ==> Filter(ts, keep) == ts
  {
    if sel == Selection("", "all", "all", "", "all") {
      forall i | 0 <= i < |ts| ensures keep(ts[i]) {
        IncludesEmpty(Lower(ts[i].description));
        assert StartsWith(ts[i].date, "");
      }
      FilterAll(ts, keep);
    }
  }

  /** `t.type === 'expense' && t.status === 'completed' && t.date.startsWith(selectedYear)`. */
  predicate IsCompletedExpense(t: Transaction, year: string) {
    t.kind == "expense" && t.status == Some("completed") && StartsWith(t.date, year)
  }

  /** `totalExpense`: completed expenses of the selected year. */
  function TotalExpense(ts: seq<Transaction>, year: string): (r: real)
    ensures (forall i :: 0 <= i < |ts| ==> !IsCompletedExpense(ts[i], year)) ==> r == 0.0
    ensures (forall i :: 0 <= i < |ts| && IsCompletedExpense(ts[i], year) ==> ts[i].amount >= 0.0) ==> r >= 0.0
  {
    FilteredSumBounds(ts, (t: Transaction) => IsCompletedExpense(t, year), Amount);
    Sum(Filter(ts, (t: Transaction) => IsCompletedExpense(t, year)), Amount)
  }

  /** `netBalance`: all income, of every year, less the selected year's completed expenses. */
  function NetBalance(ts: seq<Transaction>, year: string): (r: real)
    ensures r + TotalExpense(ts, year) == TotalIncome(ts)
  {
    TotalIncome(ts) - TotalExpense(ts, year)
  }

  /**
   The net balance read in one pass over the table: each income adds its
   amount, each completed expense of the year takes its amount away, and
   every other transaction counts 0.
   */
  lemma NetBalanceIsOnePass(ts: seq<Transaction>, year: string)
    ensures NetBalance(ts, year) == Sum(ts, (t: Transaction) =>
      (if t.kind == "income" then t.amount else 0.0) - (if IsCompletedExpense(t, year) then t.amount else 0.0))
  {
    var income := (t: Transaction) => if t.kind == "income" then t.amount else 0.0;
    var expense := (t: Transaction) => if IsCompletedExpense(t, year) then t.amount else 0.0;
    var negated := (t: Transaction) => -1.0 * expense(t);
    TotalOfKindIsMaskedSum(ts, "income");
    SumFilter(ts, (t: Transaction) => IsCompletedExpense(t, year), Amount, expense);
    SumScale(ts, -1.0, expense, negated);
    SumOfParts(ts, income, negated, (t: Transaction) =>
      (if t.kind == "income" then t.amount else 0.0) - (if IsCompletedExpense(t, year) then t.amount else 0.0));
  }

  /**
   With non-negative amounts, a year's completed expenses never exceed those of
   all years, so narrowing the year can only raise the net balance.
   */
  lemma YearNarrowsExpense(ts: seq<Transaction>, year: string)
    requires forall i :: 0 <= i < |ts| ==> ts[i].amount >= 0.0
    ensures TotalExpense(ts, year) <= TotalExpense(ts, "")
    ensures NetBalance(ts, year) >= NetBalance(ts, "")
  {
    var inYear := (t: Transaction) => if IsCompletedExpense(t, year) then t.amount else 0.0;
    var inAll := (t: Transaction) => if IsCompletedExpense(t, "") then t.amount else 0.0;
    SumFilter(ts, (t: Transaction) => IsCompletedExpense(t, year), Amount, inYear);
    SumFilter(ts, (t: Transaction) => IsCompletedExpense(t, ""), Amount, inAll);
    forall i | 0 <= i < |ts| ensures inYear(ts[i]) <= inAll(ts[i]) {
      assert StartsWith(ts[i].date, "");
    }
    SumMonotone(ts, inYear, inAll);
  }

  /** Every character of `s` is a decimal digit. */
  predicate AllDigits(s: string) {
    forall i :: 0 <= i < |s| ==> IsDigit(s[i])
  }

  /** A decimal integer with an optional minus sign, as `Number` reads one; anything else is None. */
  function ParseInteger(s: string): (r: Option<int>)
    ensures |s| > 0 && AllDigits(s) ==> r == Some(DigitsValue(s))
    ensures |s| > 1 && s[0] == '-' && AllDigits(s[1..]) ==> r == Some(-(DigitsValue(s[1..]) as int))
    ensures r.Some? <==> (|s| > 0 && AllDigits(s)) || (|s| > 1 && s[0] == '-' && AllDigits(s[1..]))
  {
    if |s| > 0 && AllDigits(s) then Some(DigitsValue(s))
    else if |s| > 1 && s[0] == '-' && AllDigits(s[1..]) then Some(-(DigitsValue(s[1..]) as int))
    else None
  }

  /** `Number(t.reference) || 0`: an absent or non-numeric reference sorts as 0. */
  function ReferenceNumber(t: Transaction): int {
    match t.reference
    case None => 0
    case Some(s) => OrZero(ParseInteger(s))
  }

  /** A reference written as `String(n)` sorts as `n`. */
  lemma ReferenceNumberOfString(t: Transaction, n: int)
    requires t.reference == Some(IntToString(n))
    ensures ReferenceNumber(t) == n
  {
    var s := IntToString(n);
    if n >= 0 {
      NatToStringRoundTrip(n);
    } else {
      NatToStringRoundTrip(-n);
      assert s[0] == '-';
      assert !AllDigits(s) by {
        assert !IsDigit(s[0]);
      }
    }
  }

  /** `(a, b) => refA - refB` read as "a may come first". */
  predicate ReferenceLe(a: Transaction, b: Transaction) {
    ReferenceNumber(a) <= ReferenceNumber(b)
  }

  lemma ReferenceLeIsTotalPreorder()
    ensures TotalPreorder(ReferenceLe)
  {
  }

  /** The displayed table: the filtered rows, ascending by reference number. */
  function DisplayOrder(filtered: seq<Transaction>): (r: seq<Transaction>)
    ensures multiset(r) == multiset(filtered)
    ensures forall i, j :: 0 <= i < j < |r| ==> ReferenceNumber(r[i]) <= ReferenceNumber(r[j])
  {
    ReferenceLeIsTotalPreorder();
    var r := SortBy(filtered, ReferenceLe);
    assert SortedBy(r, ReferenceLe);
    r
  }
}

=== FILE: autocalc.dfy ===
/**
 `POST /accounting/auto-calculate` (server.cjs:942-1057): three aggregate
 queries, a second dividend formula (no dividend on a loss, shares default to 1),
 then today's income summaries in the financial table are replaced by one new
 summary row.

 `SUM(...)` of a DECIMAL expression reaches JavaScript as text, so `|| 1` and
 `|| 0` fall back only on SQL NULL, i.e. when the table has no rows; a total of
 "0" is truthy and is used as it stands.
 */
module AutoCalc {
  import opened Common
  import opened Inventory
  import opened Settlement
  import opened Ledger

  /** A row of `tb_financial_management`; only the columns the handler writes or filters on. */
  datatype FinancialRecord = FinancialRecord(
    id: nat,
    entryType: EntryType,
    income: real,
    expense: real,
    amount: real,
    date: string,
    profit: real,
    dividend: real,
    share: real)

  /** The financial table and the next auto-increment id. */
  datatype FinancialStore = FinancialStore(records: seq<FinancialRecord>, nextId: nat)

  /** Which of the handler's queries fail. */
  datatype AutoCalcFaults = AutoCalcFaults(
    salesFails: bool,
    costFails: bool,
    sharesFails: bool,
    deleteFails: bool,
    insertFails: bool)

  datatype Summary = Summary(
    revenue: real,
    cost: real,
    profit: real,
    totalDividend: real,
    totalShares: real,
    dividendPerShare: real,
    recordId: nat)

  /** `{ hasData: false }` or `{ hasData: true, data }`. */
  datatype AutoCalcBody = NoSalesData | Calculated(summary: Summary)

  /** `SUM(CAST(funds_amount AS DECIMAL))` over the member table, 0 when it is empty. */
  function FundsTotal(members: seq<Member>): (r: real)
    ensures (forall i :: 0 <= i < |members| ==> Decimal0(members[i].fundsAmount) == 0) ==> r == 0.0
    ensures (forall i :: 0 <= i < |members| ==> Decimal0(members[i].fundsAmount) >= 0) ==> r >= 0.0
  {
    FundsTotalBounds(members);
    Sum(members, (m: Member) => Decimal0(m.fundsAmount) as real)
  }

  lemma FundsTotalBounds(members: seq<Member>)
    ensures (forall i :: 0 <= i < |members| ==> Decimal0(members[i].fundsAmount) == 0) ==>
      Sum(members, (m: Member) => Decimal0(m.fundsAmount) as real) == 0.0
    ensures (forall i :: 0 <= i < |members| ==> Decimal0(members[i].fundsAmount) >= 0) ==>
      Sum(members, (m: Member) => Decimal0(m.fundsAmount) as real) >= 0.0
  {
    if forall i :: 0 <= i < |members| ==> Decimal0(members[i].fundsAmount) == 0 {
      SumOfZeros(members, (m: Member) => Decimal0(m.fundsAmount) as real);
    }
    if forall i :: 0 <= i < |members| ==> Decimal0(members[i].fundsAmount) >= 0 {
      SumNonNegative(members, (m: Member) => Decimal0(m.fundsAmount) as real);
    }
  }

  /** `sharesResults[0].total_shares || 1` as written: only the NULL of an empty table becomes 1. */
  function SharesDivisorAsWritten(members: seq<Member>): (r: real)
    ensures |members| == 0 ==> r == 1.0
    ensures |members| > 0 ==> r == FundsTotal(members)
  {
    if |members| == 0 then 1.0 else FundsTotal(members)
  }

  /** The evident intent of `|| 1`: a share total of zero also falls back to one share. */
  function SharesDivisor(members: seq<Member>): (r: real)
    ensures r != 0.0
    ensures FundsTotal(members) != 0.0 ==> r == FundsTotal(members)
    ensures FundsTotal(members) == 0.0 ==> r == 1.0
  {
    if FundsTotal(members) == 0.0 then 1.0 else FundsTotal(members)
  }

  /** The two divisors differ only where the one as written is zero. */
  lemma SharesDivisorAgrees(members: seq<Member>)
    ensures SharesDivisorAsWritten(members) != 0.0 ==> SharesDivisor(members) == SharesDivisorAsWritten(members)
    ensures SharesDivisorAsWritten(members) == 0.0 ==> SharesDivisor(members) == 1.0
  {
  }

  /**
   `profit > 0 ? profit * 0.3 / totalShares : 0`. None stands for the
   non-finite number JavaScript produces when a positive profit is divided by
   zero shares.
   */
  function AutoDividendPerShare(profit: real, totalShares: real): (r: Option<real>)
    ensures r.None? <==> profit > 0.0 && totalShares == 0.0
    ensures profit <= 0.0 ==> r == Some(0.0)
    ensures r.Some? && profit > 0.0 ==> r.value * totalShares == profit * 0.3
    ensures r.Some? && totalShares > 0.0 ==> r.value >= 0.0
  {
    if profit > 0.0 then
      if totalShares == 0.0 then None else Some(profit * 0.3 / totalShares)
    else Some(0.0)
  }

  /** `DELETE ... WHERE DATE(transaction_date) = CURDATE() AND type = 'รายรับ'` keeps this row. */
  predicate SurvivesDelete(rec: FinancialRecord, today: string) {
    !(rec.date == today && rec.entryType == Income)
  }

  /** The table after the delete; a failed delete is logged and ignored. */
  function ClearToday(records: seq<FinancialRecord>, today: string, deleteFails: bool): (r: seq<FinancialRecord>)
    ensures deleteFails ==> r == records
    ensures !deleteFails ==> forall rec :: rec in r <==> rec in records && SurvivesDelete(rec, today)
    ensures !deleteFails ==> IsSubsequence(r, records)
  {
    if deleteFails then records
    else
      var keep := (rec: FinancialRecord) => SurvivesDelete(rec, today);
      forall rec ensures rec in Filter(records, keep) <==> rec in records && keep(rec) {
        FilterMembership(records, keep, rec);
      }
      FilterIsSubsequence(records, keep);
      Filter(records, keep)
  }

  /**
   The handler for a given share divisor. Any failed select is a 500 with no
   write; no purchase history means no data; otherwise today's income rows are
   cleared and one summary row is inserted. A non-finite dividend cannot be
   inserted, so the insert fails after the delete has already run.
   */
  function AutoCalculateWith(
    history: seq<HistoryRow>, products: Table, totalShares: real,
    store: FinancialStore, today: string, faults: AutoCalcFaults): (r: (Reply<AutoCalcBody>, FinancialStore))
    ensures faults.salesFails || faults.costFails || faults.sharesFails ==> r == (Fail(500), store)
    ensures !(faults.salesFails || faults.costFails || faults.sharesFails) && |history| == 0 ==> r == (Ok(NoSalesData), store)
    ensures r.0.Fail? ==> r.0.status == 500 && r.1.nextId == store.nextId
    ensures r.0.Fail? && |history| > 0 && !(faults.salesFails || faults.costFails || faults.sharesFails) ==>
      r.1.records == ClearToday(store.records, today, faults.deleteFails)
    ensures r.0.Ok? && r.0.body.Calculated? ==>
      var s := r.0.body.summary;
      && |history| > 0
      && s.revenue == Revenue(history)
      && s.cost == CostBasis(products)
      && s.profit + s.cost == s.revenue
      && s.totalShares == totalShares
      && s.totalDividend == s.dividendPerShare * totalShares
      && (s.profit <= 0.0 ==> s.dividendPerShare == 0.0 && s.totalDividend == 0.0)
      && (s.profit > 0.0 ==> s.totalDividend == 0.3 * s.profit)
      && s.recordId == store.nextId
      && r.1.nextId == store.nextId + 1
      && r.1.records == ClearToday(store.records, today, faults.deleteFails)
        + [FinancialRecord(s.recordId, Income, s.revenue, s.cost, s.revenue, today, s.profit, s.totalDividend, totalShares)]
    ensures !(faults.salesFails || faults.costFails || faults.sharesFails || faults.insertFails) && |history| > 0 ==>
      (r.0.Ok? <==> !(Profit(history, products) > 0.0 && totalShares == 0.0))
  {
    if faults.salesFails || faults.costFails || faults.sharesFails then (Fail(500), store)
    else if |history| == 0 then (Ok(NoSalesData), store)
    else
      var revenue := Revenue(history);
      var cost := CostBasis(products);
      var profit := revenue - cost;
      var cleared := ClearToday(store.records, today, faults.deleteFails);
      match AutoDividendPerShare(profit, totalShares)
      case None => (Fail(500), store.(records := cleared))
      case Some(dps) =>
        if faults.insertFails then (Fail(500), store.(records := cleared))
        else
          var total := dps * totalShares;
          var rec := FinancialRecord(store.nextId, Income, revenue, cost, revenue, today, profit, total, totalShares);
          (Ok(Calculated(Summary(revenue, cost, profit, total, totalShares, dps, store.nextId))),
           FinancialStore(cleared + [rec], store.nextId + 1))
  }

  /** The handler as written. */
  function AutoCalculateAsWritten(
    history: seq<HistoryRow>, products: Table, members: seq<Member>,
    store: FinancialStore, today: string, faults: AutoCalcFaults): (r: (Reply<AutoCalcBody>, FinancialStore))
    ensures SharesDivisorAsWritten(members) != 0.0 ==> r == AutoCalculate(history, products, members, store, today, faults)
  {
    SharesDivisorAgrees(members);
    AutoCalculateWith(history, products, SharesDivisorAsWritten(members), store, today, faults)
  }

  /** The handler with the zero share total treated like an empty member table. */
  function AutoCalculate(
    history: seq<HistoryRow>, products: Table, members: seq<Member>,
    store: FinancialStore, today: string, faults: AutoCalcFaults): (r: (Reply<AutoCalcBody>, FinancialStore))
    ensures !(faults.salesFails || faults.costFails || faults.sharesFails || faults.insertFails) && |history| > 0 ==>
      r.0.Ok? && r.0.body.Calculated?
    ensures r.0.Ok? && r.0.body.Calculated? ==>
      r.0.body.summary.totalDividend == (if r.0.body.summary.profit > 0.0 then 0.3 * r.0.body.summary.profit else 0.0)
  {
    AutoCalculateWith(history, products, SharesDivisor(members), store, today, faults)
  }

  /**
   With the zero total defaulted, a run without faults over a non-empty history
   always succeeds, pays out 30% of a positive profit and nothing on a loss,
   and leaves exactly one income row dated today: the new summary.
   */
  lemma AutoCalculateSucceeds(
    history: seq<HistoryRow>, products: Table, members: seq<Member>,
    store: FinancialStore, today: string)
    requires |history| > 0
    ensures var r := AutoCalculate(history, products, members, store, today, AutoCalcFaults(false, false, false, false, false));
      && r.0.Ok? && r.0.body.Calculated?
      && r.0.body.summary.totalDividend == (if Profit(history, products) > 0.0 then 0.3 * Profit(history, products) else 0.0)
      && (forall rec :: rec in r.1.records && !SurvivesDelete(rec, today) ==> rec.id == store.nextId)
  {
    var r := AutoCalculate(history, products, members, store, today, AutoCalcFaults(false, false, false, false, false));
    var cleared := ClearToday(store.records, today, false);
    assert r.1.records == cleared + [r.1.records[|r.1.records| - 1]];
    assert forall rec :: rec in cleared ==> SurvivesDelete(rec, today);
  }

  /**
   As written, members whose funds total 0 make the divisor 0: a positive
   profit then divides by zero, the insert is refused, and today's income rows
   have already been deleted, so the day is left with no summary at all.
   */
  lemma ZeroSharesLosesTodaysSummary(
    history: seq<HistoryRow>, products: Table, members: seq<Member>, store: FinancialStore, today: string)
    requires SharesDivisorAsWritten(members) == 0.0
    requires |history| > 0 && Profit(history, products) > 0.0
    ensures var r := AutoCalculateAsWritten(history, products, members, store, today, AutoCalcFaults(false, false, false, false, false));
      && r.0 == Fail(500)
      && r.1 == FinancialStore(ClearToday(store.records, today, false), store.nextId)
      && (forall rec :: rec in r.1.records ==> SurvivesDelete(rec, today))
  {
    var r := AutoCalculateAsWritten(history, products, members, store, today, AutoCalcFaults(false, false, false, false, false));
    assert r.0.Fail?;
  }

  /**
   The input of the finding: one member with funds 0, one sale of 100, no
   production, and an income record dated today that the run deletes.
   */
  lemma ZeroSharesExample()
    ensures var members := [Member("สมาชิก", 0.0, 0.0)];
      var history := [HistoryRow(1, "ORD-1", "ข้าว", "ไม่ระบุ", 1, "ชิ้น", 100.0, 100.0, "2024-01-01", "ระบบ POS")];
      var old_ := FinancialRecord(7, Income, 50.0, 0.0, 50.0, "2024-01-01", 50.0, 15.0, 1.0);
      var store := FinancialStore([old_], 8);
      var r := AutoCalculateAsWritten(history, [], members, store, "2024-01-01", AutoCalcFaults(false, false, false, false, false));
      && SharesDivisorAsWritten(members) == 0.0
      && r.0 == Fail(500)
      && r.1.records == []
  {
    var members := [Member("สมาชิก", 0.0, 0.0)];
    assert FundsTotal(members) == 0.0;
    var history := [HistoryRow(1, "ORD-1", "ข้าว", "ไม่ระบุ", 1, "ชิ้น", 100.0, 100.0, "2024-01-01", "ระบบ POS")];
    assert Revenue(history) == 100.0;
    assert CostBasis([]) == 0.0;
  }
}

=== FILE: cart.dfy ===
/**
 The point-of-sale cart of the Sales page (src/pages/Sales.tsx:99-242): adding,
 re-counting and removing lines against the product snapshot the page loaded,
 the two totals, and the requests the confirm button builds.
 */
module Cart {
  import opened Common
  import opened Settlement

  /**
   A product as the Sales page holds it after `Number(quantity || 0)`. The
   stock is None when `Number` gives NaN (text such as "10 kg"), and every
   comparison with it is then false.
   */
  datatype CatalogItem = CatalogItem(
    id: int,
    name: string,
    category: string,
    memberName: string,
    staffName: string,
    quantity: Option<int>,
    unit: string,
    price: real)

  /** `product.quantity <= 0`: false for a NaN stock. */
  predicate SoldOut(p: CatalogItem) {
    p.quantity.Some? && p.quantity.value <= 0
  }

  /** `count > product.quantity`: false for a NaN stock. */
  predicate AboveStock(count: int, p: CatalogItem) {
    p.quantity.Some? && count > p.quantity.value
  }

  /** `count >= product.quantity`: false for a NaN stock. */
  predicate AtStockLimit(count: int, p: CatalogItem) {
    p.quantity.Some? && count >= p.quantity.value
  }

  /** A cart entry: the product as it was when added, and how many are in the cart. */
  datatype CartLine = CartLine(item: CatalogItem, cartQuantity: int)

  type CartState = seq<CartLine>

  /** Product ids are primary keys: no two products of the snapshot share one. */
  ghost predicate UniqueIds(products: seq<CatalogItem>) {
    forall i, j :: 0 <= i < j < |products| ==> products[i].id != products[j].id
  }

  /**
   The cart invariant: at most one line per product id, every line's product is
   in the snapshot, and every count is at least 1 and, when the product's stock
   reads as a number, at most that stock. A NaN stock bounds nothing.
   */
  ghost predicate CartInv(products: seq<CatalogItem>, cart: CartState) {
    && (forall i, j :: 0 <= i < j < |cart| ==> cart[i].item.id != cart[j].item.id)
    && (forall i :: 0 <= i < |cart| ==> cart[i].item in products && 1 <= cart[i].cartQuantity && !AboveStock(cart[i].cartQuantity, cart[i].item))
  }

  /** `prev.find(item => item.production_id === id)`. */
  function FindLine(cart: CartState, id: int): Option<nat> {
    FirstIndex(cart, (l: CartLine) => l.item.id == id)
  }

  /** `prev.map(item => item.production_id === id ? { ...item, cartQuantity: q } : item)`. */
  function SetQuantity(cart: CartState, id: int, q: int): (r: CartState)
    ensures |r| == |cart|
    ensures forall i :: 0 <= i < |cart| && cart[i].item.id == id ==> r[i] == cart[i].(cartQuantity := q)
    ensures forall i :: 0 <= i < |cart| && cart[i].item.id != id ==> r[i] == cart[i]
  {
    if |cart| == 0 then []
    else
      var head := if cart[0].item.id == id then cart[0].(cartQuantity := q) else cart[0];
      var rest := SetQuantity(cart[1..], id, q);
      assert forall i :: 1 <= i < |cart| ==> ([head] + rest)[i] == rest[i - 1] && cart[i] == cart[1..][i - 1];
      [head] + rest
  }

  /** `removeFromCart`: drop every line with that id, keeping the others in order. */
  function RemoveFromCart(cart: CartState, id: int): (r: CartState)
    ensures forall l :: l in r <==> l in cart && l.item.id != id
    ensures IsSubsequence(r, cart)
    ensures |r| <= |cart|
  {
    var keep := (l: CartLine) => l.item.id != id;
    forall l ensures l in Filter(cart, keep) <==> l in cart && keep(l) {
      FilterMembership(cart, keep, l);
    }
    FilterIsSubsequence(cart, keep);
    Filter(cart, keep)
  }

  /**
   `addToCart`: nothing for a product out of stock; a new product is appended
   with count 1; an existing line gains one unless it already holds the whole
   stock. A NaN stock passes both checks, so its line grows on every add.
   */
  function AddToCart(cart: CartState, product: CatalogItem): (r: CartState)
    ensures SoldOut(product) ==> r == cart
    ensures !SoldOut(product) && FindLine(cart, product.id).None? ==> r == cart + [CartLine(product, 1)]
    ensures FindLine(cart, product.id).Some? && AtStockLimit(cart[FindLine(cart, product.id).value].cartQuantity, product) ==> r == cart
    ensures !SoldOut(product) && FindLine(cart, product.id).Some? && !AtStockLimit(cart[FindLine(cart, product.id).value].cartQuantity, product) ==>
      && |r| == |cart|
      && (forall i :: 0 <= i < |cart| && cart[i].item.id == product.id ==> r[i] == cart[i].(cartQuantity := cart[i].cartQuantity + 1))
      && (forall i :: 0 <= i < |cart| && cart[i].item.id != product.id ==> r[i] == cart[i])
  {
    if SoldOut(product) then cart
    else
      match FindLine(cart, product.id)
      case None => cart + [CartLine(product, 1)]
      case Some(k) =>
        if AtStockLimit(cart[k].cartQuantity, product) then cart
        else Increment(cart, product.id)
  }

  /** The increment branch of `addToCart`. */
  function Increment(cart: CartState, id: int): (r: CartState)
    ensures |r| == |cart|
    ensures forall i :: 0 <= i < |cart| && cart[i].item.id == id ==> r[i] == cart[i].(cartQuantity := cart[i].cartQuantity + 1)
    ensures forall i :: 0 <= i < |cart| && cart[i].item.id != id ==> r[i] == cart[i]
  {
    if |cart| == 0 then []
    else
      var head := if cart[0].item.id == id then cart[0].(cartQuantity := cart[0].cartQuantity + 1) else cart[0];
      var rest := Increment(cart[1..], id);
      assert forall i :: 1 <= i < |cart| ==> ([head] + rest)[i] == rest[i - 1] && cart[i] == cart[1..][i - 1];
      [head] + rest
  }

  /** `products.find(p => p.production_id === id)`. */
  function FindProduct(products: seq<CatalogItem>, id: int): Option<nat> {
    FirstIndex(products, (p: CatalogItem) => p.id == id)
  }

  /**
   `updateCartQuantity`: an unknown product does nothing, a count of zero or
   less removes the line, a count above the stock does nothing, otherwise the
   line's count is set. A NaN stock refuses no count.
   */
  function UpdateCartQuantity(products: seq<CatalogItem>, cart: CartState, id: int, q: int): (r: CartState)
    ensures FindProduct(products, id).None? ==> r == cart
    ensures FindProduct(products, id).Some? && q <= 0 ==> r == RemoveFromCart(cart, id)
    ensures FindProduct(products, id).Some? && q > 0 && AboveStock(q, products[FindProduct(products, id).value]) ==> r == cart
    ensures FindProduct(products, id).Some? && q > 0 && !AboveStock(q, products[FindProduct(products, id).value]) ==> r == SetQuantity(cart, id, q)
  {
    match FindProduct(products, id)
    case None => cart
    case Some(k) =>
      if q <= 0 then RemoveFromCart(cart, id)
      else if AboveStock(q, products[k]) then cart
      else SetQuantity(cart, id, q)
  }

  function LineAmount(l: CartLine): real {
    l.item.price * l.cartQuantity as real
  }

  /** `getTotalAmount`: the sum of price times count; no negative price or count gives no negative total. */
  function TotalAmount(cart: CartState): (r: real)
    ensures (forall i :: 0 <= i < |cart| ==> cart[i].item.price >= 0.0 && cart[i].cartQuantity >= 0) ==> r >= 0.0
  {
    AmountNonNegative(cart);
    Sum(cart, LineAmount)
  }

  lemma Distribute(p: real, a: real, b: real)
    ensures p * (a + b) == p * a + p * b
  {
  }

  lemma AmountNonNegative(cart: CartState)
    ensures (forall i :: 0 <= i < |cart| ==> cart[i].item.price >= 0.0 && cart[i].cartQuantity >= 0) ==>
      Sum(cart, LineAmount) >= 0.0
  {
    if forall i :: 0 <= i < |cart| ==> cart[i].item.price >= 0.0 && cart[i].cartQuantity >= 0 {
      SumNonNegative(cart, LineAmount);
    }
  }

  /**
   `getTotalItems`: the sum of the counts. With no negative count the total is
   not negative, and with every count at least 1 it is at least the number of
   lines.
   */
  function TotalItems(cart: CartState): (r: int)
    ensures (forall i :: 0 <= i < |cart| ==> cart[i].cartQuantity >= 0) ==> r >= 0
    ensures (forall i :: 0 <= i < |cart| ==> cart[i].cartQuantity >= 1) ==> r >= |cart|
    decreases |cart|
  {
    if |cart| == 0 then 0
    else
      assert forall i :: 0 <= i < |cart[1..]| ==> cart[1..][i] == cart[i + 1];
      cart[0].cartQuantity + TotalItems(cart[1..])
  }

  /** Under the invariant the cart holds at least one item per line. */
  lemma {:induction false} TotalItemsAtLeastLines(products: seq<CatalogItem>, cart: CartState)
    requires CartInv(products, cart)
    ensures TotalItems(cart) >= |cart|
    decreases |cart|
  {
    if |cart| > 0 {
      assert CartInv(products, cart[1..]) by {
        assert forall i :: 0 <= i < |cart[1..]| ==> cart[1..][i] == cart[i + 1];
      }
      TotalItemsAtLeastLines(products, cart[1..]);
    }
  }

  /** In a snapshot with unique ids, a product is determined by its id. */
  lemma SameIdSameProduct(products: seq<CatalogItem>, a: CatalogItem, b: CatalogItem)
    requires UniqueIds(products)
    requires a in products && b in products && a.id == b.id
    ensures a == b
  {
    var i :| 0 <= i < |products| && products[i] == a;
    var j :| 0 <= j < |products| && products[j] == b;
    assert i == j;
  }

  lemma AddToCartKeepsInv(products: seq<CatalogItem>, cart: CartState, product: CatalogItem)
    requires UniqueIds(products)
    requires CartInv(products, cart)
    requires product in products
    ensures CartInv(products, AddToCart(cart, product))
  {
    if !SoldOut(product) {
      match FindLine(cart, product.id)
      case None =>
      case Some(k) =>
        if !AtStockLimit(cart[k].cartQuantity, product) {
          IncrementKeepsInv(products, cart, product, k);
        }
    }
  }

  /** Adding one to the line of a product whose count is below its stock keeps the invariant. */
  lemma IncrementKeepsInv(products: seq<CatalogItem>, cart: CartState, product: CatalogItem, k: nat)
    requires UniqueIds(products)
    requires CartInv(products, cart)
    requires product in products
    requires k < |cart| && cart[k].item.id == product.id && !AtStockLimit(cart[k].cartQuantity, product)
    ensures CartInv(products, Increment(cart, product.id))
  {
    var r := Increment(cart, product.id);
    assert forall i :: 0 <= i < |cart| ==> r[i].item == cart[i].item;
    forall i | 0 <= i < |cart| && cart[i].item.id == product.id
      ensures 1 <= r[i].cartQuantity && !AboveStock(r[i].cartQuantity, r[i].item)
    {
      SameIdSameProduct(products, cart[i].item, product);
      assert i == k;
    }
  }

  lemma RemoveFromCartKeepsInv(products: seq<CatalogItem>, cart: CartState, id: int)
    requires CartInv(products, cart)
    ensures CartInv(products, RemoveFromCart(cart, id))
  {
    var r := RemoveFromCart(cart, id);
    forall i, j | 0 <= i < j < |r|
      ensures r[i].item.id != r[j].item.id
    {
      SubsequenceDistinctIds(r, cart, i, j);
    }
  }

  /** Two positions of a subsequence come from two increasing positions of the whole. */
  lemma {:induction false} SubsequenceDistinctIds(a: CartState, b: CartState, i: int, j: int)
    requires IsSubsequence(a, b)
    requires forall x, y :: 0 <= x < y < |b| ==> b[x].item.id != b[y].item.id
    requires 0 <= i < j < |a|
    ensures a[i].item.id != a[j].item.id
    decreases |b|
  {
    if a[0] == b[0] && i == 0 {
      assert a[j] in a[1..];
      SubsequenceMembers(a[1..], b[1..], a[j]);
      var y :| 0 <= y < |b[1..]| && b[1..][y] == a[j];
      assert b[y + 1] == a[j];
    } else if a[0] == b[0] {
      assert IsSubsequence(a[1..], b[1..]);
      assert forall x, y :: 0 <= x < y < |b[1..]| ==> b[1..][x].item.id != b[1..][y].item.id by {
        assert forall x :: 0 <= x < |b[1..]| ==> b[1..][x] == b[x + 1];
      }
      SubsequenceDistinctIds(a[1..], b[1..], i - 1, j - 1);
    } else {
      assert IsSubsequence(a, b[1..]);
      assert forall x, y :: 0 <= x < y < |b[1..]| ==> b[1..][x].item.id != b[1..][y].item.id by {
        assert forall x :: 0 <= x < |b[1..]| ==> b[1..][x] == b[x + 1];
      }
      SubsequenceDistinctIds(a, b[1..], i, j);
    }
  }

  /** Every element of a subsequence is an element of the whole. */
  lemma {:induction false} SubsequenceMembers<T>(a: seq<T>, b: seq<T>, x: T)
    requires IsSubsequence(a, b)
    requires x in a
    ensures x in b
    decreases |b|
  {
    if a[0] == b[0] {
      if x != a[0] {
        SubsequenceMembers(a[1..], b[1..], x);
      }
    } else {
      SubsequenceMembers(a, b[1..], x);
    }
  }

  lemma UpdateCartQuantityKeepsInv(products: seq<CatalogItem>, cart: CartState, id: int, q: int)
    requires UniqueIds(products)
    requires CartInv(products, cart)
    ensures CartInv(products, UpdateCartQuantity(products, cart, id, q))
  {
    match FindProduct(products, id)
    case None =>
    case Some(k) =>
      if q <= 0 {
        RemoveFromCartKeepsInv(products, cart, id);
      } else if !AboveStock(q, products[k]) {
        SetQuantityKeepsInv(products, cart, products[k], q);
      }
  }

  /** Setting a line to a count within its product's stock keeps the invariant. */
  lemma SetQuantityKeepsInv(products: seq<CatalogItem>, cart: CartState, product: CatalogItem, q: int)
    requires UniqueIds(products)
    requires CartInv(products, cart)
    requires product in products && 0 < q && !AboveStock(q, product)
    ensures CartInv(products, SetQuantity(cart, product.id, q))
  {
    var r := SetQuantity(cart, product.id, q);
    assert forall i :: 0 <= i < |cart| ==> r[i].item == cart[i].item;
    forall i | 0 <= i < |cart| && cart[i].item.id == product.id
      ensures 1 <= r[i].cartQuantity && !AboveStock(r[i].cartQuantity, r[i].item)
    {
      SameIdSameProduct(products, cart[i].item, product);
    }
  }

  /** One user action on the cart. */
  datatype CartAction = Add(product: CatalogItem) | Update(id: int, q: int) | Remove(id: int) | Clear

  function Apply(products: seq<CatalogItem>, cart: CartState, a: CartAction): CartState {
    match a
    case Add(p) => AddToCart(cart, p)
    case Update(id, q) => UpdateCartQuantity(products, cart, id, q)
    case Remove(id) => RemoveFromCart(cart, id)
    case Clear => []
  }

  /** The cart after a session of actions, starting from `cart`. */
  function Run(products: seq<CatalogItem>, cart: CartState, actions: seq<CartAction>): CartState
    decreases |actions|
  {
    if |actions| == 0 then cart else Run(products, Apply(products, cart, actions[0]), actions[1..])
  }

  /** `n` clicks on the same product's add button. */
  function Clicks(p: CatalogItem, n: nat): (r: seq<CartAction>)
    ensures |r| == n
    ensures forall i :: 0 <= i < n ==> r[i] == Add(p)
  {
    seq(n, _ => Add(p))
  }

  /**
   A product whose stock text does not read as a number passes both stock
   checks, so every click adds one more: a line of `k` becomes `k + n` after
   `n` clicks, whatever `n` is.
   */
  lemma {:induction false} NaNStockGrowsWithoutLimit(products: seq<CatalogItem>, p: CatalogItem, k: nat, n: nat)
    requires p.quantity.None? && k >= 1
    ensures Run(products, [CartLine(p, k)], Clicks(p, n)) == [CartLine(p, k + n)]
    decreases n
  {
    if n > 0 {
      var c := [CartLine(p, k)];
      assert FindLine(c, p.id) == Some(0);
      assert AddToCart(c, p) == [CartLine(p, k + 1)];
      assert Clicks(p, n)[1..] == Clicks(p, n - 1);
      assert Apply(products, c, Clicks(p, n)[0]) == [CartLine(p, k + 1)];
      NaNStockGrowsWithoutLimit(products, p, k + 1, n - 1);
    }
  }

  /** The page only offers products of its snapshot to `addToCart`. */
  ghost predicate AddsFromSnapshot(products: seq<CatalogItem>, actions: seq<CartAction>) {
    forall i :: 0 <= i < |actions| && actions[i].Add? ==> actions[i].product in products
  }

  /**
   Starting from an empty cart over a fixed snapshot, any session keeps one line
   per product and every count within [1, stock].
   */
  lemma {:induction false} RunKeepsInv(products: seq<CatalogItem>, cart: CartState, actions: seq<CartAction>)
    requires UniqueIds(products)
    requires CartInv(products, cart)
    requires AddsFromSnapshot(products, actions)
    ensures CartInv(products, Run(products, cart, actions))
    decreases |actions|
  {
    if |actions| > 0 {
      var next := Apply(products, cart, actions[0]);
      match actions[0] {
        case Add(p) => AddToCartKeepsInv(products, cart, p);
        case Update(id, q) => UpdateCartQuantityKeepsInv(products, cart, id, q);
        case Remove(id) => RemoveFromCartKeepsInv(products, cart, id);
        case Clear =>
      }
      assert AddsFromSnapshot(products, actions[1..]) by {
        assert forall i :: 0 <= i < |actions[1..]| ==> actions[1..][i] == actions[i + 1];
      }
      RunKeepsInv(products, next, actions[1..]);
    }
  }

  lemma RunFromEmptyKeepsInv(products: seq<CatalogItem>, actions: seq<CartAction>)
    requires UniqueIds(products)
    requires AddsFromSnapshot(products, actions)
    ensures CartInv(products, Run(products, [], actions))
  {
    RunKeepsInv(products, [], actions);
  }

  /**
   A successful `addToCart` adds exactly one unit of the product to both
   totals.
   */
  lemma {:induction false} AddToCartTotals(products: seq<CatalogItem>, cart: CartState, product: CatalogItem)
    requires UniqueIds(products)
    requires CartInv(products, cart)
    requires product in products
    requires AddToCart(cart, product) != cart
    ensures TotalItems(AddToCart(cart, product)) == TotalItems(cart) + 1
    ensures TotalAmount(AddToCart(cart, product)) == TotalAmount(cart) + product.price
  {
    var r := AddToCart(cart, product);
    match FindLine(cart, product.id)
    case None =>
      TotalItemsAppend(cart, [CartLine(product, 1)]);
      SumAppend(cart, [CartLine(product, 1)], LineAmount);
    case Some(k) =>
      forall i | 0 <= i < |cart| && cart[i].item.id == product.id
        ensures i == k
      {
        assert cart[i].item.id == cart[k].item.id;
      }
      SingleBump(cart, r, k);
      SameIdSameProduct(products, cart[k].item, product);
  }

  lemma {:induction false} TotalItemsAppend(a: CartState, b: CartState)
    ensures TotalItems(a + b) == TotalItems(a) + TotalItems(b)
    decreases |a|
  {
    if |a| > 0 {
      TotalItemsAppend(a[1..], b);
      assert (a + b)[0] == a[0] && (a + b)[1..] == a[1..] + b;
    } else {
      assert a + b == b;
    }
  }

  /** Raising one line's count by one raises the totals by one unit of that line. */
  lemma {:induction false} SingleBump(cart: CartState, r: CartState, k: nat)
    requires |r| == |cart| && k < |cart|
    requires r[k] == cart[k].(cartQuantity := cart[k].cartQuantity + 1)
    requires forall i :: 0 <= i < |cart| && i != k ==> r[i] == cart[i]
    ensures TotalItems(r) == TotalItems(cart) + 1
    ensures TotalAmount(r) == TotalAmount(cart) + cart[k].item.price
    decreases |cart|
  {
    if k == 0 {
      assert r[1..] == cart[1..];
      assert LineAmount(r[0]) == cart[0].item.price * (cart[0].cartQuantity as real + 1.0);
      Distribute(cart[0].item.price, cart[0].cartQuantity as real, 1.0);
    } else {
      SingleBump(cart[1..], r[1..], k - 1);
      assert r[0] == cart[0];
    }
  }

  /** The customer picked in the checkout dialog. */
  datatype Customer = Customer(id: int, name: string, phone: string)

  /** Why the confirm button sent nothing. */
  datatype Refusal = NoCustomer | EmptyCart

  /** What `handleConfirmOrder` sends: the sale, then one purchase-history post per cart line. */
  datatype Submission = Refused(reason: Refusal) | Submitted(sale: SaleRequest, historyPosts: seq<HistoryRow>)

  const UnknownStaff: string := "ไม่ระบุ"

  /** `user?.name || 'ไม่ระบุ'`. */
  function StaffName(userName: Option<string>): (r: string)
    ensures userName.Some? && userName.value != "" ==> r == userName.value
    ensures userName.None? || userName.value == "" ==> r == UnknownStaff
  {
    if userName.Some? && userName.value != "" then userName.value else UnknownStaff
  }

  function OrderLineOf(l: CartLine): OrderLine {
    OrderLine(l.item.name, l.item.category, l.cartQuantity, l.item.price, l.item.unit)
  }

  function OrderLines(cart: CartState): (r: seq<OrderLine>)
    ensures |r| == |cart|
    ensures forall i :: 0 <= i < |cart| ==> r[i] == OrderLineOf(cart[i])
  {
    if |cart| == 0 then [] else [OrderLineOf(cart[0])] + OrderLines(cart[1..])
  }

  function HistoryPostOf(customer: Customer, orderNumber: string, today: string, staff: string, l: CartLine): (h: HistoryRow)
    ensures h.totalPrice == l.item.price * l.cartQuantity as real
  {
    HistoryRow(customer.id, orderNumber, l.item.name, l.item.category, l.cartQuantity, l.item.unit,
      l.item.price, l.item.price * l.cartQuantity as real, today, staff)
  }

  function HistoryPosts(customer: Customer, orderNumber: string, today: string, staff: string, cart: CartState): (r: seq<HistoryRow>)
    ensures |r| == |cart|
    ensures forall i :: 0 <= i < |cart| ==> r[i] == HistoryPostOf(customer, orderNumber, today, staff, cart[i])
  {
    if |cart| == 0 then [] else [HistoryPostOf(customer, orderNumber, today, staff, cart[0])] + HistoryPosts(customer, orderNumber, today, staff, cart[1..])
  }

  /**
   `handleConfirmOrder`: without a customer or with an empty cart nothing is
   sent; otherwise a sale with one line per cart line, and one history post
   per cart line whose total is price times count. `orderNumber` is the
   page's `'ORD-' + Date.now()`.
   */
  function ConfirmOrder(customer: Option<Customer>, cart: CartState, orderNumber: string, today: string, userName: Option<string>): (r: Submission)
    ensures customer.None? ==> r == Refused(NoCustomer)
    ensures customer.Some? && |cart| == 0 ==> r == Refused(EmptyCart)
    ensures r.Submitted? <==> customer.Some? && |cart| > 0
    ensures r.Submitted? ==>
      && r.sale.customerId == Some(customer.value.id)
      && r.sale.customerName == customer.value.name
      && r.sale.orderNumber == orderNumber
      && r.sale.orderDate == today
      && r.sale.products.Some?
      && |r.sale.products.value| == |cart|
      && |r.historyPosts| == |cart|
      && (forall i :: 0 <= i < |cart| ==>
        && r.sale.products.value[i].name == cart[i].item.name
        && r.sale.products.value[i].quantity == cart[i].cartQuantity
        && r.sale.products.value[i].price == cart[i].item.price
        && r.historyPosts[i].productName == cart[i].item.name
        && r.historyPosts[i].quantity == cart[i].cartQuantity
        && r.historyPosts[i].totalPrice == cart[i].item.price * cart[i].cartQuantity as real
        && r.historyPosts[i].orderNumber == orderNumber
        && r.historyPosts[i].staffName == StaffName(userName))
  {
    match customer
    case None => Refused(NoCustomer)
    case Some(c) =>
      if |cart| == 0 then Refused(EmptyCart)
      else
        Submitted(
          SaleRequest(orderNumber, Some(c.id), c.name, Some(OrderLines(cart)), today),
          HistoryPosts(c, orderNumber, today, StaffName(userName), cart))
  }

  /** The history posts of one confirmation total the cart's amount. */
  lemma {:induction false} HistoryPostsTotal(customer: Customer, orderNumber: string, today: string, staff: string, cart: CartState)
    ensures Sum(HistoryPosts(customer, orderNumber, today, staff, cart), (h: HistoryRow) => h.totalPrice) == TotalAmount(cart)
    decreases |cart|
  {
    if |cart| > 0 {
      HistoryPostsTotal(customer, orderNumber, today, staff, cart[1..]);
      assert HistoryPosts(customer, orderNumber, today, staff, cart)[1..] == HistoryPosts(customer, orderNumber, today, staff, cart[1..]);
    }
  }
}

=== FILE: checkout_flow.dfy ===
/**
 One press of the Sales page's confirm button end to end
 (src/pages/Sales.tsx:183-273 against server.cjs): the page posts the sale to
 `POST /sales`, and once that succeeds posts every cart line again to
 `POST /purchase-history`. Both handlers log a history row and both take the
 sold quantity off the stock. Last, it posts `/accounting/auto-calculate` and
 ignores the reply.
 */
module CheckoutFlow {
  import opened Common
  import opened Inventory
  import opened Settlement
  import opened Cart
  import Ledger
  import AutoCalc

  /** How the confirmation ended, as the page sees it. */
  datatype CheckoutOutcome =
    | NotSent(reason: Refusal)
    | SaleFailed(status: nat)
    | Completed(response: SaleResponse, historyReplies: seq<bool>)

  /**
   The page's loop over the cart: each line is posted to `/purchase-history`
   in turn; a failed post is logged in the console and the loop goes on.
   The result lists which posts succeeded.
   */
  function PostHistories(db: Db, posts: seq<HistoryRow>, faults: seq<LineFaults>): (r: (seq<bool>, Db))
    ensures |r.0| == |posts|
    ensures forall i :: 0 <= i < |posts| ==> (r.0[i] <==> !FaultAt(faults, i).insertFails)
    ensures SameRows(db.products, r.1.products)
    ensures StocksNonNegative(db.products) ==> StocksNonNegative(r.1.products)
    decreases |posts|
  {
    if |posts| == 0 then ([], db)
    else
      var (reply, db1) := PostPurchaseHistory(db, posts[0], FaultAt(faults, 0));
      var (rest, db2) := PostHistories(db1, posts[1..], TailFaults(faults));
      SameRowsTransitive(db.products, db1.products, db2.products);
      var oks := [reply.Ok?] + rest;
      assert forall i :: 1 <= i < |posts| ==> oks[i] == rest[i - 1];
      assert forall i :: 1 <= i < |posts| ==> FaultAt(faults, i) == FaultAt(TailFaults(faults), i - 1);
      (oks, db2)
  }

  /** When every post succeeds, the history gains exactly the posted rows, in order. */
  lemma {:induction false} PostHistoriesWithoutFaults(db: Db, posts: seq<HistoryRow>, faults: seq<LineFaults>)
    requires forall i :: 0 <= i < |posts| ==> !FaultAt(faults, i).insertFails
    ensures PostHistories(db, posts, faults).1.history == db.history + posts
    decreases |posts|
  {
    if |posts| > 0 {
      var db1 := PostPurchaseHistory(db, posts[0], FaultAt(faults, 0)).1;
      var tail := TailFaults(faults);
      TailKeepsNoInsertFaults(posts, faults);
      PostHistoriesWithoutFaults(db1, posts[1..], tail);
      PostHistoriesStep(db, posts, faults);
      AppendHead(db.history, posts);
    }
  }

  lemma AppendHead<T>(a: seq<T>, s: seq<T>)
    requires |s| > 0
    ensures (a + [s[0]]) + s[1..] == a + s
  {
    assert s == [s[0]] + s[1..];
  }

  lemma TailKeepsNoInsertFaults(posts: seq<HistoryRow>, faults: seq<LineFaults>)
    requires |posts| > 0
    requires forall i :: 0 <= i < |posts| ==> !FaultAt(faults, i).insertFails
    ensures forall i :: 0 <= i < |posts[1..]| ==> !FaultAt(TailFaults(faults), i).insertFails
  {
    forall i | 0 <= i < |posts[1..]|
      ensures !FaultAt(TailFaults(faults), i).insertFails
    {
      assert FaultAt(TailFaults(faults), i) == FaultAt(faults, i + 1);
    }
  }

  /** The first post is logged before the rest are posted. */
  lemma PostHistoriesStep(db: Db, posts: seq<HistoryRow>, faults: seq<LineFaults>)
    requires |posts| > 0
    requires !FaultAt(faults, 0).insertFails
    ensures PostHistories(db, posts, faults).1.history ==
      PostHistories(PostPurchaseHistory(db, posts[0], FaultAt(faults, 0)).1, posts[1..], TailFaults(faults)).1.history
    ensures PostPurchaseHistory(db, posts[0], FaultAt(faults, 0)).1.history == db.history + [posts[0]]
  {
  }

  /**
   `handleConfirmOrder` against the server: nothing is sent without a customer
   or with an empty cart; a rejected sale stops the page before any history
   post, although the lines the server settled stay settled; otherwise every
   cart line is posted once more.
   */
  function Checkout(
    db: Db, customer: Option<Customer>, cart: CartState, orderNumber: string, today: string,
    userName: Option<string>, clock: Clock, saleFaults: seq<LineFaults>, historyFaults: seq<LineFaults>): (r: (CheckoutOutcome, Db))
    ensures customer.None? || |cart| == 0 ==> r.0.NotSent? && r.1 == db
    ensures r.0.SaleFailed? ==> r.0.status == 500
    ensures r.0.Completed? ==> |r.0.historyReplies| == |cart| && r.0.response.productsCount == |cart|
    ensures SameRows(db.products, r.1.products)
    ensures StocksNonNegative(db.products) ==> StocksNonNegative(r.1.products)
  {
    match ConfirmOrder(customer, cart, orderNumber, today, userName)
    case Refused(why) => (NotSent(why), db)
    case Submitted(sale, posts) =>
      var (reply, db1) := PostSales(db, sale, clock, saleFaults);
      match reply
      case Fail(status) => (SaleFailed(status), db1)
      case Ok(resp) =>
        var (oks, db2) := PostHistories(db1, posts, historyFaults);
        SameRowsTransitive(db.products, db1.products, db2.products);
        (Completed(resp, oks), db2)
  }

  /**
   The whole confirmation: after a completed checkout the page posts
   `/accounting/auto-calculate` over the tables the checkout left, and neither
   shows nor acts on its reply. The financial table is the only thing it adds.
   */
  function ConfirmAndSummarize(
    db: Db, customer: Option<Customer>, cart: CartState, orderNumber: string, today: string,
    userName: Option<string>, clock: Clock, saleFaults: seq<LineFaults>, historyFaults: seq<LineFaults>,
    members: seq<Ledger.Member>, store: AutoCalc.FinancialStore, autoFaults: AutoCalc.AutoCalcFaults): (r: (CheckoutOutcome, Db, AutoCalc.FinancialStore))
    ensures (r.0, r.1) == Checkout(db, customer, cart, orderNumber, today, userName, clock, saleFaults, historyFaults)
    ensures !r.0.Completed? ==> r.2 == store
    ensures r.0.Completed? ==> r.2 == AutoCalc.AutoCalculateAsWritten(r.1.history, r.1.products, members, store, clock.today, autoFaults).1
  {
    var (outcome, db2) := Checkout(db, customer, cart, orderNumber, today, userName, clock, saleFaults, historyFaults);
    if outcome.Completed? then
      (outcome, db2, AutoCalc.AutoCalculateAsWritten(db2.history, db2.products, members, store, clock.today, autoFaults).1)
    else (outcome, db2, store)
  }

  /**
   With no failing call and a share divisor that is not 0, every confirmation
   writes the day's summary under the next id, and it is then the only income
   record dated today.
   */
  lemma ConfirmationWritesSummary(
    db: Db, customer: Customer, cart: CartState, orderNumber: string, today: string,
    userName: Option<string>, clock: Clock, members: seq<Ledger.Member>, store: AutoCalc.FinancialStore)
    requires |cart| > 0
    requires AutoCalc.SharesDivisorAsWritten(members) != 0.0
    ensures var r := ConfirmAndSummarize(db, Some(customer), cart, orderNumber, today, userName, clock, [], [],
        members, store, AutoCalc.AutoCalcFaults(false, false, false, false, false));
      && r.0.Completed?
      && r.2.nextId == store.nextId + 1
      && (forall rec :: rec in r.2.records && !AutoCalc.SurvivesDelete(rec, clock.today) ==> rec.id == store.nextId)
  {
    var none := AutoCalc.AutoCalcFaults(false, false, false, false, false);
    CheckoutLogsEachLineTwice(db, customer, cart, orderNumber, today, userName, clock);
    var db2 := Checkout(db, Some(customer), cart, orderNumber, today, userName, clock, [], []).1;
    AutoCalc.AutoCalculateSucceeds(db2.history, db2.products, members, store, clock.today);
  }

  /**
   The zero-funds defect on the page's path: when every member's funds total
   0 and the profit after the sale is positive, each confirmation deletes
   today's income records and writes no summary.
   */
  lemma ZeroFundsConfirmationLosesSummary(
    db: Db, customer: Customer, cart: CartState, orderNumber: string, today: string,
    userName: Option<string>, clock: Clock, members: seq<Ledger.Member>, store: AutoCalc.FinancialStore)
    requires |cart| > 0
    requires AutoCalc.SharesDivisorAsWritten(members) == 0.0
    ensures var r := ConfirmAndSummarize(db, Some(customer), cart, orderNumber, today, userName, clock, [], [],
        members, store, AutoCalc.AutoCalcFaults(false, false, false, false, false));
      && r.0.Completed?
      && (Ledger.Profit(r.1.history, r.1.products) > 0.0 ==>
          r.2 == AutoCalc.FinancialStore(AutoCalc.ClearToday(store.records, clock.today, false), store.nextId))
  {
    CheckoutLogsEachLineTwice(db, customer, cart, orderNumber, today, userName, clock);
  }

  /** With no failing call, a confirmation logs every cart line twice. */
  lemma CheckoutLogsEachLineTwice(
    db: Db, customer: Customer, cart: CartState, orderNumber: string, today: string,
    userName: Option<string>, clock: Clock)
    requires |cart| > 0
    ensures var r := Checkout(db, Some(customer), cart, orderNumber, today, userName, clock, [], []);
      && r.0.Completed?
      && |r.1.history| == |db.history| + 2 * |cart|
  {
    var sub := ConfirmOrder(Some(customer), cart, orderNumber, today, userName);
    var sale := sub.sale;
    SaleWithoutFaults(db, sale, clock);
    var (reply, db1) := PostSales(db, sale, clock, []);
    assert reply.Ok?;
    PostHistoriesWithoutFaults(db1, sub.historyPosts, []);
  }

  /** An order of one line settles exactly as that line does. */
  lemma SettleSingleLine(db: Db, req: SaleRequest, clock: Clock, line: OrderLine)
    ensures SettleLines(db, req, clock, [line], []) ==
      ([SettleLine(db, req, clock, line, NoFaults).0], SettleLine(db, req, clock, line, NoFaults).1)
  {
    var (first, db1) := SettleLine(db, req, clock, line, NoFaults);
    assert TailFaults([]) == [] && FaultAt([], 0) == NoFaults && [line][1..] == [] && [line][0] == line;
    var (rest, db2) := SettleLines(db1, req, clock, [line][1..], TailFaults([]));
    assert rest == [] && db2 == db1;
    assert [first] + rest == [first];
  }

  /** `POST /sales` of a one-line order that fails nowhere floors the matched product's stock once. */
  lemma SaleOfOneLine(db: Db, sale: SaleRequest, clock: Clock, line: OrderLine)
    requires sale.products == Some([line])
    requires LowestByName(db.products, line.name).Some?
    ensures var p := LowestByName(db.products, line.name).value;
      var r := PostSales(db, sale, clock, []);
      && r.0.Ok?
      && |r.1.history| == |db.history| + 1
      && r.1.products == WriteStock(db.products, p.id, ClampedStock(Stock(p), line.quantity))
  {
    SettleSingleLine(db, sale, clock, line);
    SettleLineCases(db, sale, clock, line, NoFaults);
    SaleWithoutFaults(db, sale, clock);
  }

  /**
   The repeated post of the same line, after the sale, finds the product the
   sale updated and floors its stock again.
   */
  lemma HistoryPostAfterSale(db: Db, db1: Db, row: HistoryRow, n1: int)
    requires IdsAscending(db.products)
    requires LowestByName(db.products, row.productName).Some?
    requires db1.products == WriteStock(db.products, LowestByName(db.products, row.productName).value.id, n1)
    ensures var pid := LowestByName(db.products, row.productName).value.id;
      var r := PostPurchaseHistory(db1, row, NoFaults);
      && r.0.Ok?
      && r.1.history == db1.history + [row]
      && r.1.products == WriteStock(db1.products, pid, ClampedStock(n1, row.quantity))
  {
    FoundAfterWrite(db.products, row.productName, n1);
  }

  /**
   A confirmed cart with one line of `q` units of a product that exists, with
   no failing call and ids in table order, leaves that product's stock at
   `max(0, s - 2q)`: both handlers take the quantity off. Every other product
   is unchanged, and two history rows are written.
   */
  lemma CheckoutDeductsTwice(
    db: Db, customer: Customer, item: CatalogItem, q: nat, orderNumber: string, today: string,
    userName: Option<string>, clock: Clock)
    requires IdsAscending(db.products)
    requires LowestByName(db.products, item.name).Some?
    ensures var p := LowestByName(db.products, item.name).value;
      var r := Checkout(db, Some(customer), [CartLine(item, q)], orderNumber, today, userName, clock, [], []);
      && r.0.Completed?
      && |r.1.history| == |db.history| + 2
      && |r.1.products| == |db.products|
      && (forall i :: 0 <= i < |db.products| && db.products[i].id == p.id ==> Stock(r.1.products[i]) == ClampedStock(Stock(p), 2 * q))
      && (forall i :: 0 <= i < |db.products| && db.products[i].id != p.id ==> r.1.products[i] == db.products[i])
  {
    var cart := [CartLine(item, q)];
    var sub := ConfirmOrder(Some(customer), cart, orderNumber, today, userName);
    assert sub.Submitted? && |sub.sale.products.value| == 1 && |sub.historyPosts| == 1;
    var line := sub.sale.products.value[0];
    assert sub.sale.products.value == [line];
    var row := sub.historyPosts[0];
    assert sub.historyPosts == [row];
    var db1 := PostSales(db, sub.sale, clock, []).1;
    CheckoutOfSubmission(db, customer, cart, orderNumber, today, userName, clock);
    PostHistoriesSingle(db1, row);
    SaleThenPost(db, sub.sale, clock, line, row);
  }

  /** The sale of one line followed by the history post of the same line. */
  lemma SaleThenPost(db: Db, sale: SaleRequest, clock: Clock, line: OrderLine, row: HistoryRow)
    requires IdsAscending(db.products)
    requires sale.products == Some([line])
    requires row.productName == line.name && row.quantity == line.quantity >= 0
    requires LowestByName(db.products, line.name).Some?
    ensures var p := LowestByName(db.products, line.name).value;
      var db1 := PostSales(db, sale, clock, []).1;
      var db2 := PostPurchaseHistory(db1, row, NoFaults).1;
      && |db2.history| == |db.history| + 2
      && db2.products == WriteStock(db.products, p.id, ClampedStock(Stock(p), 2 * line.quantity))
  {
    var p := LowestByName(db.products, line.name).value;
    SaleOfOneLine(db, sale, clock, line);
    HistoryPostAfterSale(db, PostSales(db, sale, clock, []).1, row, ClampedStock(Stock(p), line.quantity));
    StockFlooredTwice(db.products, p.id, Stock(p), line.quantity);
  }

  /** Flooring a stock by `q` in two writes leaves what one write flooring by `2q` leaves. */
  lemma StockFlooredTwice(t: Table, id: int, s: int, q: int)
    requires q >= 0
    ensures WriteStock(WriteStock(t, id, ClampedStock(s, q)), id, ClampedStock(ClampedStock(s, q), q))
      == WriteStock(t, id, ClampedStock(s, 2 * q))
  {
    ClampTwice(s, q, q);
    WriteStockTwice(t, id, ClampedStock(s, q), ClampedStock(s, 2 * q));
  }

  /** With no failing call, a submitted order completes and ends where its history posts leave the database. */
  lemma CheckoutOfSubmission(
    db: Db, customer: Customer, cart: CartState, orderNumber: string, today: string,
    userName: Option<string>, clock: Clock)
    requires |cart| > 0
    ensures var sub := ConfirmOrder(Some(customer), cart, orderNumber, today, userName);
      var r := Checkout(db, Some(customer), cart, orderNumber, today, userName, clock, [], []);
      && r.0.Completed?
      && r.1 == PostHistories(PostSales(db, sub.sale, clock, []).1, sub.historyPosts, []).1
  {
    var sub := ConfirmOrder(Some(customer), cart, orderNumber, today, userName);
    SaleWithoutFaults(db, sub.sale, clock);
  }

  /** A second stock write to the same id overrides the first. */
  lemma WriteStockTwice(t: Table, id: int, a: int, b: int)
    ensures WriteStock(WriteStock(t, id, a), id, b) == WriteStock(t, id, b)
  {
    var u := WriteStock(WriteStock(t, id, a), id, b);
    var v := WriteStock(t, id, b);
    assert |u| == |v|;
    forall i | 0 <= i < |t| ensures u[i] == v[i] {
    }
  }

  lemma PostHistoriesSingle(db: Db, row: HistoryRow)
    ensures PostHistories(db, [row], []).1 == PostPurchaseHistory(db, row, NoFaults).1
  {
    var db1 := PostPurchaseHistory(db, row, NoFaults).1;
    assert TailFaults([]) == [] && FaultAt([], 0) == NoFaults && [row][1..] == [] && [row][0] == row;
    assert PostHistories(db1, [row][1..], TailFaults([])).1 == db1;
  }
}

=== FILE: common.dfy ===
/**
 Shared vocabulary of the model: optional values, HTTP-style replies, and the
 sequence folds (filter, sum) that the server's SQL aggregates and the pages'
 `Array.filter` / `Array.reduce` calls amount to.
 */
module Common {

  /** A value that may be absent: a NULL column, an undefined JSON field, or a NaN parse. */
  datatype Option<T> = None | Some(value: T)

  /** A handler's answer: a JSON body, or an HTTP error status. */
  datatype Reply<T> = Ok(body: T) | Fail(status: nat)

  /** `parseInt(x) || 0`: a missing or unparseable integer, and 0 itself, read as 0. */
  function OrZero(x: Option<int>): (r: int)
    ensures x.None? ==> r == 0
    ensures x.Some? ==> r == x.value
  {
    match x
    case None => 0
    case Some(v) => v
  }

  /** `parseFloat(x) || 0` and `x ?? 0` on numbers: a missing value or NaN reads as 0. */
  function RealOrZero(x: Option<real>): (r: real)
    ensures x.None? ==> r == 0.0
    ensures x.Some? ==> r == x.value
  {
    match x
    case None => 0.0
    case Some(v) => v
  }

  /** The position of the first element that passes `p`: `Array.prototype.findIndex`, and `LIMIT 1` over a scan in table order. */
  function FirstIndex<T>(s: seq<T>, p: T -> bool): (r: Option<nat>)
    ensures r.None? <==> forall j :: 0 <= j < |s| ==> !p(s[j])
    ensures r.Some? ==> r.value < |s| && p(s[r.value])
    ensures r.Some? ==> forall j :: 0 <= j < r.value ==> !p(s[j])
  {
    if |s| == 0 then None
    else if p(s[0]) then Some(0)
    else
      match FirstIndex(s[1..], p)
      case None => None
      case Some(k) => Some(k + 1)
  }

  /** `Array.prototype.filter`. */
  function Filter<T>(s: seq<T>, keep: T -> bool): (r: seq<T>)
    ensures |r| <= |s|
    ensures forall i :: 0 <= i < |r| ==> keep(r[i])
  {
    if |s| == 0 then []
    else if keep(s[0]) then [s[0]] + Filter(s[1..], keep)
    else Filter(s[1..], keep)
  }

  /** `a` can be obtained from `b` by deleting elements, without reordering. */
  ghost predicate IsSubsequence<T>(a: seq<T>, b: seq<T>)
    decreases |b|
  {
    if |a| == 0 then true
    else if |b| == 0 then false
    else if a[0] == b[0] then IsSubsequence(a[1..], b[1..])
    else IsSubsequence(a, b[1..])
  }

  lemma {:induction false} FilterIsSubsequence<T>(s: seq<T>, keep: T -> bool)
    ensures IsSubsequence(Filter(s, keep), s)
    decreases |s|
  {
    if |s| > 0 {
      FilterIsSubsequence(s[1..], keep);
      var r := Filter(s[1..], keep);
      if keep(s[0]) {
        assert Filter(s, keep) == [s[0]] + r;
        assert ([s[0]] + r)[1..] == r;
      } else {
        SubsequenceOfTail(r, s);
      }
    }
  }

  /** A subsequence of the tail is a subsequence of the whole. */
  lemma {:induction false} SubsequenceOfTail<T>(a: seq<T>, b: seq<T>)
    requires |b| > 0
    requires IsSubsequence(a, b[1..])
    ensures IsSubsequence(a, b)
    decreases |a| + |b|
  {
    if |a| > 0 && a[0] == b[0] {
      // a[1..] is a subsequence of b[1..] because a is.
      SubsequenceDropHead(a, b[1..]);
    }
  }

  lemma {:induction false} SubsequenceDropHead<T>(a: seq<T>, b: seq<T>)
    requires |a| > 0
    requires IsSubsequence(a, b)
    ensures IsSubsequence(a[1..], b)
    decreases |a| + |b|
  {
    assert |b| > 0;
    if a[0] == b[0] {
      if |b[1..]| > 0 {
        SubsequenceOfTail(a[1..], b);
      } else {
        assert IsSubsequence(a[1..], b[1..]);
        assert |a[1..]| == 0;
      }
    } else {
      SubsequenceDropHead(a, b[1..]);
      SubsequenceOfTail(a[1..], b);
    }
  }

  /** The rows a filter keeps are exactly the rows of the input that pass it. */
  lemma {:induction false} FilterMembership<T>(s: seq<T>, keep: T -> bool, x: T)
    ensures x in Filter(s, keep) <==> x in s && keep(x)
    decreases |s|
  {
    if |s| > 0 {
      FilterMembership(s[1..], keep, x);
      assert s == [s[0]] + s[1..];
    }
  }

  /** `Array.prototype.reduce((sum, x) => sum + f(x), 0)` and SQL `SUM`. */
  function Sum<T>(s: seq<T>, f: T -> real): real
  {
    if |s| == 0 then 0.0 else f(s[0]) + Sum(s[1..], f)
  }

  lemma {:induction false} SumAppend<T>(a: seq<T>, b: seq<T>, f: T -> real)
    ensures Sum(a + b, f) == Sum(a, f) + Sum(b, f)
    decreases |a|
  {
    if |a| > 0 {
      assert (a + b)[1..] == a[1..] + b;
      SumAppend(a[1..], b, f);
    } else {
      assert a + b == b;
    }
  }

  /** A sum of non-negative terms is non-negative. */
  lemma {:induction false} SumNonNegative<T>(s: seq<T>, f: T -> real)
    requires forall i :: 0 <= i < |s| ==> f(s[i]) >= 0.0
    ensures Sum(s, f) >= 0.0
    decreases |s|
  {
    if |s| > 0 {
      assert forall i :: 0 <= i < |s[1..]| ==> f(s[1..][i]) >= 0.0 by {
        forall i | 0 <= i < |s[1..]| ensures f(s[1..][i]) >= 0.0 {
          assert s[1..][i] == s[i + 1];
        }
      }
      SumNonNegative(s[1..], f);
    }
  }

  /** Summing only the rows a filter keeps is summing a term that is zero elsewhere. */
  lemma {:induction false} SumFilter<T>(s: seq<T>, keep: T -> bool, f: T -> real, g: T -> real)
    requires forall x :: g(x) == (if keep(x) then f(x) else 0.0)
    ensures Sum(Filter(s, keep), f) == Sum(s, g)
    decreases |s|
  {
    if |s| > 0 {
      SumFilter(s[1..], keep, f, g);
      if keep(s[0]) {
        assert ([s[0]] + Filter(s[1..], keep))[1..] == Filter(s[1..], keep);
      }
    }
  }

  /** Two term functions that agree pointwise on the rows give the same sum. */
  lemma {:induction false} SumCongruent<T>(s: seq<T>, f: T -> real, g: T -> real)
    requires forall i :: 0 <= i < |s| ==> f(s[i]) == g(s[i])
    ensures Sum(s, f) == Sum(s, g)
    decreases |s|
  {
    if |s| > 0 {
      assert forall i :: 0 <= i < |s[1..]| ==> f(s[1..][i]) == g(s[1..][i]) by {
        forall i | 0 <= i < |s[1..]| ensures f(s[1..][i]) == g(s[1..][i]) {
          assert s[1..][i] == s[i + 1];
        }
      }
      SumCongruent(s[1..], f, g);
    }
  }

  /** A filter that keeps every element returns the sequence itself. */
  lemma {:induction false} FilterAll<T>(s: seq<T>, keep: T -> bool)
    requires forall i :: 0 <= i < |s| ==> keep(s[i])
    ensures Filter(s, keep) == s
    decreases |s|
  {
    if |s| > 0 {
      assert forall i :: 0 <= i < |s[1..]| ==> keep(s[1..][i]) by {
        assert forall i :: 0 <= i < |s[1..]| ==> s[1..][i] == s[i + 1];
      }
      FilterAll(s[1..], keep);
      assert s == [s[0]] + s[1..];
    }
  }

  /** A term that is pointwise no larger gives a sum that is no larger. */
  lemma {:induction false} SumMonotone<T>(s: seq<T>, f: T -> real, g: T -> real)
    requires forall i :: 0 <= i < |s| ==> f(s[i]) <= g(s[i])
    ensures Sum(s, f) <= Sum(s, g)
    decreases |s|
  {
    if |s| > 0 {
      assert forall i :: 0 <= i < |s[1..]| ==> f(s[1..][i]) <= g(s[1..][i]) by {
        assert forall i :: 0 <= i < |s[1..]| ==> s[1..][i] == s[i + 1];
      }
      SumMonotone(s[1..], f, g);
    }
  }

  /** A sum of pointwise sums is the sum of the two sums. */
  lemma {:induction false} SumOfParts<T>(s: seq<T>, f: T -> real, g: T -> real, h: T -> real)
    requires forall x :: h(x) == f(x) + g(x)
    ensures Sum(s, h) == Sum(s, f) + Sum(s, g)
    decreases |s|
  {
    if |s| > 0 {
      SumOfParts(s[1..], f, g, h);
    }
  }

  /** Two filters that agree on every element of the sequence keep the same elements. */
  lemma {:induction false} FilterCongruent<T>(s: seq<T>, keep: T -> bool, keep2: T -> bool)
    requires forall i :: 0 <= i < |s| ==> keep(s[i]) == keep2(s[i])
    ensures Filter(s, keep) == Filter(s, keep2)
    decreases |s|
  {
    if |s| > 0 {
      assert forall i :: 0 <= i < |s[1..]| ==> keep(s[1..][i]) == keep2(s[1..][i]) by {
        assert forall i :: 0 <= i < |s[1..]| ==> s[1..][i] == s[i + 1];
      }
      FilterCongruent(s[1..], keep, keep2);
    }
  }

  /** A constant factor on every term comes out of the sum. */
  lemma {:induction false} SumScale<T>(s: seq<T>, c: real, f: T -> real, g: T -> real)
    requires forall x :: g(x) == c * f(x)
    ensures Sum(s, g) == c * Sum(s, f)
    decreases |s|
  {
    if |s| > 0 {
      SumScale(s[1..], c, f, g);
    }
  }

  /** A sum whose every term is 0 is 0. */
  lemma {:induction false} SumOfZeros<T>(s: seq<T>, f: T -> real)
    requires forall i :: 0 <= i < |s| ==> f(s[i]) == 0.0
    ensures Sum(s, f) == 0.0
    decreases |s|
  {
    if |s| > 0 {
      assert forall i :: 0 <= i < |s[1..]| ==> f(s[1..][i]) == 0.0 by {
        assert forall i :: 0 <= i < |s[1..]| ==> s[1..][i] == s[i + 1];
      }
      SumOfZeros(s[1..], f);
    }
  }

  /**
   A sum over the kept rows is 0 when no row is kept, and non-negative when
   every kept row's term is.
   */
  lemma FilteredSumBounds<T>(s: seq<T>, keep: T -> bool, f: T -> real)
    ensures (forall i :: 0 <= i < |s| ==> !keep(s[i])) ==> Sum(Filter(s, keep), f) == 0.0
    ensures (forall i :: 0 <= i < |s| && keep(s[i]) ==> f(s[i]) >= 0.0) ==> Sum(Filter(s, keep), f) >= 0.0
  {
    var g := (x: T) => if keep(x) then f(x) else 0.0;
    SumFilter(s, keep, f, g);
    if forall i :: 0 <= i < |s| ==> !keep(s[i]) {
      SumOfZeros(s, g);
    }
    if forall i :: 0 <= i < |s| && keep(s[i]) ==> f(s[i]) >= 0.0 {
      SumNonNegative(s, g);
    }
  }

  /** Rows whose term is 0 can be filtered out without changing the sum. */
  lemma SumSkipsZeros<T>(s: seq<T>, keep: T -> bool, f: T -> real)
    requires forall x :: !keep(x) ==> f(x) == 0.0
    ensures Sum(Filter(s, keep), f) == Sum(s, f)
  {
    var g := (x: T) => if keep(x) then f(x) else 0.0;
    SumFilter(s, keep, f, g);
    SumCongruent(s, g, f);
  }
}

=== FILE: inventory.dfy ===
/**
 The production table (`tb_production_management`) as the server sees it: rows
 in table order, the two ways the server looks a product up, the stock clamp,
 the `UPDATE ... SET quantity` write, and the `PATCH /products/:id/stock`
 handler (server.cjs:815-858).
 */
module Inventory {
  import opened Common

  /** A row of the production table. `quantity` is the text column read as an integer; None is NULL or unparseable text. */
  datatype Product = Product(
    id: int,
    name: string,
    category: string,
    memberName: string,
    staffName: string,
    quantity: Option<int>,
    unit: string,
    price: real)

  type Table = seq<Product>

  /** `parseInt(product.quantity) || 0`: the stock the server reads from a row. */
  function Stock(p: Product): int {
    OrZero(p.quantity)
  }

  /** Every row reads as a non-negative stock. */
  ghost predicate StocksNonNegative(t: Table) {
    forall i :: 0 <= i < |t| ==> Stock(t[i]) >= 0
  }

  /** `Math.max(0, currentStock - soldQuantity)`: the stock left after a sale, floored at zero. */
  function ClampedStock(current: int, sold: int): (r: int)
    ensures r >= 0
    ensures r >= current - sold
    ensures r == 0 || r == current - sold
    ensures r == 0 <==> current <= sold
    ensures 0 <= sold && 0 <= current ==> r <= current
  {
    if current - sold > 0 then current - sold else 0
  }

  /** Clamping twice is clamping once by the combined quantity, when both quantities are non-negative. */
  lemma ClampTwice(current: int, q1: int, q2: int)
    requires q1 >= 0 && q2 >= 0
    ensures ClampedStock(ClampedStock(current, q1), q2) == ClampedStock(current, q1 + q2)
  {
  }

  /**
   `SELECT * ... WHERE product_name = ? ORDER BY production_id LIMIT 1`:
   among the rows named exactly `name`, one with the lowest id.
   */
  function LowestByName(t: Table, name: string): (r: Option<Product>)
    ensures r.None? <==> forall i :: 0 <= i < |t| ==> t[i].name != name
    ensures r.Some? ==> r.value in t && r.value.name == name
    ensures r.Some? ==> forall i :: 0 <= i < |t| && t[i].name == name ==> r.value.id <= t[i].id
  {
    if |t| == 0 then None
    else
      var rest := LowestByName(t[1..], name);
      assert forall i :: 1 <= i < |t| ==> t[i] == t[1..][i - 1];
      if t[0].name != name then rest
      else if rest.Some? && rest.value.id < t[0].id then rest
      else Some(t[0])
  }

  /** Ids strictly increase in table order, as a scan of the primary key returns them. */
  ghost predicate IdsAscending(t: Table) {
    forall i, j :: 0 <= i < j < |t| ==> t[i].id < t[j].id
  }

  /** The position of the first row named `name`: `SELECT ... WHERE product_name = ? LIMIT 1` over a table scan. */
  function FirstByName(t: Table, name: string): Option<nat> {
    FirstIndex(t, (p: Product) => p.name == name)
  }

  /** When ids ascend in table order, the first row by name is the lowest-id row by name. */
  lemma FirstByNameIsLowest(t: Table, name: string)
    requires IdsAscending(t)
    ensures FirstByName(t, name).None? <==> LowestByName(t, name).None?
    ensures FirstByName(t, name).Some? ==> LowestByName(t, name) == Some(t[FirstByName(t, name).value])
  {
    var f := FirstByName(t, name);
    var l := LowestByName(t, name);
    if f.Some? {
      var k := f.value;
      assert t[k].name == name;
      var j :| 0 <= j < |t| && t[j] == l.value;
      // j < k would contradict k being first; k < j would contradict t[j] having the lowest id.
      assert j == k;
    }
  }

  /** The position of the first row with a given id: `SELECT * ... WHERE production_id = ?` then `results[0]`. */
  function FindById(t: Table, id: int): Option<nat> {
    FirstIndex(t, (p: Product) => p.id == id)
  }

  /**
   `UPDATE ... SET quantity = ? WHERE production_id = ?`: every row with that
   id now holds the written text, read here as `q`; every other row is
   unchanged.
   */
  function WriteQuantity(t: Table, id: int, q: Option<int>): (r: Table)
    ensures |r| == |t|
    ensures forall i :: 0 <= i < |t| && t[i].id == id ==> r[i] == t[i].(quantity := q)
    ensures forall i :: 0 <= i < |t| && t[i].id != id ==> r[i] == t[i]
  {
    if |t| == 0 then []
    else
      var head := if t[0].id == id then t[0].(quantity := q) else t[0];
      var rest := WriteQuantity(t[1..], id, q);
      assert forall i :: 1 <= i < |t| ==> ([head] + rest)[i] == rest[i - 1] && t[i] == t[1..][i - 1];
      [head] + rest
  }

  /** A whole-number stock write; the written rows then read back as exactly `n`. */
  function WriteStock(t: Table, id: int, n: int): (r: Table)
    ensures |r| == |t|
    ensures forall i :: 0 <= i < |t| && t[i].id == id ==> r[i] == t[i].(quantity := Some(n)) && Stock(r[i]) == n
    ensures forall i :: 0 <= i < |t| && t[i].id != id ==> r[i] == t[i]
  {
    WriteQuantity(t, id, Some(n))
  }


  /** A stock write changes quantities only: names and ids stay where they were. */
  ghost predicate SameRows(t: Table, u: Table) {
    && |u| == |t|
    && forall i :: 0 <= i < |t| ==> u[i].id == t[i].id && u[i].name == t[i].name
  }

  lemma SameRowsTransitive(t: Table, u: Table, v: Table)
    requires SameRows(t, u) && SameRows(u, v)
    ensures SameRows(t, v)
  {
  }

  /** The lowest-id row for a name is the same row before and after quantities change. */
  lemma {:induction false} LowestByNameStable(t: Table, u: Table, name: string)
    requires SameRows(t, u)
    ensures LowestByName(t, name).None? <==> LowestByName(u, name).None?
    ensures LowestByName(t, name).Some? ==> LowestByName(u, name).value.id == LowestByName(t, name).value.id
    decreases |t|
  {
    if |t| > 0 {
      assert SameRows(t[1..], u[1..]) by {
        forall i | 0 <= i < |t[1..]| ensures u[1..][i].id == t[1..][i].id && u[1..][i].name == t[1..][i].name {
          assert t[1..][i] == t[i + 1] && u[1..][i] == u[i + 1];
        }
      }
      LowestByNameStable(t[1..], u[1..], name);
    }
  }

  /** Writing a non-negative stock keeps every stock non-negative. */
  lemma WriteStockKeepsNonNegative(t: Table, id: int, n: int)
    requires StocksNonNegative(t)
    requires n >= 0
    ensures StocksNonNegative(WriteStock(t, id, n))
  {
  }

  /** Which of the handler's two database calls fail; the store decides, not the caller. */
  datatype PatchFaults = PatchFaults(selectFails: bool, updateFails: bool)

  /**
   The JSON body of a successful stock patch. `soldQuantity` is echoed as the
   body sent it and `newStock` is None where it is NaN.
   */
  datatype StockPatch = StockPatch(
    productId: int,
    oldStock: int,
    soldQuantity: Option<real>,
    newStock: Option<real>,
    isOutOfStock: bool)

  /**
   `Math.max(0, currentStock - soldQuantity)` with `soldQuantity` taken from the
   body unparsed: a number, possibly fractional, or NaN (None) when it is
   missing or not numeric, in which case the result is NaN as well.
   */
  function PatchedStock(current: int, sold: Option<real>): (r: Option<real>)
    ensures r.None? <==> sold.None?
    ensures sold.Some? ==> r.value >= 0.0 && r.value >= current as real - sold.value
    ensures sold.Some? ==> (r.value == 0.0 <==> current as real <= sold.value)
    ensures sold.Some? && r.value != 0.0 ==> r.value == current as real - sold.value
  {
    match sold
    case None => None
    case Some(q) => Some(if current as real - q > 0.0 then current as real - q else 0.0)
  }

  /** For a whole quantity the handler floors exactly as the sale does. */
  lemma PatchedStockWhole(current: int, sold: int)
    ensures PatchedStock(current, Some(sold as real)) == Some(ClampedStock(current, sold) as real)
  {
  }

  /**
   `parseInt(newStock.toString())`, what later reads of the row see: "NaN" is
   unreadable, and a number loses its fraction, truncated toward zero.
   */
  function StoredQuantity(n: Option<real>): (q: Option<int>)
    ensures n.None? <==> q.None?
    ensures n.Some? && n.value >= 0.0 ==> q.value as real <= n.value < q.value as real + 1.0
  {
    match n
    case None => None
    case Some(x) => Some(if x >= 0.0 then x.Floor else -((-x).Floor))
  }

  /**
   `PATCH /products/:id/stock`: read the row, floor the new stock at zero, write
   its text back. A failed read or write is a 500, a missing row a 404; nothing
   is written unless the whole handler succeeds. The body's `soldQuantity` is
   never parsed, so a missing or non-numeric one writes "NaN" and a fractional
   one a fractional stock.
   */
  function PatchStock(t: Table, id: int, sold: Option<real>, faults: PatchFaults): (r: (Reply<StockPatch>, Table))
    ensures faults.selectFails ==> r == (Fail(500), t)
    ensures !faults.selectFails && FindById(t, id).None? ==> r == (Fail(404), t)
    ensures r.0.Fail? ==> r.1 == t
    ensures FindById(t, id).Some? && !faults.selectFails && faults.updateFails ==> r == (Fail(500), t)
    ensures FindById(t, id).Some? && !faults.selectFails && !faults.updateFails ==> r.0.Ok?
    ensures r.0.Ok? ==>
      && FindById(t, id).Some?
      && var p := t[FindById(t, id).value];
      && r.0.body.oldStock == Stock(p)
      && r.0.body.soldQuantity == sold
      && (sold.None? ==> r.0.body.newStock.None? && !r.0.body.isOutOfStock)
      && (sold.Some? ==>
          && r.0.body.newStock.Some?
          && r.0.body.newStock.value >= 0.0
          && r.0.body.newStock.value >= Stock(p) as real - sold.value
          && (r.0.body.newStock.value == 0.0 || r.0.body.newStock.value == Stock(p) as real - sold.value))
      && (r.0.body.isOutOfStock <==> r.0.body.newStock == Some(0.0))
      && r.1 == WriteQuantity(t, id, StoredQuantity(r.0.body.newStock))
  {
    if faults.selectFails then (Fail(500), t)
    else
      match FindById(t, id)
      case None => (Fail(404), t)
      case Some(k) =>
        var current := Stock(t[k]);
        var n := PatchedStock(current, sold);
        if faults.updateFails then (Fail(500), t)
        else (Ok(StockPatch(id, current, sold, n, n == Some(0.0))), WriteQuantity(t, id, StoredQuantity(n)))
  }

  /**
   A successful patch by a whole quantity writes what the sale's own stock
   step writes, `max(0, current - sold)`, and flags it out of stock exactly
   when that is 0.
   */
  lemma PatchStockWholeQuantity(t: Table, id: int, sold: int)
    requires FindById(t, id).Some?
    ensures var r := PatchStock(t, id, Some(sold as real), PatchFaults(false, false));
      var n := ClampedStock(Stock(t[FindById(t, id).value]), sold);
      && r.0.Ok?
      && r.1 == WriteStock(t, id, n)
      && (r.0.body.isOutOfStock <==> n == 0)
  {
    var n := ClampedStock(Stock(t[FindById(t, id).value]), sold);
    PatchedStockWhole(Stock(t[FindById(t, id).value]), sold);
    assert StoredQuantity(Some(n as real)) == Some(n);
  }

  /**
   A successful patch whose `soldQuantity` is missing or not a number replies
   that the product is in stock, yet leaves its row reading as stock 0.
   */
  lemma PatchStockWithoutQuantity(t: Table, id: int)
    requires FindById(t, id).Some?
    ensures var r := PatchStock(t, id, None, PatchFaults(false, false));
      && r.0.Ok?
      && !r.0.body.isOutOfStock
      && r.0.body.newStock.None?
      && forall i :: 0 <= i < |t| && t[i].id == id ==> Stock(r.1[i]) == 0
  {
  }

  /**
   After a stock write to the product a name resolves to, the unordered lookup
   of that name finds the written row.
   */
  lemma FoundAfterWrite(t: Table, name: string, n: int)
    requires IdsAscending(t)
    requires LowestByName(t, name).Some?
    ensures var pid := LowestByName(t, name).value.id;
      var u := WriteStock(t, pid, n);
      && FirstByName(u, name).Some?
      && u[FirstByName(u, name).value].id == pid
      && Stock(u[FirstByName(u, name).value]) == n
  {
    var pid := LowestByName(t, name).value.id;
    var u := WriteStock(t, pid, n);
    assert SameRows(t, u);
    assert IdsAscending(u);
    FirstByNameIsLowest(u, name);
    LowestByNameStable(t, u, name);
  }
}

=== FILE: ledger.dfy ===
/**
 `GET /accounting` (server.cjs:153-291): the profit, the share count and the
 signed dividend per share, and the ledger rebuilt on every request from three
 sources -- share capital, sales, production cost -- sorted by date (newest
 first) then person name, and numbered from 1.

 Numeric columns go through `CAST(... AS DECIMAL)`, which in MySQL is
 DECIMAL(10,0): the value is rounded to a whole number (`Decimal0`).
 */
module Ledger {
  import opened Common
  import opened Text
  import opened Sorting
  import opened Inventory
  import opened Settlement

  /** A row of `tb_member_management` as the server reads it; the numeric text columns are read as numbers. */
  datatype Member = Member(name: string, fundsAmount: real, shareValue: real)

  /** `CAST(x AS DECIMAL)`: the nearest whole number, halves rounded away from zero. */
  function Decimal0(x: real): (r: int)
    ensures x >= 0.0 ==> x - 0.5 < r as real <= x + 0.5
    ensures x < 0.0 ==> x - 0.5 <= r as real < x + 0.5
  {
    if x >= 0.0 then (x + 0.5).Floor else -((-x + 0.5).Floor)
  }

  /** Whole numbers pass through the cast unchanged. */
  lemma Decimal0OfInteger(n: int)
    ensures Decimal0(n as real) == n
  {
  }

  /** `SUM(total_price)` over the purchase history. */
  function Revenue(history: seq<HistoryRow>): (r: real)
    ensures (forall i :: 0 <= i < |history| ==> history[i].totalPrice >= 0.0) ==> r >= 0.0
  {
    RevenueNonNegative(history);
    Sum(history, (h: HistoryRow) => h.totalPrice)
  }

  lemma RevenueNonNegative(history: seq<HistoryRow>)
    ensures (forall i :: 0 <= i < |history| ==> history[i].totalPrice >= 0.0) ==>
      Sum(history, (h: HistoryRow) => h.totalPrice) >= 0.0
  {
    if forall i :: 0 <= i < |history| ==> history[i].totalPrice >= 0.0 {
      SumNonNegative(history, (h: HistoryRow) => h.totalPrice);
    }
  }

  /** `CAST(price AS DECIMAL) * CAST(quantity AS DECIMAL)` for one production row. */
  function ProductionCost(p: Product): real {
    Decimal0(p.price) as real * Stock(p) as real
  }

  /** `SUM(price * quantity)` over every production row. */
  function CostBasis(products: Table): (r: real)
    ensures (forall i :: 0 <= i < |products| ==> Decimal0(products[i].price) >= 0 && Stock(products[i]) >= 0) ==> r >= 0.0
  {
    CostBasisNonNegative(products);
    Sum(products, ProductionCost)
  }

  lemma CostBasisNonNegative(products: Table)
    ensures (forall i :: 0 <= i < |products| ==> Decimal0(products[i].price) >= 0 && Stock(products[i]) >= 0) ==>
      Sum(products, ProductionCost) >= 0.0
  {
    if forall i :: 0 <= i < |products| ==> Decimal0(products[i].price) >= 0 && Stock(products[i]) >= 0 {
      SumNonNegative(products, ProductionCost);
    }
  }

  /** `total_profit`: all-time sales minus the cost basis of current production. */
  function Profit(history: seq<HistoryRow>, products: Table): (r: real)
    ensures r + CostBasis(products) == Revenue(history)
  {
    Revenue(history) - CostBasis(products)
  }

  /** Each logged sale raises the profit by exactly its total; the production table is not consulted. */
  lemma ProfitOfLoggedSales(history: seq<HistoryRow>, sales: seq<HistoryRow>, products: Table)
    ensures Profit(history + sales, products) == Profit(history, products) + Revenue(sales)
  {
    SumAppend(history, sales, (h: HistoryRow) => h.totalPrice);
  }

  /** `WHERE CAST(Share_value AS DECIMAL) > 0`. */
  predicate HasShares(m: Member) {
    Decimal0(m.shareValue) > 0
  }

  /** `CAST(Share_value AS DECIMAL) / 1000`: one share is 1,000 baht. */
  function ShareCount(m: Member): real {
    Decimal0(m.shareValue) as real / 1000.0
  }

  /** `SUM(Share_value / 1000)` over members holding shares. */
  function TotalShares(members: seq<Member>): (r: real)
    ensures r >= 0.0
  {
    var holders := Filter(members, HasShares);
    SumNonNegative(holders, ShareCount);
    Sum(holders, ShareCount)
  }

  /**
   `totalShares > 0 ? (profit * 0.3) / totalShares : 0`: 30% of the profit per
   share. A loss gives a negative rate; it is not clamped.
   */
  function DividendPerShare(profit: real, totalShares: real): (r: real)
    ensures totalShares > 0.0 ==> r * totalShares == profit * 0.3
    ensures totalShares <= 0.0 ==> r == 0.0
    ensures totalShares > 0.0 ==> (r < 0.0 <==> profit < 0.0) && (r == 0.0 <==> profit == 0.0)
  {
    if totalShares > 0.0 then (profit * 0.3) / totalShares else 0.0
  }

  datatype EntryType = Income | Expense

  /** The `category` column; dividend rows are described by the handler but never queried. */
  datatype Category = ShareCapital | Sale | Production | Dividend

  /** One row of the `UNION ALL` before numbering. */
  datatype LedgerRow = LedgerRow(
    person: string,
    amount: real,
    entryType: EntryType,
    category: Category,
    date: string,
    shareCount: real)

  const CustomerPrefix: string := "ลูกค้า ID: "

  /** The share-capital row of one member: the rounded share value as income, dated today. */
  function ShareRow(m: Member, today: string): LedgerRow {
    LedgerRow(m.name, Decimal0(m.shareValue) as real, Income, ShareCapital, today, ShareCount(m))
  }

  /** Share-capital rows: one income row per member holding shares, in member order. */
  function MemberRows(members: seq<Member>, today: string): (rows: seq<LedgerRow>)
    ensures |rows| == |Filter(members, HasShares)|
    ensures forall i :: 0 <= i < |rows| ==> rows[i] == ShareRow(Filter(members, HasShares)[i], today)
    ensures forall i :: 0 <= i < |rows| ==> rows[i].entryType == Income && rows[i].category == ShareCapital && rows[i].amount > 0.0
    decreases |members|
  {
    if |members| == 0 then []
    else
      var m := members[0];
      var rest := MemberRows(members[1..], today);
      if HasShares(m) then
        var rows := [ShareRow(m, today)] + rest;
        assert Filter(members, HasShares) == [m] + Filter(members[1..], HasShares);
        assert forall i :: 1 <= i < |rows| ==> rows[i] == rest[i - 1];
        rows
      else rest
  }

  /** Sale rows: one income row per purchase-history row, named after the customer id and dated on the purchase. */
  function SaleRows(history: seq<HistoryRow>): (rows: seq<LedgerRow>)
    ensures |rows| == |history|
    ensures forall i :: 0 <= i < |rows| ==>
      && rows[i].entryType == Income && rows[i].category == Sale
      && rows[i].amount == history[i].totalPrice && rows[i].date == history[i].purchaseDate
      && rows[i].person == CustomerPrefix + IntToString(history[i].customerId)
  {
    if |history| == 0 then []
    else
      var h := history[0];
      var rest := SaleRows(history[1..]);
      var rows := [LedgerRow(CustomerPrefix + IntToString(h.customerId), h.totalPrice, Income, Sale, h.purchaseDate, 0.0)] + rest;
      assert forall i :: 1 <= i < |rows| ==> rows[i] == rest[i - 1];
      assert forall i :: 1 <= i < |rows| ==> history[i] == history[1..][i - 1];
      rows
  }

  /** `WHERE CAST(price AS DECIMAL) > 0 AND CAST(quantity AS DECIMAL) > 0`. */
  predicate IsPaidProduction(p: Product) {
    Decimal0(p.price) > 0 && Stock(p) > 0
  }

  /** The expense row of one production row: its cost, under the member's name, dated today. */
  function CostRow(p: Product, today: string): LedgerRow {
    LedgerRow(p.memberName, ProductionCost(p), Expense, Production, today, 0.0)
  }

  /** Production rows: one expense row per production row with positive price and quantity, in table order. */
  function ProductionRows(products: Table, today: string): (rows: seq<LedgerRow>)
    ensures |rows| == |Filter(products, IsPaidProduction)|
    ensures forall i :: 0 <= i < |rows| ==> rows[i] == CostRow(Filter(products, IsPaidProduction)[i], today)
    ensures forall i :: 0 <= i < |rows| ==> rows[i].entryType == Expense && rows[i].category == Production && rows[i].amount > 0.0
    decreases |products|
  {
    if |products| == 0 then []
    else
      var p := products[0];
      var rest := ProductionRows(products[1..], today);
      if IsPaidProduction(p) then
        var rows := [CostRow(p, today)] + rest;
        assert Filter(products, IsPaidProduction) == [p] + Filter(products[1..], IsPaidProduction);
        assert forall i :: 1 <= i < |rows| ==> rows[i] == rest[i - 1];
        rows
      else rest
  }

  /** `ORDER BY transaction_date DESC, person_name ASC`: `a` may come before `b`. */
  predicate LedgerLe(a: LedgerRow, b: LedgerRow) {
    if a.date != b.date then LexLe(b.date, a.date) else LexLe(a.person, b.person)
  }

  lemma LedgerLeIsTotalPreorder()
    ensures TotalPreorder(LedgerLe)
  {
    forall a: LedgerRow, b: LedgerRow
      ensures LedgerLe(a, b) || LedgerLe(b, a)
    {
      LexLeTotal(a.date, b.date);
      LexLeTotal(a.person, b.person);
    }
    forall a: LedgerRow, b: LedgerRow, c: LedgerRow | LedgerLe(a, b) && LedgerLe(b, c)
      ensures LedgerLe(a, c)
    {
      if a.date == b.date && b.date == c.date {
        LexLeTransitive(a.person, b.person, c.person);
      } else if a.date == b.date {
        assert LedgerLe(a, c);
      } else if b.date == c.date {
        assert LedgerLe(a, c);
      } else {
        LexLeTransitive(c.date, b.date, a.date);
        if a.date == c.date {
          LexLeAntisymmetric(a.date, b.date);
        }
      }
    }
  }

  predicate NoDividend(rows: seq<LedgerRow>) {
    forall i :: 0 <= i < |rows| ==> rows[i].category != Dividend
  }

  lemma NoDividendAppend(a: seq<LedgerRow>, b: seq<LedgerRow>)
    requires NoDividend(a) && NoDividend(b)
    ensures NoDividend(a + b)
  {
    assert forall i :: |a| <= i < |a| + |b| ==> (a + b)[i] == b[i - |a|];
  }

  /** The three sources in `UNION ALL` order, before sorting. */
  function UnionRows(members: seq<Member>, history: seq<HistoryRow>, products: Table, today: string): (rows: seq<LedgerRow>)
    ensures |rows| == |Filter(members, HasShares)| + |history| + |Filter(products, IsPaidProduction)|
    ensures NoDividend(rows)
  {
    var a := MemberRows(members, today);
    var b := SaleRows(history);
    var c := ProductionRows(products, today);
    NoDividendAppend(a, b);
    NoDividendAppend(a + b, c);
    a + b + c
  }

  /** The union sorted newest first, then by person. Rows that tie on both keep their
      union order, one of the orders the database may return for them. */
  function LedgerRows(members: seq<Member>, history: seq<HistoryRow>, products: Table, today: string): (rows: seq<LedgerRow>)
    ensures SortedBy(rows, LedgerLe)
    ensures multiset(rows) == multiset(UnionRows(members, history, products, today))
    ensures |rows| == |UnionRows(members, history, products, today)|
    ensures forall i :: 0 <= i < |rows| ==> rows[i].category != Dividend
  {
    LedgerLeIsTotalPreorder();
    var u := UnionRows(members, history, products, today);
    var rows := SortBy(u, LedgerLe);
    forall i | 0 <= i < |rows|
      ensures rows[i].category != Dividend
    {
      assert rows[i] in multiset(u);
    }
    rows
  }

  /** One element of the `data` array. */
  datatype LedgerEntry = LedgerEntry(
    financeId: nat,
    entryType: EntryType,
    income: real,
    expense: real,
    amount: real,
    transactionDate: string,
    profit: real,
    dividend: real,
    share: real,
    person: string,
    category: Category,
    isLoss: bool)

  /** The row a numbered entry was made from. */
  function RowOf(e: LedgerEntry): LedgerRow {
    LedgerRow(e.person, e.amount, e.entryType, e.category, e.transactionDate, e.share)
  }

  /**
   One element of `formattedResults`: the row numbered `id`, its amount in the
   income or the expense column by its type, and the dividend fields, which
   only a dividend row fills.
   */
  function EntryFor(r: LedgerRow, id: nat, totalProfit: real): (e: LedgerEntry)
    ensures e.financeId == id && RowOf(e) == r
    ensures r.entryType == Income ==> e.income == r.amount && e.expense == 0.0
    ensures r.entryType == Expense ==> e.expense == r.amount && e.income == 0.0
    ensures r.category != Dividend ==> e.dividend == 0.0 && !e.isLoss
    ensures r.category == Dividend ==> e.dividend == r.amount && (e.isLoss <==> totalProfit < 0.0)
    ensures e.profit == 0.0
  {
    LedgerEntry(
      id,
      r.entryType,
      if r.entryType == Income then r.amount else 0.0,
      if r.entryType == Expense then r.amount else 0.0,
      r.amount,
      r.date,
      0.0,
      if r.category == Dividend then r.amount else 0.0,
      r.shareCount,
      r.person,
      r.category,
      totalProfit < 0.0 && r.category == Dividend)
  }

  /** `formattedResults`: the rows numbered on from `start + 1`, in order. */
  function Number(rows: seq<LedgerRow>, start: nat, totalProfit: real): (es: seq<LedgerEntry>)
    ensures |es| == |rows|
    ensures forall i :: 0 <= i < |es| ==> es[i] == EntryFor(rows[i], start + i + 1, totalProfit)
    decreases |rows|
  {
    if |rows| == 0 then []
    else
      var rest := Number(rows[1..], start + 1, totalProfit);
      var es := [EntryFor(rows[0], start + 1, totalProfit)] + rest;
      assert forall i :: 1 <= i < |es| ==> es[i] == rest[i - 1];
      assert forall i :: 1 <= i < |es| ==> rows[i] == rows[1..][i - 1];
      es
  }

  /** The JSON body of `GET /accounting`. */
  datatype AccountingResponse = AccountingResponse(
    data: seq<LedgerEntry>,
    dividendPerShare: real,
    isProfit: bool,
    totalProfit: real)

  /**
   The reply built from the sorted rows, the profit and the share count: the
   rows numbered from 1, the dividend's magnitude and the profit flag.
   */
  function Respond(rows: seq<LedgerRow>, profit: real, shares: real): (r: AccountingResponse)
    requires SortedBy(rows, LedgerLe)
    requires forall i :: 0 <= i < |rows| ==> rows[i].category != Dividend
    ensures |r.data| == |rows| && r.totalProfit == profit
    ensures forall i :: 0 <= i < |rows| ==> r.data[i] == EntryFor(rows[i], i + 1, profit)
    ensures r.isProfit <==> profit >= 0.0
    ensures r.dividendPerShare >= 0.0
    ensures DividendIsThirtyPercent(r.dividendPerShare, shares, profit)
    ensures shares <= 0.0 ==> r.dividendPerShare == 0.0
    ensures forall i :: 0 <= i < |r.data| ==> r.data[i].financeId == i + 1
    ensures forall i, j :: 0 <= i < j < |r.data| ==> LedgerLe(RowOf(r.data[i]), RowOf(r.data[j]))
    ensures forall i :: 0 <= i < |r.data| ==> r.data[i].category != Dividend && r.data[i].dividend == 0.0 && !r.data[i].isLoss
  {
    var data := Number(rows, 0, profit);
    AccountingResponse(data, ShownDividend(profit, shares), profit >= 0.0, profit)
  }

  /** `GET /accounting`. */
  function GetAccounting(members: seq<Member>, history: seq<HistoryRow>, products: Table, today: string): (r: AccountingResponse)
    ensures |r.data| == |Filter(members, HasShares)| + |history| + |Filter(products, IsPaidProduction)|
    ensures var rows := LedgerRows(members, history, products, today);
      forall i :: 0 <= i < |rows| ==> r.data[i] == EntryFor(rows[i], i + 1, r.totalProfit)
    ensures r.totalProfit + CostBasis(products) == Revenue(history)
    ensures r.isProfit <==> r.totalProfit >= 0.0
    ensures r.dividendPerShare >= 0.0
    ensures DividendIsThirtyPercent(r.dividendPerShare, TotalShares(members), r.totalProfit)
    ensures TotalShares(members) == 0.0 ==> r.dividendPerShare == 0.0
    ensures forall i :: 0 <= i < |r.data| ==> r.data[i].financeId == i + 1
    ensures forall i, j :: 0 <= i < j < |r.data| ==> LedgerLe(RowOf(r.data[i]), RowOf(r.data[j]))
    ensures forall i :: 0 <= i < |r.data| ==> r.data[i].category != Dividend && r.data[i].dividend == 0.0 && !r.data[i].isLoss
  {
    Respond(LedgerRows(members, history, products, today), Profit(history, products), TotalShares(members))
  }

  /** The rows the entries were made from, in entry order. */
  function RowsOf(es: seq<LedgerEntry>): (rows: seq<LedgerRow>)
    ensures |rows| == |es|
    ensures forall i :: 0 <= i < |es| ==> rows[i] == RowOf(es[i])
  {
    if |es| == 0 then [] else [RowOf(es[0])] + RowsOf(es[1..])
  }

  /**
   One entry per source row: the rows behind the reply's entries are the
   share-capital, sale and production rows, each exactly once.
   */
  lemma EntriesAreUnionRows(members: seq<Member>, history: seq<HistoryRow>, products: Table, today: string)
    ensures multiset(RowsOf(GetAccounting(members, history, products, today).data)) == multiset(UnionRows(members, history, products, today))
  {
    var r := GetAccounting(members, history, products, today);
    var rows := LedgerRows(members, history, products, today);
    assert RowsOf(r.data) == rows;
  }

  /** With shares outstanding, `dps` shares out 30% of the profit's magnitude over them. */
  predicate DividendIsThirtyPercent(dps: real, shares: real, profit: real) {
    shares > 0.0 ==> dps * shares == 0.3 * (if profit >= 0.0 then profit else -profit)
  }

  /** `Math.abs(dividendPerShare)`: the reply shows the magnitude, whatever the sign of the profit. */
  function ShownDividend(profit: real, shares: real): (r: real)
    ensures r >= 0.0
    ensures DividendIsThirtyPercent(r, shares, profit)
    ensures shares <= 0.0 ==> r == 0.0
  {
    var dps := DividendPerShare(profit, shares);
    assert shares > 0.0 && dps < 0.0 ==> (-dps) * shares == -(dps * shares);
    if dps >= 0.0 then dps else -dps
  }

  function EntryIncome(e: LedgerEntry): real { e.income }
  function EntryExpense(e: LedgerEntry): real { e.expense }
  function RowIncome(r: LedgerRow): real { if r.entryType == Income then r.amount else 0.0 }
  function RowExpense(r: LedgerRow): real { if r.entryType == Expense then r.amount else 0.0 }

  /** The share capital the ledger reports: the rounded share value of every member holding shares. */
  function MemberCapital(members: seq<Member>): real {
    Sum(members, (m: Member) => if HasShares(m) then Decimal0(m.shareValue) as real else 0.0)
  }

  /** The production cost the ledger reports: only rows with positive rounded price and positive stock. */
  function PaidCost(products: Table): real {
    Sum(products, (p: Product) => if IsPaidProduction(p) then ProductionCost(p) else 0.0)
  }

  lemma {:induction false} NumberSums(rows: seq<LedgerRow>, start: nat, totalProfit: real)
    ensures Sum(Number(rows, start, totalProfit), EntryIncome) == Sum(rows, RowIncome)
    ensures Sum(Number(rows, start, totalProfit), EntryExpense) == Sum(rows, RowExpense)
    decreases |rows|
  {
    if |rows| > 0 {
      NumberSums(rows[1..], start + 1, totalProfit);
      var es := Number(rows, start, totalProfit);
      assert es[1..] == Number(rows[1..], start + 1, totalProfit);
    }
  }

  lemma {:induction false} MemberRowsSums(members: seq<Member>, today: string)
    ensures Sum(MemberRows(members, today), RowIncome) == MemberCapital(members)
    ensures Sum(MemberRows(members, today), RowExpense) == 0.0
    decreases |members|
  {
    if |members| > 0 {
      MemberRowsSums(members[1..], today);
      var rows := MemberRows(members, today);
      if HasShares(members[0]) {
        assert rows[1..] == MemberRows(members[1..], today);
      }
    }
  }

  lemma {:induction false} SaleRowsSums(history: seq<HistoryRow>)
    ensures Sum(SaleRows(history), RowIncome) == Revenue(history)
    ensures Sum(SaleRows(history), RowExpense) == 0.0
    decreases |history|
  {
    if |history| > 0 {
      SaleRowsSums(history[1..]);
      assert SaleRows(history)[1..] == SaleRows(history[1..]);
    }
  }

  lemma {:induction false} ProductionRowsSums(products: Table, today: string)
    ensures Sum(ProductionRows(products, today), RowIncome) == 0.0
    ensures Sum(ProductionRows(products, today), RowExpense) == PaidCost(products)
    decreases |products|
  {
    if |products| > 0 {
      ProductionRowsSums(products[1..], today);
      var rows := ProductionRows(products, today);
      if IsPaidProduction(products[0]) {
        assert rows[1..] == ProductionRows(products[1..], today);
      }
    }
  }

  /**
   The ledger reconciles with the headline figures: its income column totals the
   share capital plus all sales, its expense column the paid production cost.
   */
  lemma LedgerReconciles(members: seq<Member>, history: seq<HistoryRow>, products: Table, today: string)
    ensures var r := GetAccounting(members, history, products, today);
      && Sum(r.data, EntryIncome) == MemberCapital(members) + Revenue(history)
      && Sum(r.data, EntryExpense) == PaidCost(products)
  {
    var a := MemberRows(members, today);
    var b := SaleRows(history);
    var c := ProductionRows(products, today);
    var u := UnionRows(members, history, products, today);
    var profit := Profit(history, products);
    var rows := LedgerRows(members, history, products, today);
    assert GetAccounting(members, history, products, today).data == Number(rows, 0, profit);
    NumberSums(rows, 0, profit);
    LedgerLeIsTotalPreorder();
    assert rows == SortBy(u, LedgerLe);
    SortSum(u, LedgerLe, RowIncome);
    SortSum(u, LedgerLe, RowExpense);
    assert u == a + b + c;
    SumAppend(a + b, c, RowIncome);
    SumAppend(a, b, RowIncome);
    SumAppend(a + b, c, RowExpense);
    SumAppend(a, b, RowExpense);
    MemberRowsSums(members, today);
    SaleRowsSums(history);
    ProductionRowsSums(products, today);
  }

  /** When no price rounds negative and no stock is negative, skipping the unpaid rows loses nothing. */
  lemma PaidCostIsCostBasis(products: Table)
    requires forall i :: 0 <= i < |products| ==> Decimal0(products[i].price) >= 0 && Stock(products[i]) >= 0
    ensures PaidCost(products) == CostBasis(products)
  {
    SumCongruent(products, (p: Product) => if IsPaidProduction(p) then ProductionCost(p) else 0.0, ProductionCost);
  }

  /** Each share is 1,000 baht of share capital. */
  lemma {:induction false} SharesMatchCapital(members: seq<Member>)
    ensures TotalShares(members) * 1000.0 == MemberCapital(members)
    decreases |members|
  {
    var g := (m: Member) => if HasShares(m) then ShareCount(m) else 0.0;
    SumFilter(members, HasShares, ShareCount, g);
    SharesScale(members);
  }

  lemma {:induction false} SharesScale(members: seq<Member>)
    ensures Sum(members, (m: Member) => if HasShares(m) then ShareCount(m) else 0.0) * 1000.0 == MemberCapital(members)
    decreases |members|
  {
    if |members| > 0 {
      SharesScale(members[1..]);
    }
  }
}

=== FILE: members_page.dfy ===
/**
 The Members page (src/pages/Members.tsx): the search filter, the phone-number
 sanitiser, and the share value the add and edit forms send (one share is
 1,000 baht).

 `Number(text)` is a parameter `number` of the functions that need it; None is
 NaN. The share value is held as the number whose `toString()` is sent.
 */
module MembersPage {
  import opened Common
  import opened Text

  /** A member as the page holds it. */
  datatype MemberRecord = MemberRecord(
    id: int,
    name: Option<string>,
    address: Option<string>,
    occupation: string,
    fundsAmount: string,
    shareValue: Option<real>,
    phone: string)

  /** `field?.toLowerCase().includes(term)`: an absent field never matches. */
  predicate FieldIncludes(field: Option<string>, term: string) {
    field.Some? && Includes(Lower(field.value), Lower(term))
  }

  predicate MatchesSearch(m: MemberRecord, term: string) {
    FieldIncludes(m.name, term) || FieldIncludes(m.address, term)
  }

  /** `filteredMembers`: the members whose name or address contains the term, in order. */
  function FilteredMembers(ms: seq<MemberRecord>, term: string): (r: seq<MemberRecord>)
    ensures IsSubsequence(r, ms)
    ensures forall m :: m in r <==> m in ms && MatchesSearch(m, term)
  {
    var keep := (m: MemberRecord) => MatchesSearch(m, term);
    forall m ensures m in Filter(ms, keep) <==> m in ms && keep(m) {
      FilterMembership(ms, keep, m);
    }
    FilterIsSubsequence(ms, keep);
    Filter(ms, keep)
  }

  /** An empty search hides exactly the members with neither a name nor an address. */
  lemma EmptySearchHidesOnlyNameless(ms: seq<MemberRecord>, m: MemberRecord)
    ensures m in FilteredMembers(ms, "") <==> m in ms && (m.name.Some? || m.address.Some?)
  {
    if m.name.Some? {
      IncludesEmpty(Lower(m.name.value));
    }
    if m.address.Some? {
      IncludesEmpty(Lower(m.address.value));
    }
  }

  /** `s.slice(0, n)`. */
  function Take(s: string, n: nat): (r: string)
    ensures |s| <= n ==> r == s
    ensures |s| > n ==> r == s[..n]
  {
    if |s| <= n then s else s[..n]
  }

  /** The phone field's `replace(/\D/g, '').slice(0, 10)`. */
  function SanitizePhone(s: string): (r: string)
    ensures |r| <= 10
    ensures forall i :: 0 <= i < |r| ==> IsDigit(r[i])
    ensures r <= DigitsOf(s)
    ensures |DigitsOf(s)| <= 10 ==> r == DigitsOf(s)
    ensures |DigitsOf(s)| > 10 ==> r == DigitsOf(s)[..10]
  {
    Take(DigitsOf(s), 10)
  }

  /** Sanitising a sanitised number changes nothing. */
  lemma SanitizePhoneIdempotent(s: string)
    ensures SanitizePhone(SanitizePhone(s)) == SanitizePhone(s)
  {
    DigitsOfDigits(SanitizePhone(s));
  }

  /** What the add form posts for the share fields. */
  datatype AddPayload = AddPayload(fundsAmount: Option<real>, shareValue: real)

  /** `funds_amount: shares` and `Share_value: shares ? shares * 1000 : 0`; NaN and 0 are falsy. */
  function AddSharesPayload(shares: Option<real>): (r: AddPayload)
    ensures r.fundsAmount == shares
    ensures shares.Some? ==> r.shareValue == shares.value * 1000.0
    ensures shares.None? ==> r.shareValue == 0.0
  {
    var value := if shares.Some? && shares.value != 0.0 then shares.value * 1000.0 else 0.0;
    AddPayload(shares, value)
  }

  /** The share value is 1,000 times the number read from the funds text. */
  ghost predicate ShareValueConsistent(m: MemberRecord, number: string -> Option<real>) {
    m.shareValue == (if number(m.fundsAmount).Some? then Some(number(m.fundsAmount).value * 1000.0) else None)
  }

  /** The share-count input's `onChange`: set the funds text and recompute the share value from it. */
  function EditShares(m: MemberRecord, text: string, number: string -> Option<real>): (r: MemberRecord)
    ensures r.fundsAmount == text
    ensures r == m.(fundsAmount := text, shareValue := r.shareValue)
    ensures ShareValueConsistent(r, number)
  {
    var n := number(text);
    m.(fundsAmount := text, shareValue := if n.Some? then Some(n.value * 1000.0) else None)
  }

  /** What the edit form sends. */
  datatype EditPayload = EditPayload(name: Option<string>, phone: string, address: Option<string>, fundsAmount: string, shareValue: Option<real>, occupation: string)

  /** `handleSaveEdit`: the share value is recomputed from the funds text, whatever the record held. */
  function EditSharesPayload(m: MemberRecord, number: string -> Option<real>): (r: EditPayload)
    ensures r.fundsAmount == m.fundsAmount
    ensures ShareValueConsistent(m.(shareValue := r.shareValue), number)
    ensures ShareValueConsistent(m, number) ==> r.shareValue == m.shareValue
  {
    var n := number(m.fundsAmount);
    EditPayload(m.name, m.phone, m.address, m.fundsAmount, if n.Some? then Some(n.value * 1000.0) else None, m.occupation)
  }

  /** Any sequence of share edits followed by a save sends a consistent share value. */
  lemma EditThenSaveConsistent(m: MemberRecord, texts: seq<string>, number: string -> Option<real>)
    requires |texts| > 0
    ensures var edited := EditAll(m, texts, number);
      ShareValueConsistent(edited, number) && EditSharesPayload(edited, number).shareValue == edited.shareValue
  {
    EditAllConsistent(m, texts, number);
  }

  function EditAll(m: MemberRecord, texts: seq<string>, number: string -> Option<real>): MemberRecord
    decreases |texts|
  {
    if |texts| == 0 then m else EditAll(EditShares(m, texts[0], number), texts[1..], number)
  }

  lemma {:induction false} EditAllConsistent(m: MemberRecord, texts: seq<string>, number: string -> Option<real>)
    requires |texts| > 0 || ShareValueConsistent(m, number)
    ensures ShareValueConsistent(EditAll(m, texts, number), number)
    decreases |texts|
  {
    if |texts| > 0 {
      EditAllConsistent(EditShares(m, texts[0], number), texts[1..], number);
    }
  }
}

=== FILE: products_page.dfy ===
/**
 The Products page (src/pages/Products.tsx): the search filter, the two
 headline totals over every production row, and each table row's value and
 stock status.

 The page holds quantity and price as text and reads them with `Number`; a
 reading is `None` when `Number` gives NaN. NaN spreads through `*` and `+`,
 and compares false with everything.
 */
module ProductsPage {
  import opened Common
  import opened Text

  /** A production row as the page holds it, with its two numeric fields already read. */
  datatype ProductionRow = ProductionRow(
    id: int,
    name: Option<string>,
    category: Option<string>,
    memberName: string,
    staffName: string,
    quantity: Option<real>,
    price: Option<real>)

  /** `a * b` where None is NaN. */
  function NumMul(a: Option<real>, b: Option<real>): (r: Option<real>)
    ensures r.Some? <==> a.Some? && b.Some?
    ensures r.Some? ==> r.value == a.value * b.value
  {
    if a.Some? && b.Some? then Some(a.value * b.value) else None
  }

  /** `a + b` where None is NaN. */
  function NumAdd(a: Option<real>, b: Option<real>): (r: Option<real>)
    ensures r.Some? <==> a.Some? && b.Some?
    ensures r.Some? ==> r.value == a.value + b.value
  {
    if a.Some? && b.Some? then Some(a.value + b.value) else None
  }

  /** `field?.toLowerCase() || ''`. */
  function LowerOrEmpty(field: Option<string>): string {
    match field
    case None => ""
    case Some(s) => Lower(s)
  }

  predicate MatchesSearch(p: ProductionRow, term: string) {
    || Includes(LowerOrEmpty(p.name), Lower(term))
    || Includes(LowerOrEmpty(p.category), Lower(term))
    || Includes(Lower(p.memberName), Lower(term))
    || Includes(Lower(p.staffName), Lower(term))
  }

  /** `filteredProducts`: the rows whose name, category, member or staff contains the term, ignoring ASCII case. */
  function FilteredProducts(ps: seq<ProductionRow>, term: string): (r: seq<ProductionRow>)
    ensures IsSubsequence(r, ps)
    ensures forall p :: p in r <==> p in ps && MatchesSearch(p, term)
  {
    var keep := (p: ProductionRow) => MatchesSearch(p, term);
    forall p ensures p in Filter(ps, keep) <==> p in ps && keep(p) {
      FilterMembership(ps, keep, p);
    }
    FilterIsSubsequence(ps, keep);
    Filter(ps, keep)
  }

  /** An empty search shows every row. */
  lemma EmptySearchShowsAll(ps: seq<ProductionRow>)
    ensures FilteredProducts(ps, "") == ps
  {
    var keep := (p: ProductionRow) => MatchesSearch(p, "");
    forall i | 0 <= i < |ps| ensures keep(ps[i]) {
      IncludesEmpty(Lower(ps[i].memberName));
    }
    FilterAll(ps, keep);
  }

  /** The row's "total value" cell: quantity times price, a number exactly when both fields are. */
  function RowTotal(p: ProductionRow): (r: Option<real>)
    ensures r.Some? <==> p.quantity.Some? && p.price.Some?
    ensures r.Some? ==> r.value == RowValue(p)
  {
    NumMul(p.quantity, p.price)
  }

  /** Both numeric fields of every row read as numbers. */
  ghost predicate AllNumeric(ps: seq<ProductionRow>) {
    forall i :: 0 <= i < |ps| ==> ps[i].quantity.Some? && ps[i].price.Some?
  }

  /** The value of a row whose fields are both numbers. */
  function RowValue(p: ProductionRow): real {
    if p.quantity.Some? && p.price.Some? then p.quantity.value * p.price.value else 0.0
  }

  /**
   `totalValue`: the sum of the row totals over every product, whatever the
   search. One unreadable field makes the whole total NaN.
   */
  function TotalValue(ps: seq<ProductionRow>): (r: Option<real>)
    ensures r.Some? <==> AllNumeric(ps)
    ensures r.Some? ==> r.value == Sum(ps, RowValue)
  {
    if |ps| == 0 then Some(0.0)
    else
      var rest := TotalValue(ps[1..]);
      assert AllNumeric(ps) <==> ps[0].quantity.Some? && ps[0].price.Some? && AllNumeric(ps[1..]) by {
        assert forall i :: 1 <= i < |ps| ==> ps[i] == ps[1..][i - 1];
      }
      NumAdd(RowTotal(ps[0]), rest)
  }

  function QuantityValue(p: ProductionRow): real {
    RealOrZero(p.quantity)
  }

  /** `totalQuantity`: the sum of the quantities; one unreadable quantity makes it NaN. */
  function TotalQuantity(ps: seq<ProductionRow>): (r: Option<real>)
    ensures r.Some? <==> forall i :: 0 <= i < |ps| ==> ps[i].quantity.Some?
    ensures r.Some? ==> r.value == Sum(ps, QuantityValue)
  {
    if |ps| == 0 then Some(0.0)
    else
      var rest := TotalQuantity(ps[1..]);
      assert (forall i :: 0 <= i < |ps| ==> ps[i].quantity.Some?) <==> ps[0].quantity.Some? && (forall i :: 0 <= i < |ps[1..]| ==> ps[1..][i].quantity.Some?) by {
        assert forall i :: 1 <= i < |ps| ==> ps[i] == ps[1..][i - 1];
      }
      NumAdd(ps[0].quantity, rest)
  }

  /**
   The headline value is the value of the shown rows plus that of the hidden
   ones: the search changes the table, never the total.
   */
  lemma TotalValueSplitsBySearch(ps: seq<ProductionRow>, term: string)
    requires AllNumeric(ps)
    ensures TotalValue(ps).value ==
      Sum(FilteredProducts(ps, term), RowValue) + Sum(Filter(ps, (p: ProductionRow) => !MatchesSearch(p, term)), RowValue)
  {
    var shown := (p: ProductionRow) => MatchesSearch(p, term);
    var hidden := (p: ProductionRow) => !MatchesSearch(p, term);
    var inShown := (p: ProductionRow) => if shown(p) then RowValue(p) else 0.0;
    var inHidden := (p: ProductionRow) => if hidden(p) then RowValue(p) else 0.0;
    SumFilter(ps, shown, RowValue, inShown);
    SumFilter(ps, hidden, RowValue, inHidden);
    SumOfParts(ps, inShown, inHidden, RowValue);
  }

  datatype StockStatus = OutOfStock | LowStock | ReadyToSell

  /** The status badge: out at exactly 0, low up to 5, ready otherwise; NaN shows as ready. */
  function Status(p: ProductionRow): (r: StockStatus)
    ensures r == OutOfStock <==> p.quantity == Some(0.0)
    ensures r == LowStock <==> p.quantity.Some? && p.quantity.value != 0.0 && p.quantity.value <= 5.0
    ensures r == ReadyToSell <==> p.quantity.None? || p.quantity.value > 5.0
  {
    match p.quantity
    case None => ReadyToSell
    case Some(q) => if q == 0.0 then OutOfStock else if q <= 5.0 then LowStock else ReadyToSell
  }

  /** An out-of-stock row with a readable price adds nothing to the total value. */
  lemma OutOfStockAddsNothing(p: ProductionRow)
    requires Status(p) == OutOfStock && p.price.Some?
    ensures RowTotal(p) == Some(0.0)
  {
  }
}

=== FILE: reports_page.dfy ===
/**
 The summary figures of the Reports page (src/pages/Reports.tsx): totals over
 the `/accounting` rows, the production value and the share count, and the
 way the page unwraps the `/accounting` body.

 Numeric fields arrive as text or numbers; the page reads text with
 `parseFloat` and then applies `|| 0`. A field is held here as its reading,
 None standing for NaN, so `|| 0` is `RealOrZero`.
 */
module ReportsPage {
  import opened Common
  import opened Inventory
  import opened Settlement
  import opened Ledger
  import opened ProductsPage
  import MembersPage

  /** An `/accounting` row as the page reads it. */
  datatype ReportRow = ReportRow(financeId: int, income: Option<real>, expense: Option<real>)

  /** A member as the page reads it. */
  datatype ReportMember = ReportMember(id: int, fundsAmount: Option<real>)

  /** The JSON body of `/accounting` as far as the page inspects it. */
  datatype Payload = Rows(rows: seq<ReportRow>) | Object(data: Option<Payload>) | Scalar

  /**
   `const dataArray = body.data || body; Array.isArray(dataArray) ? dataArray : []`:
   an array is used as it is (it has no `data`), an object's `data` is used
   when it is an array, and anything else gives no rows.
   */
  function Normalize(p: Payload): (r: seq<ReportRow>)
    ensures p.Rows? ==> r == p.rows
    ensures p.Object? && p.data.Some? && p.data.value.Rows? ==> r == p.data.value.rows
    ensures !p.Rows? && !(p.Object? && p.data.Some? && p.data.value.Rows?) ==> r == []
  {
    match p
    case Rows(rs) => rs
    case Object(d) =>
      if d.Some? && d.value.Rows? then d.value.rows else []
    case Scalar => []
  }

  function IncomeOf(r: ReportRow): real { RealOrZero(r.income) }
  function ExpenseOf(r: ReportRow): real { RealOrZero(r.expense) }

  /**
   `totalIncome`: the sum over the rows whose income reads as a number, so an
   unreadable income counts as 0.
   */
  function TotalIncome(rows: seq<ReportRow>): (r: real)
    ensures r == Sum(Filter(rows, (x: ReportRow) => x.income.Some?), IncomeOf)
    ensures (forall i :: 0 <= i < |rows| && rows[i].income.Some? ==> rows[i].income.value >= 0.0) ==> r >= 0.0
  {
    SumSkipsZeros(rows, (x: ReportRow) => x.income.Some?, IncomeOf);
    FilteredSumBounds(rows, (x: ReportRow) => x.income.Some?, IncomeOf);
    Sum(rows, IncomeOf)
  }

  /**
   `totalExpense`: the sum over the rows whose expense reads as a number, so
   an unreadable expense counts as 0.
   */
  function TotalExpense(rows: seq<ReportRow>): (r: real)
    ensures r == Sum(Filter(rows, (x: ReportRow) => x.expense.Some?), ExpenseOf)
    ensures (forall i :: 0 <= i < |rows| && rows[i].expense.Some? ==> rows[i].expense.value >= 0.0) ==> r >= 0.0
  {
    SumSkipsZeros(rows, (x: ReportRow) => x.expense.Some?, ExpenseOf);
    FilteredSumBounds(rows, (x: ReportRow) => x.expense.Some?, ExpenseOf);
    Sum(rows, ExpenseOf)
  }

  /** `netProfit`. */
  function NetProfit(rows: seq<ReportRow>): (r: real)
    ensures r + TotalExpense(rows) == TotalIncome(rows)
  {
    TotalIncome(rows) - TotalExpense(rows)
  }

  /** The net profit read row by row: each row adds its income and takes away its expense. */
  lemma NetProfitIsRowByRow(rows: seq<ReportRow>)
    ensures NetProfit(rows) == Sum(rows, (x: ReportRow) => IncomeOf(x) - ExpenseOf(x))
  {
    var negated := (x: ReportRow) => -1.0 * ExpenseOf(x);
    SumScale(rows, -1.0, ExpenseOf, negated);
    SumOfParts(rows, IncomeOf, negated, (x: ReportRow) => IncomeOf(x) - ExpenseOf(x));
  }

  /** One production row's contribution: `(quantity || 0) * (price || 0)`. */
  function ProductionValue(p: ProductionRow): real {
    RealOrZero(p.quantity) * RealOrZero(p.price)
  }

  /**
   `totalProduction`: only rows whose quantity and price both read as numbers
   contribute, and with no negative reading the total is not negative.
   */
  function TotalProduction(ps: seq<ProductionRow>): (r: real)
    ensures r == Sum(Filter(ps, (p: ProductionRow) => p.quantity.Some? && p.price.Some?), ProductionValue)
    ensures (forall i :: 0 <= i < |ps| ==> RealOrZero(ps[i].quantity) >= 0.0 && RealOrZero(ps[i].price) >= 0.0) ==> r >= 0.0
  {
    SumSkipsZeros(ps, (p: ProductionRow) => p.quantity.Some? && p.price.Some?, ProductionValue);
    ProductionNonNegative(ps);
    Sum(ps, ProductionValue)
  }

  lemma ProductionNonNegative(ps: seq<ProductionRow>)
    ensures (forall i :: 0 <= i < |ps| ==> RealOrZero(ps[i].quantity) >= 0.0 && RealOrZero(ps[i].price) >= 0.0) ==>
      Sum(ps, ProductionValue) >= 0.0
  {
    if forall i :: 0 <= i < |ps| ==> RealOrZero(ps[i].quantity) >= 0.0 && RealOrZero(ps[i].price) >= 0.0 {
      SumNonNegative(ps, ProductionValue);
    }
  }

  /**
   Where every field reads as a number, the Reports page and the Products page
   show the same production value; elsewhere the Products total is NaN while
   this one skips the unreadable rows.
   */
  lemma TotalProductionMatchesProductsPage(ps: seq<ProductionRow>)
    requires AllNumeric(ps)
    ensures TotalValue(ps) == Some(TotalProduction(ps))
  {
    forall i | 0 <= i < |ps| ensures RowValue(ps[i]) == ProductionValue(ps[i]) {
      assert ps[i].quantity.Some? && ps[i].price.Some?;
    }
    SumCongruent(ps, RowValue, ProductionValue);
  }

  /** `totalShares`: the sum of the members' funds that read as numbers; unreadable ones count 0. */
  function TotalShares(members: seq<ReportMember>): (r: real)
    ensures r == Sum(Filter(members, (m: ReportMember) => m.fundsAmount.Some?), (m: ReportMember) => RealOrZero(m.fundsAmount))
  {
    SumSkipsZeros(members, (m: ReportMember) => m.fundsAmount.Some?, (m: ReportMember) => RealOrZero(m.fundsAmount));
    Sum(members, (m: ReportMember) => RealOrZero(m.fundsAmount))
  }

  /** The share value shown beside the share count: 1,000 baht a share. */
  function ShareValueShown(members: seq<ReportMember>): (r: real)
    ensures r == 1000.0 * TotalShares(members)
    ensures (forall i :: 0 <= i < |members| ==> RealOrZero(members[i].fundsAmount) >= 0.0) ==> r >= 0.0
  {
    var total := TotalShares(members);
    SharesNonNegative(members);
    total * 1000.0
  }

  /**
   When the Reports page reads the same funds figures as the Members page and
   every member record keeps its share value at 1,000 times its funds, the
   share value shown is the total of the Members page's share-value column.
   */
  lemma {:induction false} ShareValueShownIsMembersColumn(
    reports: seq<ReportMember>, records: seq<MembersPage.MemberRecord>, number: string -> Option<real>)
    requires |reports| == |records|
    requires forall i :: 0 <= i < |records| ==>
      reports[i].fundsAmount == number(records[i].fundsAmount) && MembersPage.ShareValueConsistent(records[i], number)
    ensures ShareValueShown(reports) == Sum(records, (m: MembersPage.MemberRecord) => RealOrZero(m.shareValue))
    decreases |reports|
  {
    if |reports| > 0 {
      assert forall i :: 0 <= i < |records[1..]| ==> records[1..][i] == records[i + 1];
      assert forall i :: 0 <= i < |reports[1..]| ==> reports[1..][i] == reports[i + 1];
      ShareValueShownIsMembersColumn(reports[1..], records[1..], number);
      assert MembersPage.ShareValueConsistent(records[0], number);
    }
  }

  lemma SharesNonNegative(members: seq<ReportMember>)
    ensures (forall i :: 0 <= i < |members| ==> RealOrZero(members[i].fundsAmount) >= 0.0) ==> TotalShares(members) >= 0.0
  {
    if forall i :: 0 <= i < |members| ==> RealOrZero(members[i].fundsAmount) >= 0.0 {
      SumNonNegative(members, (m: ReportMember) => RealOrZero(m.fundsAmount));
    }
  }

  /** The page's reading of one ledger entry. */
  function ReportRowOf(e: LedgerEntry): ReportRow {
    ReportRow(e.financeId, Some(e.income), Some(e.expense))
  }

  function ReportRowsOf(es: seq<LedgerEntry>): (r: seq<ReportRow>)
    ensures |r| == |es|
    ensures forall i :: 0 <= i < |es| ==> r[i] == ReportRowOf(es[i])
  {
    if |es| == 0 then [] else [ReportRowOf(es[0])] + ReportRowsOf(es[1..])
  }

  lemma {:induction false} ReportRowsSums(es: seq<LedgerEntry>)
    ensures TotalIncome(ReportRowsOf(es)) == Sum(es, EntryIncome)
    ensures TotalExpense(ReportRowsOf(es)) == Sum(es, EntryExpense)
    decreases |es|
  {
    if |es| > 0 {
      ReportRowsSums(es[1..]);
      assert ReportRowsOf(es)[1..] == ReportRowsOf(es[1..]);
    }
  }

  /**
   Over the `/accounting` body, the page's income is the share capital plus all
   sales and its expense is the paid production cost. With no negative price or
   stock, its net profit is the server's profit plus the share capital: the
   page counts paid-in capital as income.
   */
  lemma ReportsOverAccounting(members: seq<Member>, history: seq<HistoryRow>, products: Table, today: string)
    ensures var resp := GetAccounting(members, history, products, today);
      var rows := Normalize(Object(Some(Rows(ReportRowsOf(resp.data)))));
      && TotalIncome(rows) == MemberCapital(members) + Revenue(history)
      && TotalExpense(rows) == PaidCost(products)
      && ((forall i :: 0 <= i < |products| ==> Decimal0(products[i].price) >= 0 && Stock(products[i]) >= 0) ==>
          NetProfit(rows) == resp.totalProfit + MemberCapital(members))
  {
    var resp := GetAccounting(members, history, products, today);
    LedgerReconciles(members, history, products, today);
    ReportTotals(resp.data, MemberCapital(members) + Revenue(history), PaidCost(products));
    if forall i :: 0 <= i < |products| ==> Decimal0(products[i].price) >= 0 && Stock(products[i]) >= 0 {
      PaidCostIsCostBasis(products);
    }
  }

  /** The page's totals over an unwrapped `/accounting` body are the body's column totals. */
  lemma ReportTotals(es: seq<LedgerEntry>, income: real, expense: real)
    requires Sum(es, EntryIncome) == income && Sum(es, EntryExpense) == expense
    ensures var rows := Normalize(Object(Some(Rows(ReportRowsOf(es)))));
      TotalIncome(rows) == income && TotalExpense(rows) == expense && NetProfit(rows) == income - expense
  {
    ReportRowsSums(es);
  }
}

=== FILE: settlement.dfy ===
/**
 Sale settlement on the server: `POST /sales` (server.cjs:668-795), which logs
 one purchase-history row per order line and then floors the stock of the
 matching product, and the first-registered `POST /purchase-history`
 (server.cjs:886-939), which logs one row and decrements stock the same way.

 The order lines run under `Promise.all` in the source; here they settle one
 after another in input order. Every database call may fail; which ones do is
 an input (`LineFaults`), since the store decides it, not the caller.
 */
module Settlement {
  import opened Common
  import opened Inventory

  const DefaultCustomerId: int := 1
  const DefaultCategory: string := "ไม่ระบุ"
  const DefaultUnit: string := "ชิ้น"
  const PosStaff: string := "ระบบ POS"

  /** A row of `tb_purchase_history`; also the body `POST /purchase-history` accepts. */
  datatype HistoryRow = HistoryRow(
    customerId: int,
    orderNumber: string,
    productName: string,
    category: string,
    quantity: int,
    unit: string,
    pricePerUnit: real,
    totalPrice: real,
    purchaseDate: string,
    staffName: string)

  /** The two tables settlement touches. */
  datatype Db = Db(products: Table, history: seq<HistoryRow>)

  /** One element of the `products` array of a sale; an empty string is a missing field. */
  datatype OrderLine = OrderLine(name: string, category: string, quantity: int, price: real, unit: string)

  /** The body of `POST /sales`; `products` is None when it is missing or not an array. */
  datatype SaleRequest = SaleRequest(
    orderNumber: string,
    customerId: Option<int>,
    customerName: string,
    products: Option<seq<OrderLine>>,
    orderDate: string)

  /**
   What the handler takes from the clock: the `ORD-${Date.now()}` fallback the
   inserts use, the one the reply builds again after every line has settled,
   and today's ISO date.
   */
  datatype Clock = Clock(generatedOrderNumber: string, replyOrderNumber: string, today: string)

  /** Which of one line's three database calls fail. */
  datatype LineFaults = LineFaults(insertFails: bool, lookupFails: bool, updateFails: bool)

  const NoFaults: LineFaults := LineFaults(false, false, false)

  /** The store's behaviour for line `i`; lines past the end of the list fail nowhere. */
  function FaultAt(faults: seq<LineFaults>, i: nat): LineFaults {
    if i < |faults| then faults[i] else NoFaults
  }

  function TailFaults(faults: seq<LineFaults>): (r: seq<LineFaults>)
    ensures forall i: nat :: FaultAt(r, i) == FaultAt(faults, i + 1)
  {
    if |faults| == 0 then [] else faults[1..]
  }

  /** Why a logged line did not update stock. */
  datatype StockError = LookupFailed | UpdateFailed | NotInInventory

  /** One element of `stockUpdates`: a logged line, with its stock update or the reason there was none. */
  datatype LineResult =
    | StockUpdated(saleId: nat, productName: string, oldStock: int, newStock: int, isOutOfStock: bool)
    | StockWarning(saleId: nat, productName: string, error: StockError)

  /** `r.isOutOfStock` read as a boolean: absent on warnings, so false there. */
  predicate IsOutOfStock(r: LineResult) {
    r.StockUpdated? && r.isOutOfStock
  }

  /** A line either rejected its promise (the insert failed) or resolved with a result. */
  datatype LineOutcome = InsertFailed | Resolved(result: LineResult)

  /** A history row whose total is its quantity times its unit price. */
  predicate Priced(row: HistoryRow) {
    row.totalPrice == row.quantity as real * row.pricePerUnit
  }

  /** The purchase-history row `POST /sales` writes for a line, with the handler's fallbacks for missing fields. */
  function HistoryRowFor(req: SaleRequest, clock: Clock, line: OrderLine): (row: HistoryRow)
    ensures Priced(row)
    ensures row.productName == line.name && row.quantity == line.quantity && row.pricePerUnit == line.price
    ensures row.customerId == (if req.customerId.None? || req.customerId.value == 0 then 1 else req.customerId.value)
    ensures row.category == (if line.category == "" then DefaultCategory else line.category)
    ensures row.orderNumber == (if req.orderNumber == "" then clock.generatedOrderNumber else req.orderNumber)
    ensures row.staffName == PosStaff
  {
    HistoryRow(
      if req.customerId.None? || req.customerId.value == 0 then DefaultCustomerId else req.customerId.value,
      OrderNumberOf(req, clock),
      line.name,
      if line.category == "" then DefaultCategory else line.category,
      line.quantity,
      if line.unit == "" then DefaultUnit else line.unit,
      line.price,
      line.quantity as real * line.price,
      if req.orderDate == "" then clock.today else req.orderDate,
      PosStaff)
  }

  /** `orderNumber || \`ORD-${Date.now()}\`` in the insert of a history row. */
  function OrderNumberOf(req: SaleRequest, clock: Clock): string {
    if req.orderNumber == "" then clock.generatedOrderNumber else req.orderNumber
  }

  /** The same expression in the reply, where `Date.now()` is read again. */
  function ReplyOrderNumber(req: SaleRequest, clock: Clock): string {
    if req.orderNumber == "" then clock.replyOrderNumber else req.orderNumber
  }

  /**
   One line of `POST /sales`: insert its history row; then look up the
   lowest-id product with exactly that name and write `max(0, stock - sold)`.
   A failed lookup, a missing product or a failed write only downgrades the
   line to a warning: the row stays logged and the stock stays as it was.
   */
  function SettleLine(db: Db, req: SaleRequest, clock: Clock, line: OrderLine, f: LineFaults): (r: (LineOutcome, Db))
    ensures f.insertFails ==> r == (InsertFailed, db)
    ensures !f.insertFails ==> r.0.Resolved? && r.0.result.saleId == |db.history| + 1
    ensures !f.insertFails ==> r.1.history == db.history + [HistoryRowFor(req, clock, line)]
    ensures !f.insertFails ==> r.0.result.productName == line.name
    ensures SameRows(db.products, r.1.products)
    ensures StocksNonNegative(db.products) ==> StocksNonNegative(r.1.products)
  {
    if f.insertFails then (InsertFailed, db)
    else
      var history := db.history + [HistoryRowFor(req, clock, line)];
      var saleId := |history|;
      var logged := db.(history := history);
      if f.lookupFails then (Resolved(StockWarning(saleId, line.name, LookupFailed)), logged)
      else
        match LowestByName(db.products, line.name)
        case None => (Resolved(StockWarning(saleId, line.name, NotInInventory)), logged)
        case Some(p) =>
          var current := Stock(p);
          var n := ClampedStock(current, line.quantity);
          if f.updateFails then (Resolved(StockWarning(saleId, line.name, UpdateFailed)), logged)
          else
            var written := WriteStock(db.products, p.id, n);
            WriteStockKeepsNonNegativeIfStocks(db.products, p.id, n);
            (Resolved(StockUpdated(saleId, line.name, current, n, n == 0)), Db(written, history))
  }

  /**
   How one line ends: a failed lookup, a missing product or a failed write
   leaves a warning and the stock untouched; otherwise the lowest-id product
   with the line's name, and only that row, gets `max(0, stock - quantity)`.
   */
  lemma SettleLineCases(db: Db, req: SaleRequest, clock: Clock, line: OrderLine, f: LineFaults)
    ensures var r := SettleLine(db, req, clock, line, f);
      && (r.0.Resolved? && r.0.result.StockUpdated? <==>
            !f.insertFails && !f.lookupFails && !f.updateFails && LowestByName(db.products, line.name).Some?)
      && (r.0.Resolved? && r.0.result.StockWarning? ==> r.1.products == db.products)
      && (!f.insertFails && f.lookupFails ==> r.0.result == StockWarning(|db.history| + 1, line.name, LookupFailed))
      && (!f.insertFails && !f.lookupFails && LowestByName(db.products, line.name).None? ==>
            r.0.result == StockWarning(|db.history| + 1, line.name, NotInInventory))
      && (!f.insertFails && !f.lookupFails && f.updateFails && LowestByName(db.products, line.name).Some? ==>
            r.0.result == StockWarning(|db.history| + 1, line.name, UpdateFailed))
      && (r.0.Resolved? && r.0.result.StockUpdated? ==>
            && var p := LowestByName(db.products, line.name).value;
            && r.0.result.oldStock == Stock(p)
            && r.0.result.newStock == ClampedStock(Stock(p), line.quantity)
            && (r.0.result.isOutOfStock <==> r.0.result.newStock == 0)
            && r.1.products == WriteStock(db.products, p.id, r.0.result.newStock))
  {
  }

  lemma WriteStockKeepsNonNegativeIfStocks(t: Table, id: int, n: int)
    requires n >= 0
    ensures StocksNonNegative(t) ==> StocksNonNegative(WriteStock(t, id, n))
    ensures SameRows(t, WriteStock(t, id, n))
  {
    if StocksNonNegative(t) {
      WriteStockKeepsNonNegative(t, id, n);
    }
  }

  /** The history rows a run of lines appends: one per line whose insert succeeds, in line order. */
  function InsertedRows(req: SaleRequest, clock: Clock, lines: seq<OrderLine>, faults: seq<LineFaults>): (rows: seq<HistoryRow>)
    ensures |rows| <= |lines|
    ensures forall k :: 0 <= k < |rows| ==> Priced(rows[k])
    decreases |lines|
  {
    if |lines| == 0 then []
    else
      var rest := InsertedRows(req, clock, lines[1..], TailFaults(faults));
      if FaultAt(faults, 0).insertFails then rest
      else [HistoryRowFor(req, clock, lines[0])] + rest
  }

  /** With no failed insert, the appended rows are exactly one row per line, in line order. */
  lemma {:induction false} InsertedRowsWithoutFaults(req: SaleRequest, clock: Clock, lines: seq<OrderLine>, faults: seq<LineFaults>)
    requires forall i: nat :: i < |lines| ==> !FaultAt(faults, i).insertFails
    ensures |InsertedRows(req, clock, lines, faults)| == |lines|
    ensures forall i :: 0 <= i < |lines| ==> InsertedRows(req, clock, lines, faults)[i] == HistoryRowFor(req, clock, lines[i])
    decreases |lines|
  {
    if |lines| > 0 {
      InsertedRowsWithoutFaults(req, clock, lines[1..], TailFaults(faults));
      var rest := InsertedRows(req, clock, lines[1..], TailFaults(faults));
      assert forall i :: 1 <= i < |lines| ==> ([HistoryRowFor(req, clock, lines[0])] + rest)[i] == rest[i - 1];
    }
  }

  /** The lines of an order, settled one after another against the evolving tables. */
  function SettleLines(db: Db, req: SaleRequest, clock: Clock, lines: seq<OrderLine>, faults: seq<LineFaults>): (r: (seq<LineOutcome>, Db))
    ensures |r.0| == |lines|
    ensures forall i :: 0 <= i < |lines| ==> (r.0[i].InsertFailed? <==> FaultAt(faults, i).insertFails)
    ensures forall i :: 0 <= i < |lines| && r.0[i].Resolved? ==> r.0[i].result.productName == lines[i].name
    ensures r.1.history == db.history + InsertedRows(req, clock, lines, faults)
    ensures SameRows(db.products, r.1.products)
    ensures StocksNonNegative(db.products) ==> StocksNonNegative(r.1.products)
    decreases |lines|
  {
    if |lines| == 0 then ([], db)
    else
      var (first, db1) := SettleLine(db, req, clock, lines[0], FaultAt(faults, 0));
      var (rest, db2) := SettleLines(db1, req, clock, lines[1..], TailFaults(faults));
      SameRowsTransitive(db.products, db1.products, db2.products);
      SettleLinesCons(db, req, clock, lines, faults, first, db1, rest, db2);
      ([first] + rest, db2)
  }

  /** The facts about the first line and the rest carry over to the whole run. */
  lemma SettleLinesCons(
    db: Db, req: SaleRequest, clock: Clock, lines: seq<OrderLine>, faults: seq<LineFaults>,
    first: LineOutcome, db1: Db, rest: seq<LineOutcome>, db2: Db)
    requires |lines| > 0
    requires (first, db1) == SettleLine(db, req, clock, lines[0], FaultAt(faults, 0))
    requires |rest| == |lines| - 1
    requires forall i :: 0 <= i < |rest| ==> (rest[i].InsertFailed? <==> FaultAt(TailFaults(faults), i).insertFails)
    requires forall i :: 0 <= i < |rest| && rest[i].Resolved? ==> rest[i].result.productName == lines[1..][i].name
    requires db2.history == db1.history + InsertedRows(req, clock, lines[1..], TailFaults(faults))
    ensures var outs := [first] + rest;
      && (forall i :: 0 <= i < |lines| ==> (outs[i].InsertFailed? <==> FaultAt(faults, i).insertFails))
      && (forall i :: 0 <= i < |lines| && outs[i].Resolved? ==> outs[i].result.productName == lines[i].name)
      && db2.history == db.history + InsertedRows(req, clock, lines, faults)
  {
    var f := FaultAt(faults, 0);
    assert first.InsertFailed? <==> f.insertFails;
    assert first.Resolved? ==> first.result.productName == lines[0].name;
    assert db1.history == db.history + (if f.insertFails then [] else [HistoryRowFor(req, clock, lines[0])]);
    ConsOutcomes(lines, faults, first, rest);
    HistoryCons(db.history, db1.history, db2.history, req, clock, lines, faults);
  }

  lemma ConsOutcomes(lines: seq<OrderLine>, faults: seq<LineFaults>, first: LineOutcome, rest: seq<LineOutcome>)
    requires |lines| > 0 && |rest| == |lines| - 1
    requires first.InsertFailed? <==> FaultAt(faults, 0).insertFails
    requires first.Resolved? ==> first.result.productName == lines[0].name
    requires forall i :: 0 <= i < |rest| ==> (rest[i].InsertFailed? <==> FaultAt(TailFaults(faults), i).insertFails)
    requires forall i :: 0 <= i < |rest| && rest[i].Resolved? ==> rest[i].result.productName == lines[1..][i].name
    ensures var outs := [first] + rest;
      && (forall i :: 0 <= i < |lines| ==> (outs[i].InsertFailed? <==> FaultAt(faults, i).insertFails))
      && (forall i :: 0 <= i < |lines| && outs[i].Resolved? ==> outs[i].result.productName == lines[i].name)
  {
    var outs := [first] + rest;
    forall i | 1 <= i < |lines|
      ensures outs[i] == rest[i - 1] && lines[i] == lines[1..][i - 1]
      ensures FaultAt(faults, i) == FaultAt(TailFaults(faults), i - 1)
    {
    }
  }

  lemma HistoryCons(h0: seq<HistoryRow>, h1: seq<HistoryRow>, h2: seq<HistoryRow>,
    req: SaleRequest, clock: Clock, lines: seq<OrderLine>, faults: seq<LineFaults>)
    requires |lines| > 0
    requires h1 == h0 + (if FaultAt(faults, 0).insertFails then [] else [HistoryRowFor(req, clock, lines[0])])
    requires h2 == h1 + InsertedRows(req, clock, lines[1..], TailFaults(faults))
    ensures h2 == h0 + InsertedRows(req, clock, lines, faults)
  {
    var inserted := InsertedRows(req, clock, lines[1..], TailFaults(faults));
    if !FaultAt(faults, 0).insertFails {
      var row := HistoryRowFor(req, clock, lines[0]);
      assert (h0 + [row]) + inserted == h0 + ([row] + inserted);
    } else {
      assert h0 + [] == h0;
    }
  }

  /** `id` is the lowest id among the products named like some line. */
  ghost predicate IsMatchedId(t: Table, lines: seq<OrderLine>, id: int) {
    exists k :: 0 <= k < |lines| && LowestByName(t, lines[k].name).Some? && LowestByName(t, lines[k].name).value.id == id
  }

  /** Settling an order leaves every product that no line resolves to exactly as it was. */
  lemma {:induction false} SettleLinesTouchesOnlyMatches(db: Db, req: SaleRequest, clock: Clock, lines: seq<OrderLine>, faults: seq<LineFaults>, i: int)
    requires 0 <= i < |db.products|
    requires !IsMatchedId(db.products, lines, db.products[i].id)
    ensures SettleLines(db, req, clock, lines, faults).1.products[i] == db.products[i]
    decreases |lines|
  {
    if |lines| > 0 {
      var f := FaultAt(faults, 0);
      var (first, db1) := SettleLine(db, req, clock, lines[0], f);
      SettleLineCases(db, req, clock, lines[0], f);
      assert db1.products[i] == db.products[i] by {
        if first.Resolved? && first.result.StockUpdated? {
          assert LowestByName(db.products, lines[0].name).value.id != db.products[i].id;
        }
      }
      forall k | 0 <= k < |lines[1..]|
        ensures !(LowestByName(db1.products, lines[1..][k].name).Some? && LowestByName(db1.products, lines[1..][k].name).value.id == db1.products[i].id)
      {
        LowestByNameStable(db.products, db1.products, lines[1..][k].name);
        assert lines[1..][k] == lines[k + 1];
      }
      SettleLinesTouchesOnlyMatches(db1, req, clock, lines[1..], TailFaults(faults), i);
    }
  }

  /** The results of the lines, when none of them rejected. */
  function ResultsOf(outs: seq<LineOutcome>): (rs: seq<LineResult>)
    requires forall i :: 0 <= i < |outs| ==> outs[i].Resolved?
    ensures |rs| == |outs|
    ensures forall i :: 0 <= i < |outs| ==> rs[i] == outs[i].result
  {
    if |outs| == 0 then [] else [outs[0].result] + ResultsOf(outs[1..])
  }

  /** `.map(p => p.productName)`. */
  function ProductNames(rs: seq<LineResult>): (names: seq<string>)
    ensures |names| == |rs|
    ensures forall i :: 0 <= i < |rs| ==> names[i] == rs[i].productName
  {
    if |rs| == 0 then [] else [rs[0].productName] + ProductNames(rs[1..])
  }

  /**
   `results.filter(r => r.isOutOfStock).map(p => p.productName)`: the names of
   exactly the flagged lines, in line order, one per flagged line.
   */
  function OutOfStockNames(rs: seq<LineResult>): (names: seq<string>)
    ensures names == ProductNames(Filter(rs, IsOutOfStock))
    ensures forall i :: 0 <= i < |rs| && IsOutOfStock(rs[i]) ==> rs[i].productName in names
    ensures forall k :: 0 <= k < |names| ==> exists i :: 0 <= i < |rs| && IsOutOfStock(rs[i]) && rs[i].productName == names[k]
    decreases |rs|
  {
    if |rs| == 0 then []
    else
      var rest := OutOfStockNames(rs[1..]);
      OutOfStockNamesStep(rs, rest);
      FlaggedNames(rs);
      if IsOutOfStock(rs[0]) then [rs[0].productName] + rest else rest
  }

  /** One step of `OutOfStockNames`: the head's name goes in front of the tail's names exactly when the head is flagged. */
  lemma OutOfStockNamesStep(rs: seq<LineResult>, rest: seq<string>)
    requires |rs| > 0
    requires rest == ProductNames(Filter(rs[1..], IsOutOfStock))
    ensures (if IsOutOfStock(rs[0]) then [rs[0].productName] + rest else rest) == ProductNames(Filter(rs, IsOutOfStock))
  {
    if IsOutOfStock(rs[0]) {
      var flagged := Filter(rs[1..], IsOutOfStock);
      assert Filter(rs, IsOutOfStock) == [rs[0]] + flagged;
      assert ([rs[0]] + flagged)[1..] == flagged;
    }
  }

  /** The names of the flagged lines name every flagged line and nothing else. */
  lemma FlaggedNames(rs: seq<LineResult>)
    ensures var names := ProductNames(Filter(rs, IsOutOfStock));
      && (forall i :: 0 <= i < |rs| && IsOutOfStock(rs[i]) ==> rs[i].productName in names)
      && (forall k :: 0 <= k < |names| ==> exists i :: 0 <= i < |rs| && IsOutOfStock(rs[i]) && rs[i].productName == names[k])
  {
    var flagged := Filter(rs, IsOutOfStock);
    var names := ProductNames(flagged);
    forall i | 0 <= i < |rs| && IsOutOfStock(rs[i]) ensures rs[i].productName in names {
      FilterMembership(rs, IsOutOfStock, rs[i]);
      var j :| 0 <= j < |flagged| && flagged[j] == rs[i];
      assert names[j] == rs[i].productName;
    }
    forall k | 0 <= k < |names|
      ensures exists i :: 0 <= i < |rs| && IsOutOfStock(rs[i]) && rs[i].productName == names[k]
    {
      FilterMembership(rs, IsOutOfStock, flagged[k]);
      var i :| 0 <= i < |rs| && rs[i] == flagged[k];
      assert IsOutOfStock(rs[i]) && rs[i].productName == names[k];
    }
  }

  /** The JSON body of a successful `POST /sales`. */
  datatype SaleResponse = SaleResponse(
    orderNumber: string,
    customerId: Option<int>,
    customerName: string,
    productsCount: nat,
    outOfStockProducts: seq<string>,
    stockUpdates: seq<LineResult>)

  predicate AnyInsertFailed(outs: seq<LineOutcome>) {
    exists i :: 0 <= i < |outs| && outs[i].InsertFailed?
  }

  /**
   `POST /sales`. A body without a `products` array is a 400 before any write.
   Otherwise every line settles; if any history insert failed the reply is a
   500, although every other line's row and stock write are already in place.
   */
  function PostSales(db: Db, req: SaleRequest, clock: Clock, faults: seq<LineFaults>): (r: (Reply<SaleResponse>, Db))
    ensures req.products.None? ==> r == (Fail(400), db)
    ensures req.products.Some? ==> r.1.history == db.history + InsertedRows(req, clock, req.products.value, faults)
    ensures SameRows(db.products, r.1.products)
    ensures StocksNonNegative(db.products) ==> StocksNonNegative(r.1.products)
    ensures req.products.Some? && (exists i :: 0 <= i < |req.products.value| && FaultAt(faults, i).insertFails) ==> r.0 == Fail(500)
    ensures req.products.Some? && (forall i :: 0 <= i < |req.products.value| ==> !FaultAt(faults, i).insertFails) ==> r.0.Ok?
    ensures r.0.Ok? ==>
      && req.products.Some?
      && var lines := req.products.value;
      && r.0.body.productsCount == |lines|
      && |r.0.body.stockUpdates| == |lines|
      && (forall i :: 0 <= i < |lines| ==> r.0.body.stockUpdates[i].productName == lines[i].name)
      && r.0.body.outOfStockProducts == OutOfStockNames(r.0.body.stockUpdates)
      && r.0.body.orderNumber == (if req.orderNumber == "" then clock.replyOrderNumber else req.orderNumber)
  {
    match req.products
    case None => (Fail(400), db)
    case Some(lines) =>
      var (outs, settled) := SettleLines(db, req, clock, lines, faults);
      if AnyInsertFailed(outs) then (Fail(500), settled)
      else
        var results := ResultsOf(outs);
        (Ok(SaleResponse(ReplyOrderNumber(req, clock), req.customerId, req.customerName,
                         |results|, OutOfStockNames(results), results)), settled)
  }

  /** A sale in which no call fails logs exactly one row per line, each totalling quantity times price. */
  lemma OneRowPerLine(db: Db, req: SaleRequest, clock: Clock)
    requires req.products.Some?
    ensures
      var r := PostSales(db, req, clock, []);
      var lines := req.products.value;
      && |r.1.history| == |db.history| + |lines|
      && r.1.history[..|db.history|] == db.history
      && (forall i :: 0 <= i < |lines| ==>
            && r.1.history[|db.history| + i] == HistoryRowFor(req, clock, lines[i])
            && r.1.history[|db.history| + i].totalPrice == lines[i].quantity as real * lines[i].price)
  {
    InsertedRowsWithoutFaults(req, clock, req.products.value, []);
  }

  /** A sale in which no call fails is accepted and logs one row per line. */
  lemma SaleWithoutFaults(db: Db, req: SaleRequest, clock: Clock)
    requires req.products.Some?
    ensures var r := PostSales(db, req, clock, []);
      r.0.Ok? && |r.1.history| == |db.history| + |req.products.value|
  {
    InsertedRowsWithoutFaults(req, clock, req.products.value, []);
  }

  /** The reply to a successful `POST /purchase-history`. */
  datatype HistoryPosted = HistoryPosted(historyId: nat, row: HistoryRow, stockUpdateError: bool)

  /**
   The first-registered `POST /purchase-history`: log the row as sent (its
   `total_price` is not recomputed), then floor the stock of the first product
   with that name in table order. The reply does not wait for the stock write
   and does not report whether it failed; only a failed lookup is reported.
   */
  function PostPurchaseHistory(db: Db, row: HistoryRow, f: LineFaults): (r: (Reply<HistoryPosted>, Db))
    ensures f.insertFails ==> r == (Fail(500), db)
    ensures !f.insertFails ==> r.0 == Ok(HistoryPosted(|db.history| + 1, row, f.lookupFails))
    ensures !f.insertFails ==> r.1.history == db.history + [row]
    ensures SameRows(db.products, r.1.products)
    ensures StocksNonNegative(db.products) ==> StocksNonNegative(r.1.products)
    ensures f.insertFails || f.lookupFails || f.updateFails || FirstByName(db.products, row.productName).None? ==>
      r.1.products == db.products
    ensures !f.insertFails && !f.lookupFails && !f.updateFails && FirstByName(db.products, row.productName).Some? ==>
      && var p := db.products[FirstByName(db.products, row.productName).value];
      && r.1.products == WriteStock(db.products, p.id, ClampedStock(Stock(p), row.quantity))
  {
    if f.insertFails then (Fail(500), db)
    else
      var history := db.history + [row];
      var reply := Ok(HistoryPosted(|history|, row, f.lookupFails));
      if f.lookupFails then (reply, db.(history := history))
      else
        match FirstByName(db.products, row.productName)
        case None => (reply, db.(history := history))
        case Some(k) =>
          var p := db.products[k];
          var n := ClampedStock(Stock(p), row.quantity);
          WriteStockKeepsNonNegativeIfStocks(db.products, p.id, n);
          var products := if f.updateFails then db.products else WriteStock(db.products, p.id, n);
          (reply, Db(products, history))
  }
}

=== FILE: sorting.dfy ===
/**
 A stable insertion sort over a caller-supplied "comes no later than" relation.
 It gives the ledger's `ORDER BY` one of the orders the database may return,
 with tied rows kept in input order, and it stands for the Accounting page's
 stable `Array.prototype.sort` on reference numbers.
 */
module Sorting {
  import opened Common

  /** `le` is total and transitive: a comparator that sorting can rely on. */
  ghost predicate TotalPreorder<T(!new)>(le: (T, T) -> bool) {
    && (forall a, b :: le(a, b) || le(b, a))
    && (forall a, b, c :: le(a, b) && le(b, c) ==> le(a, c))
  }

  ghost predicate SortedBy<T>(s: seq<T>, le: (T, T) -> bool) {
    forall i, j :: 0 <= i < j < |s| ==> le(s[i], s[j])
  }

  /** Places `x` in front of the first element it comes no later than. */
  function Insert<T>(x: T, s: seq<T>, le: (T, T) -> bool): (r: seq<T>)
    ensures |r| == |s| + 1
  {
    if |s| == 0 then [x]
    else if le(x, s[0]) then [x] + s
    else [s[0]] + Insert(x, s[1..], le)
  }

  lemma {:induction false} InsertPermutes<T>(x: T, s: seq<T>, le: (T, T) -> bool)
    ensures multiset(Insert(x, s, le)) == multiset(s) + multiset{x}
    decreases |s|
  {
    if |s| > 0 && !le(x, s[0]) {
      InsertPermutes(x, s[1..], le);
      assert s == [s[0]] + s[1..];
    }
  }

  lemma {:induction false} InsertSorted<T(!new)>(x: T, s: seq<T>, le: (T, T) -> bool)
    requires TotalPreorder(le)
    requires SortedBy(s, le)
    ensures SortedBy(Insert(x, s, le), le)
    decreases |s|
  {
    if |s| > 0 && !le(x, s[0]) {
      var rest := Insert(x, s[1..], le);
      InsertSorted(x, s[1..], le);
      InsertBelowHead(x, s, le);
      ConsSorted(s[0], rest, le);
    } else if |s| > 0 {
      ConsSorted(x, s, le);
    }
  }

  /** Inserting into the tail of a sorted list keeps every element at or after its head. */
  lemma InsertBelowHead<T(!new)>(x: T, s: seq<T>, le: (T, T) -> bool)
    requires TotalPreorder(le)
    requires SortedBy(s, le)
    requires |s| > 0 && !le(x, s[0])
    ensures forall k :: 0 <= k < |Insert(x, s[1..], le)| ==> le(s[0], Insert(x, s[1..], le)[k])
  {
    var rest := Insert(x, s[1..], le);
    InsertPermutes(x, s[1..], le);
    assert le(s[0], x);
    forall k | 0 <= k < |rest|
      ensures le(s[0], rest[k])
    {
      assert rest[k] in multiset(rest);
      if rest[k] != x {
        assert rest[k] in multiset(s[1..]);
        var j :| 0 <= j < |s[1..]| && s[1..][j] == rest[k];
        assert s[j + 1] == rest[k];
      }
    }
  }

  /** A sorted list stays sorted behind a head that comes no later than all of it. */
  lemma ConsSorted<T(!new)>(x: T, s: seq<T>, le: (T, T) -> bool)
    requires TotalPreorder(le)
    requires SortedBy(s, le)
    requires (forall k :: 0 <= k < |s| ==> le(x, s[k])) || (|s| > 0 && le(x, s[0]))
    ensures SortedBy([x] + s, le)
  {
    var r := [x] + s;
    forall i, j | 0 <= i < j < |r|
      ensures le(r[i], r[j])
    {
      if i == 0 {
        assert r[j] == s[j - 1];
        if !(forall k :: 0 <= k < |s| ==> le(x, s[k])) && j > 1 {
          assert le(s[0], s[j - 1]);
        }
      } else {
        assert r[i] == s[i - 1] && r[j] == s[j - 1];
      }
    }
  }

  /** Insertion sort: the result is ordered by `le` and is a rearrangement of the input. */
  function SortBy<T(!new)>(s: seq<T>, le: (T, T) -> bool): (r: seq<T>)
    requires TotalPreorder(le)
    ensures SortedBy(r, le)
    ensures multiset(r) == multiset(s)
    ensures |r| == |s|
    decreases |s|
  {
    if |s| == 0 then []
    else
      var rest := SortBy(s[1..], le);
      SortStep(s, rest, le);
      Insert(s[0], rest, le)
  }

  /** Inserting the head into the sorted tail sorts the whole list. */
  lemma SortStep<T(!new)>(s: seq<T>, rest: seq<T>, le: (T, T) -> bool)
    requires TotalPreorder(le)
    requires |s| > 0 && SortedBy(rest, le) && multiset(rest) == multiset(s[1..])
    ensures SortedBy(Insert(s[0], rest, le), le)
    ensures multiset(Insert(s[0], rest, le)) == multiset(s)
  {
    InsertSorted(s[0], rest, le);
    InsertPermutes(s[0], rest, le);
    assert s == [s[0]] + s[1..];
  }

  lemma {:induction false} InsertSum<T>(x: T, s: seq<T>, le: (T, T) -> bool, f: T -> real)
    ensures Sum(Insert(x, s, le), f) == f(x) + Sum(s, f)
    decreases |s|
  {
    if |s| > 0 {
      if le(x, s[0]) {
        assert ([x] + s)[1..] == s;
      } else {
        InsertSum(x, s[1..], le, f);
        assert ([s[0]] + Insert(x, s[1..], le))[1..] == Insert(x, s[1..], le);
      }
    }
  }

  /** Sorting does not change a column total. */
  lemma {:induction false} SortSum<T(!new)>(s: seq<T>, le: (T, T) -> bool, f: T -> real)
    requires TotalPreorder(le)
    ensures Sum(SortBy(s, le), f) == Sum(s, f)
    decreases |s|
  {
    if |s| > 0 {
      SortSum(s[1..], le, f);
      InsertSum(s[0], SortBy(s[1..], le), le, f);
    }
  }
}

=== FILE: text.dfy ===
/**
 The string operations the pages and the SQL use: `toLowerCase`, `includes`,
 `startsWith`, `slice`, the `/\D/g` digit filter, `String(n)` for integers, and
 the code-point order behind `ORDER BY ... ASC` on text columns.
 */
module Text {

  /** `toLowerCase` on one character; only the ASCII letters are mapped. */
  function LowerChar(c: char): (r: char)
    ensures 'A' <= c <= 'Z' ==> r as int == c as int + 32
    ensures !('A' <= c <= 'Z') ==> r == c
  {
    if 'A' <= c <= 'Z' then (c as int + 32) as char else c
  }

  function Lower(s: string): (r: string)
    ensures |r| == |s|
    ensures forall i :: 0 <= i < |s| ==> r[i] == LowerChar(s[i])
  {
    if |s| == 0 then "" else [LowerChar(s[0])] + Lower(s[1..])
  }

  /** `s.startsWith(p)`. */
  predicate StartsWith(s: string, p: string) {
    |p| <= |s| && s[..|p|] == p
  }

  /** `s.includes(t)`, by scanning start positions left to right. */
  predicate Includes(s: string, t: string)
    decreases |s|
  {
    StartsWith(s, t) || (|s| > 0 && Includes(s[1..], t))
  }

  /** `t` occurs in `s` starting at position `i`. */
  predicate OccursAt(s: string, t: string, i: int) {
    0 <= i <= |s| - |t| && s[i..i + |t|] == t
  }

  /** `includes` holds exactly when `t` occurs at some position of `s`. */
  lemma {:induction false} IncludesIff(s: string, t: string)
    ensures Includes(s, t) <==> exists i :: OccursAt(s, t, i)
    decreases |s|
  {
    if StartsWith(s, t) {
      assert OccursAt(s, t, 0);
    }
    if |s| > 0 {
      IncludesIff(s[1..], t);
      if Includes(s[1..], t) {
        var i :| OccursAt(s[1..], t, i);
        assert s[i + 1..i + 1 + |t|] == s[1..][i..i + |t|];
        assert OccursAt(s, t, i + 1);
      }
      if exists i :: OccursAt(s, t, i) {
        var i :| OccursAt(s, t, i);
        if i > 0 {
          assert s[1..][i - 1..i - 1 + |t|] == s[i..i + |t|];
          assert OccursAt(s[1..], t, i - 1);
        } else {
          assert StartsWith(s, t);
        }
      }
    } else {
      if exists i :: OccursAt(s, t, i) {
        var i :| OccursAt(s, t, i);
        assert StartsWith(s, t);
      }
    }
  }

  /** The empty search term occurs in every string. */
  lemma IncludesEmpty(s: string)
    ensures Includes(s, "")
  {
    assert StartsWith(s, "");
  }

  /** `s.slice(from, to)` for non-negative bounds: both clamp to the length. */
  function Slice(s: string, from: nat, to: nat): (r: string)
    ensures from <= to <= |s| ==> r == s[from..to]
    ensures to <= from || |s| <= from ==> r == ""
  {
    var a := if from <= |s| then from else |s|;
    var b := if to <= |s| then to else |s|;
    if a < b then s[a..b] else ""
  }

  /** The class `\d` of a JavaScript regular expression without the `u` flag. */
  predicate IsDigit(c: char) {
    '0' <= c <= '9'
  }

  /** `s.replace(/\D/g, '')`: the digits of `s`, in order. */
  function DigitsOf(s: string): (r: string)
    ensures |r| <= |s|
    ensures forall i :: 0 <= i < |r| ==> IsDigit(r[i])
  {
    if |s| == 0 then ""
    else if IsDigit(s[0]) then [s[0]] + DigitsOf(s[1..])
    else DigitsOf(s[1..])
  }

  /** Removing non-digits from a string of digits changes nothing. */
  lemma {:induction false} DigitsOfDigits(s: string)
    requires forall i :: 0 <= i < |s| ==> IsDigit(s[i])
    ensures DigitsOf(s) == s
    decreases |s|
  {
    if |s| > 0 {
      DigitsOfDigits(s[1..]);
      assert s == [s[0]] + s[1..];
    }
  }

  /** The decimal digits of a natural number, most significant first (`String(n)`). */
  function NatToString(n: nat): (r: string)
    ensures |r| > 0
    ensures forall i :: 0 <= i < |r| ==> IsDigit(r[i])
    decreases n
  {
    var d := ['0' + (n % 10) as char];
    if n < 10 then d else NatToString(n / 10) + d
  }

  /** The value of a non-empty string of decimal digits. */
  function DigitsValue(s: string): nat
    requires forall i :: 0 <= i < |s| ==> IsDigit(s[i])
  {
    if |s| == 0 then 0
    else
      assert IsDigit(s[|s| - 1]);
      DigitsValue(s[..|s| - 1]) * 10 + (s[|s| - 1] as int - '0' as int)
  }

  /** Reading back the digits of `String(n)` gives `n`. */
  lemma {:induction false} NatToStringRoundTrip(n: nat)
    ensures DigitsValue(NatToString(n)) == n
    decreases n
  {
    var s := NatToString(n);
    if n >= 10 {
      NatToStringRoundTrip(n / 10);
      assert s[..|s| - 1] == NatToString(n / 10);
    }
  }

  /** `String(n)` for any integer. */
  function IntToString(n: int): (r: string)
    ensures |r| > 0
    ensures n >= 0 ==> r == NatToString(n)
    ensures n < 0 ==> r[0] == '-' && r[1..] == NatToString(-n)
  {
    if n >= 0 then NatToString(n) else "-" + NatToString(-n)
  }

  /** Code-point lexicographic order, the order of `ORDER BY ... ASC` on text in this model. */
  predicate LexLe(a: string, b: string)
    decreases |a|
  {
    if |a| == 0 then true
    else if |b| == 0 then false
    else if a[0] != b[0] then a[0] < b[0]
    else LexLe(a[1..], b[1..])
  }

  lemma {:induction false} LexLeTotal(a: string, b: string)
    ensures LexLe(a, b) || LexLe(b, a)
    decreases |a|
  {
    if |a| > 0 && |b| > 0 && a[0] == b[0] {
      LexLeTotal(a[1..], b[1..]);
    }
  }

  lemma {:induction false} LexLeAntisymmetric(a: string, b: string)
    requires LexLe(a, b) && LexLe(b, a)
    ensures a == b
    decreases |a|
  {
    if |a| > 0 {
      LexLeAntisymmetric(a[1..], b[1..]);
      assert a == [a[0]] + a[1..] && b == [b[0]] + b[1..];
    }
  }

  lemma {:induction false} LexLeTransitive(a: string, b: string, c: string)
    requires LexLe(a, b) && LexLe(b, c)
    ensures LexLe(a, c)
    decreases |a|
  {
    if |a| > 0 && a[0] == b[0] && b[0] == c[0] {
      LexLeTransitive(a[1..], b[1..], c[1..]);
    }
  }
}
